=== FILE: README.md ===
# SwarmEditor core in Dafny

A model of the core of SwarmEditor, a desktop code editor written in C#
(Avalonia, MVVM), together with proofs about it. The model covers:

- **Language-server catalog** (`lsp_settings.dfy`, `lsp_catalog.dfy`). This
  is the hard-coded OmniSharp entry and the first-match lookup by language id.
- **Installer** (`lsp_installer.dfy`). It computes the runtime identifier,
  chooses the archive kind by URL suffix and lays out the install paths. It
  then downloads, extracts, verifies and cleans up, all over an abstract
  disk.
- **Session layer** (`lsp_routing.dfy`, `lsp_service.dfy`):
  - the upward search for a workspace root;
  - the table of clients keyed by (workspace root, language id);
  - expansion of the argument template;
  - routing of notifications and requests by case-insensitive raw prefix;
  - the workspace-symbol merge and disposal.
- **Editor state machines**:
  - a single document (`document.dfy`) and a tab (`document_tab.dfy`);
  - the main window's tab list with its active-tab setter (`main_window.dfy`);
  - the editor area (`editor_area.dfy`);
  - the file tree and file explorer (`file_tree.dfy`, `file_explorer.dfy`).
- **Other parts of the editor**:
  - the chat transcript (`chat.dfy`) and the in-process event bus (`event_bus.dfy`);
  - the two command implementations (`commands.dfy`);
  - the breakpoint margin (`markers.dfy`) and the five value converters (`converters.dfy`).
- **The SVG-to-PNG tool** (`svg_cli.dfy`). This is its argument loop and its
  exit codes.
- **Shared building blocks**: `options.dfy`, `text.dfy`, `paths.dfy` and
  `filesystem.dfy`. They hold `Option`, ASCII string primitives, `System.IO.Path`
  for the separator '/', and a disk made of a set of files and a set of
  directories.

All state is immutable. Every operation is a function from the old state
and its inputs to the new state. C# object identity is modelled in two
places:

- **Main window tabs** use integer identities in a `store` map. A closed tab,
  or the placeholder, still exists as an object.
- **Editor-area documents** use the same scheme.

Everything the program learns from outside is a parameter:

- the network, the zip library, chmod;
- the file system's answers, a directory listing, a file read;
- the process start and the language-client handshake;
- a request's reply, the process id.

An effect the program has on the outside world is either:

- appended to an action log (installer actions; the notifications, requests
  and disposals of the session layer); or
- visible in the returned disk.

## Behaviour as written

The model follows the code as written, including where it departs from
what its names and comments suggest. These are the points where a reader
might expect something else.

### Catalog and session layer

- **Language-id matching.** The catalog lower-cases only the query and
  compares it ordinally with the stored ids. A stored id with an upper-case
  letter can therefore never match.
- **Session keys.** A session key compares its language id ordinally, so
  "csharp" and "CSharp" for the same document start two sessions
  (`LspService.LanguageIdCaseSplitsSessions`).
- **Routing** is by raw, case-insensitive string prefix in table order:
  - no segment boundary is checked ("/ws/a" owns "/ws/ab/x.py");
  - no language is checked;
  - there is no longest-prefix rule.

  The table's order stands for the enumeration order of the
  `ConcurrentDictionary`, which .NET does not fix. The model takes
  insertion order (see "Left out"). A path that only one session claims is
  routed to it whatever the order (`LspRouting.SoleClaimantRoutes`).
- **Session roots must be absolute.** Building the client evaluates
  `new Uri(root)` after the server process has started. A relative root
  makes it throw, and the caller's `catch` adds no session. Such roots are
  "" for a bare file name, "." for a path without a directory, or a
  relative directory. The launched process is left running
  (`LspService.BareFileNameStartsNoSession`).
- **No lifecycle states.** There is no ready or degraded state and no
  request id. A request either finds a session or yields null.
- **`TryAdd` never fails sequentially.** The key was checked absent just
  before, so the dispose-on-lose branch is modelled (`LspService.Register`)
  but never taken (`LspService.InitializeNeverLosesRegistration`).

### Installer and converter tool

- **The `.tar.gz` extractor is a placeholder** that unpacks nothing. Every
  default-catalog platform other than win-x64 therefore fails to install
  unless the executable is already present
  (`LspService.OmniSharpInstallFailsOffWinX64`).
- **A failed save in the SVG tool leaves the output file.** The tool
  creates the file with `File.OpenWrite` before it saves into it. A failure
  while saving exits with 3, and the file stays
  (`SvgToPng.ConvertsExistingInput`).

### Editor state

- **`EditorAreaViewModel.OpenDocument`** builds a document whose text is
  "Content for p". It then assigns "Content of p", so every newly opened
  document is already dirty (`EditorArea.OpenedFileIsDirty`).
- **The `ActiveDocument` setter** writes the editor text into the outgoing
  tab through the `Content` setter. That always marks the tab modified, even
  when the text is unchanged (`MainWindow.SwitchingAwayMarksModified`).
- **An outgoing tab with an empty path** is skipped by the setter, so it
  keeps its active flag (`MainWindow.UntitledTabStaysFlaggedActive`).
- **`CreateNewDocument`** counts tabs whose path is null. That count is always
  0 because the setter turns null into "", so the name is always
  "Untitled".
- **Setting `IsExpanded` to true** on a directory always starts an expand.
  ReactiveUI's `RaiseAndSetIfChanged` returns the stored value, not whether
  it changed. Setting an expanded directory to true again therefore retries
  a listing that failed (`FileTree.ReassertingExpandedRetries`).
- **The `catch` in `LoadFolderAsync`** cannot be reached once directory
  existence and the listing are inputs: the listing's own failure is caught
  inside `ExpandDirectoryAsync`.

### Event bus and commands

- **A null event-bus handler** is stored, but the delegate type test skips it
  on publish.
- **A handler that throws before returning its task** ends the publish
  loop. Handlers subscribed after it are not started, and the exception
  leaves `PublishAsync` (`EventBus.ThrowHidesLaterHandlers`).
- **`DelegateCommand<T>.CanExecute`** throws on a parameter of the wrong type
  only when a predicate exists, because the null-conditional call skips the
  cast.

## Model

| member | source | states |
|---|---|---|
| LspCatalog.FirstServingFrom | Swarm.Lsp/Configuration/DefaultLspConfigProvider.cs:65 | the index found is the first enabled server from the start position that lists the id; none found means no later server serves it |
| LspCatalog.GetSettingsForLanguage | Swarm.Lsp/Configuration/DefaultLspConfigProvider.cs:60-66 | a null id gives null; a result is an enabled catalog entry listing the lower-cased id, and a miss means no entry is enabled and lists it |
| LspCatalog.LookupIgnoresQueryCase | Swarm.Lsp/Configuration/DefaultLspConfigProvider.cs:63 | two queries equal after lower-casing resolve to the same settings |
| LspCatalog.UpperCaseIdNeverMatches | Swarm.Lsp/Configuration/DefaultLspConfigProvider.cs:63-65 | a stored id containing an upper-case letter is matched by no query at all |
| LspCatalog.NewSettingsServesNothing | Swarm.Lsp/Configuration/LspServerSettings.cs:28 | a default settings record lists no language, so no query resolves to it |
| LspCatalog.NewSettingsEnabledByDefault | Swarm.Lsp/Configuration/LspServerSettings.cs:33 | a default record is enabled: once given a lower-case id it is found for that id |
| LspCatalog.CSharpSpellings | Swarm.Lsp/Configuration/DefaultLspConfigProvider.cs:63 | "csharp", "CSharp" and "CSHARP" lower-case to the catalog's id |
| LspCatalog.DefaultCatalogLookup | Swarm.Lsp/Configuration/DefaultLspConfigProvider.cs:14-66 | the default provider resolves C# in any case to OmniSharp, and "python" and a null id to nothing |
| LspCatalog.DefaultCatalogContents | Swarm.Lsp/Configuration/DefaultLspConfigProvider.cs:18-52 | the default catalog holds exactly OmniSharp 1.39.13 for "csharp", with its argument template, four platforms (no linux-arm64) and their executables |
| LspInstaller.GetCurrentRuntimeIdentifier | Swarm.Lsp/ServerManagement/LspServerManager.cs:138-154 | an identifier exists exactly for Windows/Linux/macOS on x64/arm64; the OS is checked first; the identifier is os-arch |
| LspInstaller.RuntimeIdentifierRoundTrip | Swarm.Lsp/ServerManagement/LspServerManager.cs:138-154 | reading an identifier back gives the host it was computed from |
| LspInstaller.RuntimeIdentifierInjective | Swarm.Lsp/ServerManagement/LspServerManager.cs:138-154 | different supported hosts get different identifiers, so their install directories differ |
| LspInstaller.ArchiveKindOf | Swarm.Lsp/ServerManagement/LspServerManager.cs:86-98 | zip exactly for a ".zip" suffix in any case; tar.gz exactly for a ".tar.gz" suffix without ".zip"; anything else unsupported |
| LspInstaller.ZipUrl | Swarm.Lsp/ServerManagement/LspServerManager.cs:86 | every URL ending in ".zip" is unpacked as a zip |
| LspInstaller.TarGzUrl | Swarm.Lsp/ServerManagement/LspServerManager.cs:90 | every URL ending in ".tar.gz" goes to the tar.gz extractor |
| LspInstaller.DefaultCatalogArchiveKinds | Swarm.Lsp/Configuration/DefaultLspConfigProvider.cs:29-43 | the default catalog ships a zip for win-x64 and a tar.gz for the three other platforms |
| LspInstaller.ExecutablePathLayout | Swarm.Lsp/ServerManagement/LspServerManager.cs:54-55 | the executable path is base/name/version/rid/relative-path |
| LspInstaller.TryDownloadAndExtract | Swarm.Lsp/ServerManagement/LspServerManager.cs:70-126 | the try block never throws to its caller; success returns the executable that now exists; failure removes the version directory with every file and directory under it |
| LspInstaller.RemoveTempArchive | Swarm.Lsp/ServerManagement/LspServerManager.cs:127-135 | the finally block removes the temp archive and nothing else |
| LspInstaller.EnsureServerInstalled | Swarm.Lsp/ServerManagement/LspServerManager.cs:36-136 | null without settings or without a platform entry; an exception only for an unsupported platform; an existing executable is returned untouched; a returned path exists, unless it is the temporary archive path that the `finally` removes (reachable when the executable's relative path is absolute, since `Path.Combine` then returns it) |
| LspInstaller.FreshInstallCleansUp | Swarm.Lsp/ServerManagement/LspServerManager.cs:67-135 | once the download is reached: the directory is created, then the download starts, the temp archive is gone afterwards, and a failure removes the version directory and everything under it |
| LspInstaller.DownloadFailureYieldsNull | Swarm.Lsp/ServerManagement/LspServerManager.cs:73-81 | a failed download returns null |
| LspInstaller.TarGzInstallAlwaysFails | Swarm.Lsp/ServerManagement/LspServerManager.cs:90-118 | a fresh install from a ".tar.gz" returns null and removes the version directory |
| LspInstaller.UnsupportedArchiveFails | Swarm.Lsp/ServerManagement/LspServerManager.cs:94-98 | an unknown archive format returns null |
| LspInstaller.ZipInstallSucceeds | Swarm.Lsp/ServerManagement/LspServerManager.cs:86-110 | a downloaded zip that contains the executable installs it and returns its path |
| LspInstaller.ChmodFailureIsHarmless | Swarm.Lsp/ServerManagement/LspServerManager.cs:104-108 | the outcome and the disk are the same whether chmod succeeds or fails |
| LspInstaller.AttemptIgnoresChmod | Swarm.Lsp/ServerManagement/LspServerManager.cs:102-111 | inside the try block, chmod shows only in the action log |
| LspInstaller.InstallIsIdempotent | Swarm.Lsp/ServerManagement/LspServerManager.cs:58-63 | after an install that produced the executable, a second call returns the same path with no action and no disk change |
| FileSystems.DeleteTree | Swarm.Lsp/ServerManagement/LspServerManager.cs:116 | a recursive delete removes exactly the files and directories at or below the directory |
| LspRouting.Ancestry | Swarm.Lsp/Services/LspService.cs:585-593 | the walk visits non-empty prefixes of the start directory and is empty exactly for a null or empty start |
| LspRouting.WalkUp | Swarm.Lsp/Services/LspService.cs:583-595 | a found root carries a ".git" directory or a ".sln" file and lies on the walk; a thrown search names a missing directory on the walk |
| LspRouting.FindWorkspaceRoot | Swarm.Lsp/Services/LspService.cs:583-595 | a found root is a marked proper prefix of the document path |
| LspRouting.FirstStop | Swarm.Lsp/Services/LspService.cs:586-592 | the index is the first directory of the chain where the walk must stop |
| LspRouting.WalkUpIsFirstStop | Swarm.Lsp/Services/LspService.cs:583-595 | the recursive walk agrees with the list-based reference: it ends at the first stopping directory, as a root or as a missing directory |
| LspRouting.WorkspaceRootFor | Swarm.Lsp/Services/LspService.cs:68 | the session root is the found root, else the document's directory, else "."; none exactly when the search throws |
| LspRouting.BareFileNameRoot | Swarm.Lsp/Services/LspService.cs:68 | any bare file name is keyed on the root "" rather than "." |
| LspRouting.RootDirectoryDocument | Swarm.Lsp/Services/LspService.cs:583-595 | a file directly in "/" is keyed on "/" |
| LspRouting.ClientOf | Swarm.Lsp/Services/LspService.cs:240 | a lookup finds a client exactly when the key is in the table, and the client is that key's |
| LspRouting.FindServerKeyForDocument | Swarm.Lsp/Services/LspService.cs:598-609 | the owning key is the first in table order whose root is a case-insensitive prefix of the path; none means no root claims it |
| LspRouting.FirstClaim | Swarm.Lsp/Services/LspService.cs:600-607 | the index is the first from the start position whose root claims the path |
| LspRouting.Route | Swarm.Lsp/Services/LspService.cs:239-240 | a call is routed exactly when some root claims the path, and to a claiming session's client |
| LspRouting.RawPrefixOwnsSibling | Swarm.Lsp/Services/LspService.cs:603 | a session owns every path that starts with its root, so "/ws/a" owns "/ws/ab/x.py": no segment boundary is checked |
| LspRouting.PrefixIgnoresCase | Swarm.Lsp/Services/LspService.cs:603 | paths equal up to letter case are routed alike |
| LspRouting.RouteDependsOnClaims | Swarm.Lsp/Services/LspService.cs:598-609 | two paths that the same roots claim are routed alike |
| LspRouting.RoutingIgnoresLanguage | Swarm.Lsp/Services/LspService.cs:598-609 | changing only the language ids of a table changes no route, so a Python file under a C# root goes to the C# session |
| LspRouting.SoleClaimantRoutes | Swarm.Lsp/Services/LspService.cs:598-609 | a path that exactly one session claims is routed to that session, wherever it sits in the table |
| LspRouting.SlashRootOwnsAbsolutePaths | Swarm.Lsp/Services/LspService.cs:603 | a first session rooted at "/" receives every absolute path |
| LspService.NewService | Swarm.Lsp/Services/LspService.cs:37 | a new service has no sessions and satisfies the table invariant |
| LspService.NullTemplateIsEmpty | Swarm.Lsp/Services/LspService.cs:116 | a null template gives an empty argument line |
| LspService.PlainTemplateUnchanged | Swarm.Lsp/Services/LspService.cs:116-117 | a template without '{' is passed on unchanged |
| LspService.OmniSharpTemplateShape | Swarm.Lsp/Configuration/DefaultLspConfigProvider.cs:25 | the OmniSharp template is the fixed text around the two placeholders |
| LspService.OmniSharpFirstPass | Swarm.Lsp/Services/LspService.cs:116 | the first pass replaces only the root placeholder |
| LspService.OmniSharpSecondPass | Swarm.Lsp/Services/LspService.cs:117 | the second pass replaces the trailing process-id placeholder by the printed id |
| LspService.OmniSharpArguments | Swarm.Lsp/Services/LspService.cs:116-117 | the OmniSharp line is -s "root" --hostPID pid for any root without '{' |
| LspService.ReplaceAbsentHost | Swarm.Lsp/Services/LspService.cs:116 | the process-id placeholder contains no root placeholder |
| LspService.RootIsRescanned | Swarm.Lsp/Services/LspService.cs:116-117 | a root that reads "{HostProcessId}" is itself replaced by the process id |
| LspService.Register | Swarm.Lsp/Services/LspService.cs:93-103 | a new key is appended to the table; a present key disposes the new client and leaves the table alone; keys stay unique |
| LspService.StartClient | Swarm.Lsp/Services/LspService.cs:92-211 | a session is added, followed by a didOpen with version 1, exactly when the handshake completes and the root is absolute; a relative root makes `new Uri` throw after the launch, so only the launch is logged; a process that did not start changes nothing; a failed handshake disposes the client |
| LspService.Initialize | Swarm.Lsp/Services/LspService.cs:58-109 | no settings is a no-op; an existing key only gets a didOpen; the table grows by exactly one session exactly when every step succeeds and the root is absolute; the root search and installer exceptions escape with the service unchanged; every session root is absolute |
| LspService.InitializeNeverLosesRegistration | Swarm.Lsp/Services/LspService.cs:71-103 | a successful initialisation never disposes the client it started |
| LspService.LanguageIdCaseSplitsSessions | Swarm.Lsp/Services/LspService.cs:69 | "csharp" and then "CSharp" for one document give two sessions |
| LspService.TwoIdsTwoSessions | Swarm.Lsp/Services/LspService.cs:69-93 | two distinct language ids that both have settings give two sessions for one document |
| LspService.BareFileNameStartsNoSession | Swarm.Lsp/Services/LspService.cs:68-108 | a document named by a bare file name is keyed on the root "", which `new Uri` rejects, so no session is ever added for it |
| LspService.DocumentDidChange | Swarm.Lsp/Services/LspService.cs:237-258 | an unowned path is a no-op; otherwise one whole-text change with a null version goes to the owning client; the table is kept |
| LspService.DocumentDidClose | Swarm.Lsp/Services/LspService.cs:260-280 | an unowned path is a no-op; otherwise one didClose goes to the owning client; the session stays |
| LspService.CloseKeepsRouting | Swarm.Lsp/Services/LspService.cs:275-277 | after a close every path is routed as before |
| LspService.Request | Swarm.Lsp/Services/LspService.cs:282-310 | a result exists exactly when a session owns the path and its client answered non-null, and it is that answer; the table is kept |
| LspService.KeepLocated | Swarm.Lsp/Services/LspService.cs:478-502 | the kept symbols are exactly the copies of the located ones; when all are located, each is converted in place, in order, none dropped; a full-length result means all were located |
| LspService.KeepLocatedAppend | Swarm.Lsp/Services/LspService.cs:480-501 | the filter works symbol by symbol: splitting an answer splits the result at the same place, so order and multiplicity are the answer's |
| LspService.KeepLocatedSingle | Swarm.Lsp/Services/LspService.cs:484-500 | a single symbol is kept, converted, exactly when it has a full location |
| LspService.MergeReplies | Swarm.Lsp/Services/LspService.cs:474-503 | the merge holds exactly the contributions of the replies |
| LspService.MergeMembership | Swarm.Lsp/Services/LspService.cs:467-503 | a symbol is merged exactly when some client answered non-null with it located |
| LspService.RequestWorkspaceSymbols | Swarm.Lsp/Services/LspService.cs:452-506 | every client is asked in table order; the result is null exactly when no reply contributes, and otherwise is the per-client contributions concatenated in client order, duplicates kept |
| LspService.MergeEmptyIff | Swarm.Lsp/Services/LspService.cs:505 | the merge is empty exactly when no reply contributes |
| LspService.MergeKeepsClientOrder | Swarm.Lsp/Services/LspService.cs:474-503 | the merge equals the independent concatenation of the per-client contributions in client order |
| LspService.MergeRepliesAppend | Swarm.Lsp/Services/LspService.cs:475-503 | splitting the clients anywhere splits the merge at the same place: earlier clients' symbols come first |
| LspService.Dispose | Swarm.Lsp/Services/LspService.cs:566-579 | every client is disposed in table order and the table is emptied |
| LspService.DisposedServiceRoutesNothing | Swarm.Lsp/Services/LspService.cs:566-579 | after disposal, notifications are no-ops and requests yield null |
| LspService.OnlyDisposeShrinks | Swarm.Lsp/Services/LspService.cs:237-506 | notifications and requests never change the table |
| LspService.CSharpSelectsOmniSharp | Swarm.Lsp/Configuration/DefaultLspConfigProvider.cs:60-66 | any spelling of "csharp" selects the OmniSharp entry |
| LspService.OmniSharpInstallFailsOffWinX64 | Swarm.Lsp/ServerManagement/LspServerManager.cs:90-93 | off win-x64, installing OmniSharp never yields a path unless it was already installed |
| LspService.OnlyWinX64StartsOmniSharp | Swarm.Lsp/Services/LspService.cs:80-86 | off win-x64, with no prior install, opening a C# document starts no session |
| Documents.NewDoc | Swarm.Editor/ViewModels/DocumentViewModel.cs:24-27 | a new document has no title, path or text and is clean |
| Documents.OpenedDoc | Swarm.Editor/ViewModels/DocumentViewModel.cs:30-38 | the path constructor titles the document by its file name, fills the placeholder text, and leaves it clean |
| Documents.SetContent | Swarm.Editor/ViewModels/DocumentViewModel.cs:41-48 | a text change marks the document dirty exactly when it has a path and the value differs |
| Documents.SetContentIdempotent | Swarm.Editor/ViewModels/DocumentViewModel.cs:41-48 | setting the same text twice equals setting it once |
| Documents.UntitledNeverDirty | Swarm.Editor/ViewModels/DocumentViewModel.cs:43 | a document without a path never becomes dirty through edits |
| Documents.ApplyEdits | Swarm.Editor/ViewModels/DocumentViewModel.cs:41-48 | edits keep path and title, leave the last text, and never clear dirtiness |
| Documents.DirtyIffSomeEditChanged | Swarm.Editor/ViewModels/DocumentViewModel.cs:41-48 | with a path: dirty after edits exactly when it was dirty or some edit changed the text |
| DocumentTabs.NewTab | Swarm.Editor/ViewModels/DocumentTabViewModel.cs:64-71 | a new tab is an unmodified, inactive "Untitled" with empty path and text |
| DocumentTabs.OpenTab | Swarm.Editor/ViewModels/DocumentTabViewModel.cs:73-86 | the name is the given one, else the file name, else "Untitled"; the custom flag records whether a name was given |
| DocumentTabs.NamedTab | Swarm.Editor/ViewModels/DocumentTabViewModel.cs:88-96 | the name is taken verbatim, a null becoming "Untitled"; always custom |
| DocumentTabs.SetFilePath | Swarm.Editor/ViewModels/DocumentTabViewModel.cs:16-20 | only the path changes, null becoming "" |
| DocumentTabs.SetContent | Swarm.Editor/ViewModels/DocumentTabViewModel.cs:22-31 | the text is stored and the tab is modified, whatever the value |
| DocumentTabs.SetDisplayName | Swarm.Editor/ViewModels/DocumentTabViewModel.cs:33-42 | the name is stored, null becoming "", and becomes custom |
| DocumentTabs.TabTitleDecodes | Swarm.Editor/ViewModels/DocumentTabViewModel.cs:62 | the title gives back the name and the modified flag for a name not ending in '*' |
| DocumentTabs.SameContentStillModifies | Swarm.Editor/ViewModels/DocumentTabViewModel.cs:27-28 | re-assigning the same text marks the tab modified |
| DocumentTabs.OpenTabShowsFileName | Swarm.Editor/ViewModels/DocumentTabViewModel.cs:77 | a tab for dir/name shows name |
| DocumentTabs.EmptyCustomNameDiffers | Swarm.Editor/ViewModels/DocumentTabViewModel.cs:77-92 | an empty name is kept by the four-argument constructor and replaced by "Untitled" by the other |
| MainWindow.NewWindow | Swarm.Editor/ViewModels/MainWindowViewModel.cs:143 | a new window has no tabs and an active "InitialEmpty" placeholder shown in an empty editor |
| MainWindow.Allocate | Swarm.Editor/ViewModels/MainWindowViewModel.cs:199 | a new tab object gets an unused identity and nothing else changes |
| MainWindow.SaveOutgoing | Swarm.Editor/ViewModels/MainWindowViewModel.cs:69-75 | only the outgoing tab changes and every path is kept |
| MainWindow.Switch | Swarm.Editor/ViewModels/MainWindowViewModel.cs:65-95 | the incoming tab becomes active and is loaded into the editor; only the two tabs involved change; the list and all paths are kept |
| MainWindow.SetActive | Swarm.Editor/ViewModels/MainWindowViewModel.cs:59-102 | the same object is a no-op; null switches to a fresh "Untitled" tab outside the list; any other tab is switched to |
| MainWindow.SwitchToNew | Swarm.Editor/ViewModels/MainWindowViewModel.cs:61 | a fresh tab becomes active and loaded without being listed |
| MainWindow.KeepsDistinctPaths | Swarm.Editor/ViewModels/MainWindowViewModel.cs:282 | keeping the list and the paths keeps listed paths distinct |
| MainWindow.AppendAndSwitch | Swarm.Editor/ViewModels/MainWindowViewModel.cs:328-332 | a new tab is appended and activated; distinct paths stay distinct when its path is empty or new |
| MainWindow.AppendedPathsDistinct | Swarm.Editor/ViewModels/MainWindowViewModel.cs:282-330 | appending a tab whose path is empty or not listed keeps listed paths distinct |
| MainWindow.CreateNewDocument | Swarm.Editor/ViewModels/MainWindowViewModel.cs:192-202 | one "Untitled" tab with no path is appended and activated, with an empty editor |
| MainWindow.IndexOf | Swarm.Editor/ViewModels/MainWindowViewModel.cs:211 | the position is the first occurrence of the tab, or -1 when it is not listed |
| MainWindow.RemoveAt | Swarm.Editor/ViewModels/MainWindowViewModel.cs:214 | the list loses exactly the given position, keeping the order of the rest |
| MainWindow.RemovalKeepsInvariants | Swarm.Editor/ViewModels/MainWindowViewModel.cs:214 | removing a listed tab keeps the window valid, drops that tab and keeps paths distinct |
| MainWindow.CloseDocument | Swarm.Editor/ViewModels/MainWindowViewModel.cs:204-235 | null or an unlisted tab is a no-op; otherwise the tab leaves the list; closing the active tab activates the previous (or first) tab, or a fresh placeholder when none remain |
| MainWindow.Reactivate | Swarm.Editor/ViewModels/MainWindowViewModel.cs:217-234 | after the active tab at k is removed, position max(0, k-1) becomes active, or a new "InitialEmpty" placeholder |
| MainWindow.FindTabByPath | Swarm.Editor/ViewModels/MainWindowViewModel.cs:282 | the first listed tab whose path is exactly the path, and none means no tab has it |
| MainWindow.OpenFile | Swarm.Editor/ViewModels/MainWindowViewModel.cs:262-341 | an empty or missing path, a failed read or a null read change nothing; an open path is only activated; otherwise one tab is appended and activated; paths stay distinct |
| MainWindow.HandleFileOpenRequested | Swarm.Editor/ViewModels/MainWindowViewModel.cs:169-190 | a null event is ignored and anything else is opened |
| MainWindow.OpenTwiceAddsOneTab | Swarm.Editor/ViewModels/MainWindowViewModel.cs:282-295 | opening one file twice adds exactly one tab, and the second open changes neither the list nor the active tab |
| MainWindow.FindAppended | Swarm.Editor/ViewModels/MainWindowViewModel.cs:282 | a tab appended with a new path is what the search for that path finds |
| MainWindow.SaveAvailability | Swarm.Editor/ViewModels/MainWindowViewModel.cs:397-401 | a freshly opened file can be saved; a new untitled document cannot |
| MainWindow.SwitchingAwayMarksModified | Swarm.Editor/ViewModels/MainWindowViewModel.cs:69-74 | leaving a file-backed tab marks it modified and inactive even when its text is unchanged |
| MainWindow.UntitledTabStaysFlaggedActive | Swarm.Editor/ViewModels/MainWindowViewModel.cs:69-88 | leaving a tab with no path leaves both tabs flagged active |
| MainWindow.CreateThenCloseRestoresTabs | Swarm.Editor/ViewModels/MainWindowViewModel.cs:192-235 | creating and then closing a document restores the list and activates the former last tab |
| MainWindow.AppendThenCloseRestores | Swarm.Editor/ViewModels/MainWindowViewModel.cs:204-235 | closing the tab just appended and activated restores the list and activates the former last tab |
| MainWindow.CloseLastActive | Swarm.Editor/ViewModels/MainWindowViewModel.cs:211-222 | closing the active tab at the end of the list activates the tab before it |
| EditorArea.AppendActive | Swarm.Editor/ViewModels/EditorAreaViewModel.cs:47-50 | a new document object is appended and made active |
| EditorArea.AddNewDocument | Swarm.Editor/ViewModels/EditorAreaViewModel.cs:25-30 | a new untitled document is appended and made active, and no other document changes |
| EditorArea.NewArea | Swarm.Editor/ViewModels/EditorAreaViewModel.cs:17-22 | the area starts with one untitled document, active |
| EditorArea.FindByPath | Swarm.Editor/ViewModels/EditorAreaViewModel.cs:36 | the first listed document with an equal path (two nulls are equal), and none means no document has it |
| EditorArea.OpenDocument | Swarm.Editor/ViewModels/EditorAreaViewModel.cs:33-51 | an open path is only activated; otherwise a new document with the loaded text is appended and activated; paths stay distinct |
| EditorArea.IndexOf | Swarm.Editor/ViewModels/EditorAreaViewModel.cs:61 | the position is the first occurrence, and -1 exactly when the document is absent |
| EditorArea.Remove | Swarm.Editor/ViewModels/EditorAreaViewModel.cs:61 | an absent document leaves the list alone; a present one is dropped at its first occurrence |
| EditorArea.RemoveKeepsInvariants | Swarm.Editor/ViewModels/EditorAreaViewModel.cs:61-62 | removing a document keeps the area valid and paths distinct |
| EditorArea.CloseDocument | Swarm.Editor/ViewModels/EditorAreaViewModel.cs:54-64 | the argument, or else the active document, leaves the list and the first remaining becomes active; neither means no change |
| EditorArea.OpenIsIdempotent | Swarm.Editor/ViewModels/EditorAreaViewModel.cs:36-41 | opening the same path twice equals opening it once |
| EditorArea.ReopenFindsSame | Swarm.Editor/ViewModels/EditorAreaViewModel.cs:36-41 | an already open path is found at the same place after activation |
| EditorArea.ReopenFindsAppended | Swarm.Editor/ViewModels/EditorAreaViewModel.cs:36-50 | a path just opened is found at the end of the list |
| EditorArea.OpenedFileIsDirty | Swarm.Editor/ViewModels/EditorAreaViewModel.cs:45-48 | a newly opened document is already dirty, titled by its file name, with the loaded text |
| EditorArea.PrefixesDiffer | Swarm.Editor/ViewModels/EditorAreaViewModel.cs:45 | the text set by OpenDocument always differs from the constructor's placeholder text |
| EditorArea.NullPathFindsUntitled | Swarm.Editor/ViewModels/EditorAreaViewModel.cs:36 | opening a null path activates the first untitled document |
| EditorArea.AddThenCloseRestores | Swarm.Editor/ViewModels/EditorAreaViewModel.cs:25-64 | adding a document and then closing the active one restores the list |
| FileTree.ItemName | Swarm.Editor/ViewModels/FileSystemItemViewModel.cs:27-40 | a file is named by its file name; a directory with an empty file name takes the last segment of its trimmed path, falling back to the full path; the name is empty only for an empty path |
| FileTree.LastSegmentOr | Swarm.Editor/ViewModels/FileSystemItemViewModel.cs:33-39 | with trailing separators trimmed, the name is the non-empty, separator-free tail that starts at the beginning or right after a separator; when nothing is left after trimming, the full path; empty only for an empty path |
| FileTree.SegmentOr | Swarm.Editor/ViewModels/FileSystemItemViewModel.cs:34-39 | for a trimmed path, the separator-free tail after its last separator, non-empty; the full path when the trimmed path is empty |
| FileTree.NewItem | Swarm.Editor/ViewModels/FileSystemItemViewModel.cs:21-55 | a directory starts with one loading placeholder and a file with no children; neither is expanded or initialized |
| FileTree.LoadingPlaceholder | Swarm.Editor/ViewModels/FileSystemItemViewModel.cs:50 | the placeholder is a childless file item flagged loading |
| FileTree.ChildrenOf | Swarm.Editor/ViewModels/FileSystemItemViewModel.cs:97-102 | one child per entry, in order, a directory exactly when its entry is one |
| FileTree.Expand | Swarm.Editor/ViewModels/FileSystemItemViewModel.cs:83-121 | files, initialized and loading items are left alone; a listing replaces the children and initializes; a failure keeps the children or adds an error child when there are none |
| FileTree.SetExpanded | Swarm.Editor/ViewModels/FileSystemItemViewModel.cs:63-74 | the flag takes the value; setting true on a directory that is neither initialized nor loading lists it (initialized exactly on a listing, with one child per entry); otherwise only the flag changes |
| FileTree.ReassertingExpandedRetries | Swarm.Editor/ViewModels/FileSystemItemViewModel.cs:63-74 | setting an expanded directory whose listing failed to true again retries the listing |
| FileTree.ExpandOnce | Swarm.Editor/ViewModels/FileSystemItemViewModel.cs:85 | after a successful listing, later expands change nothing |
| FileTree.FailedExpandRetries | Swarm.Editor/ViewModels/FileSystemItemViewModel.cs:106-116 | after a failure the directory stays expandable and the next listing succeeds |
| FileTree.FreshDirectoryExpands | Swarm.Editor/ViewModels/FileSystemItemViewModel.cs:92-104 | a fresh directory's placeholder is replaced by the listing |
| FileTree.ReopenKeepsChildren | Swarm.Editor/ViewModels/FileSystemItemViewModel.cs:63-85 | collapsing and expanding again keeps the loaded children |
| FileTree.TrailingSeparatorName | Swarm.Editor/ViewModels/FileSystemItemViewModel.cs:28-42 | dir/segment is named segment, with any number of trailing separators |
| FileTree.SegmentPathNames | Swarm.Editor/ViewModels/FileSystemItemViewModel.cs:27-40 | a directory path whose file name is a segment, followed by any number of trailing separators, is named by that segment |
| FileTree.OneTrailingSeparatorName | Swarm.Editor/ViewModels/FileSystemItemViewModel.cs:27-40 | a path whose file name is a segment is named by it as a file and as a directory, and so is that path plus one separator as a directory |
| FileTree.PaddedDirectoryName | Swarm.Editor/ViewModels/FileSystemItemViewModel.cs:30-34 | a directory path ending in separators has an empty file name and is named by the segment before them |
| FileTree.RootNamedByPath | Swarm.Editor/ViewModels/FileSystemItemViewModel.cs:38-41 | the directory "/" is named "/"; a file "/" has an empty name |
| FileExplorer.NewExplorer | Swarm.Editor/ViewModels/FileExplorerViewModel.cs:21 | the explorer starts with no roots |
| FileExplorer.ExecuteOpenFile | Swarm.Editor/ViewModels/FileExplorerViewModel.cs:66-94 | an open request is published exactly for a non-directory item with a non-empty path, and carries that path |
| FileExplorer.LoadFolder | Swarm.Editor/ViewModels/FileExplorerViewModel.cs:122-150 | an existing folder becomes the single expanded directory root; otherwise there are no roots |
| FileExplorer.HandleFolderSelected | Swarm.Editor/ViewModels/FileExplorerViewModel.cs:97-119 | a null event, an empty path or a missing folder clears the roots; anything else loads it |
| FileExplorer.FolderEventLeavesAtMostOneRoot | Swarm.Editor/ViewModels/FileExplorerViewModel.cs:97-150 | after a folder event there is one directory root exactly for an existing folder, else none |
| FileExplorer.LoadedRootShowsListing | Swarm.Editor/ViewModels/FileExplorerViewModel.cs:131-135 | the loaded root shows the listing |
| FileExplorer.OpenChildOfListing | Swarm.Editor/ViewModels/FileExplorerViewModel.cs:58-86 | opening a listed child publishes its path exactly when it is a file |
| Chat.DefaultMessage | Swarm.Editor/Models/Chat/ChatMessage.cs:7-10 | a default message is empty and from the agent |
| Chat.SenderName | Swarm.Editor/Models/Chat/ChatMessage.cs:10 | "User" exactly for user messages and "Agent" for all others |
| Chat.SenderNameOnlyFromFlag | Swarm.Editor/Models/Chat/ChatMessage.cs:10 | the sender name depends only on the user flag |
| Chat.NewChat | Swarm.Editor/ViewModels/Chat/ChatViewModel.cs:23-56 | a new chat is idle and "Ready" with one welcome message from the agent |
| Chat.SendMessage | Swarm.Editor/ViewModels/Chat/ChatViewModel.cs:58-89 | blank input does nothing; otherwise the input becomes a user message and is published as the prompt, processing starts and the box is cleared |
| Chat.ClearChat | Swarm.Editor/ViewModels/Chat/ChatViewModel.cs:91-106 | ignored while processing; otherwise only the "cleared" message remains |
| Chat.AddAssistantMessage | Swarm.Editor/ViewModels/Chat/ChatViewModel.cs:183-191 | one agent message is appended |
| Chat.LastAgentBelow | Swarm.Editor/ViewModels/Chat/ChatViewModel.cs:195-202 | the index is the last agent message below the bound |
| Chat.UpdateLastAssistantMessage | Swarm.Editor/ViewModels/Chat/ChatViewModel.cs:193-203 | a changed message is always the last message from the agent and takes the new text; that message does change when one exists; with none, the list is unchanged; senders never change |
| Chat.LastThinkingBelow | Swarm.Editor/ViewModels/Chat/ChatViewModel.cs:207 | the index is the last agent message starting with "Thinking" |
| Chat.RemoveThinkingMessage | Swarm.Editor/ViewModels/Chat/ChatViewModel.cs:205-212 | nothing changes exactly when no thinking message exists; otherwise the last one is removed and the rest keep their order |
| Chat.HandleWorkflowStarted | Swarm.Editor/ViewModels/Chat/ChatViewModel.cs:113-127 | processing starts, the status names the workflow, and a "Thinking..." message is appended |
| Chat.HandleProgressUpdate | Swarm.Editor/ViewModels/Chat/ChatViewModel.cs:129-143 | the status shows percentage and message, and the last agent message reads "Thinking... " and the message |
| Chat.Finish | Swarm.Editor/ViewModels/Chat/ChatViewModel.cs:149-159 | the thinking message is replaced by the text at the end and the chat is ready |
| Chat.HandleResultAvailable | Swarm.Editor/ViewModels/Chat/ChatViewModel.cs:145-162 | the result replaces the thinking message and the chat is ready |
| Chat.HandleWorkflowError | Swarm.Editor/ViewModels/Chat/ChatViewModel.cs:164-181 | "Error: " and the message replace the thinking message and the chat is ready |
| Chat.SendDisablesSend | Swarm.Editor/ViewModels/Chat/ChatViewModel.cs:108-111 | after a send, another send is impossible and the prompt was the input |
| Chat.ClearIdempotent | Swarm.Editor/ViewModels/Chat/ChatViewModel.cs:91-106 | clearing twice is clearing once |
| Chat.WorkflowRoundTrip | Swarm.Editor/ViewModels/Chat/ChatViewModel.cs:113-162 | start, any progress, then a result leave the transcript as before plus the result, and the chat ready |
| Chat.FailedWorkflowShowsError | Swarm.Editor/ViewModels/Chat/ChatViewModel.cs:113-181 | start then error leave the transcript as before plus the error |
| Chat.ProgressKeepsThinkingLast | Swarm.Editor/ViewModels/Chat/ChatViewModel.cs:139 | progress updates rewrite only a trailing thinking message, which stays one |
| EventBus.NewBus | Swarm.Editor/Models/Events/InMemoryEventBus.cs:10 | a new bus has no handlers for any type |
| EventBus.Subscribe | Swarm.Editor/Models/Events/InMemoryEventBus.cs:12-20 | the handler is appended to its type's list, created if missing; other types are unchanged |
| EventBus.Present | Swarm.Editor/Models/Events/InMemoryEventBus.cs:33 | the non-null handlers of a list, exactly |
| EventBus.Publish | Swarm.Editor/Models/Events/InMemoryEventBus.cs:22-40 | when no handler throws before returning its task, the invoked handlers are exactly the non-null ones subscribed to the type; none for an unknown type |
| EventBus.StartUntilThrow | Swarm.Editor/Models/Events/InMemoryEventBus.cs:31-37 | the handlers started are a prefix of the list ending at the first that throws; with no throw, the whole list |
| EventBus.PublishThrowing | Swarm.Editor/Models/Events/InMemoryEventBus.cs:22-40 | the started handlers are a prefix of the published ones; an exception escapes exactly when some published handler throws, and then the last started one threw |
| EventBus.NoThrowStartsAll | Swarm.Editor/Models/Events/InMemoryEventBus.cs:31-37 | without throwing handlers every published handler is started and nothing escapes |
| EventBus.ThrowHidesLaterHandlers | Swarm.Editor/Models/Events/InMemoryEventBus.cs:31-37 | after a throwing handler, a later subscription is never started and the exception escapes |
| EventBus.SubscribeOnlyGrows | Swarm.Editor/Models/Events/InMemoryEventBus.cs:19 | every handler list only grows |
| EventBus.PublishAfterSubscribe | Swarm.Editor/Models/Events/InMemoryEventBus.cs:12-40 | a subscription adds its handler at the end of what its type publishes, and nothing elsewhere |
| EventBus.PresentAppend | Swarm.Editor/Models/Events/InMemoryEventBus.cs:31-37 | filtering distributes over concatenation |
| EventBus.SubscribeAll | Swarm.Editor/Models/Events/InMemoryEventBus.cs:15-19 | after subscribing at least one handler the type has a list |
| EventBus.PublishInSubscriptionOrder | Swarm.Editor/Models/Events/InMemoryEventBus.cs:12-40 | handlers run in subscription order, duplicates included |
| EventBus.DuplicateRunsTwice | Swarm.Editor/Models/Events/InMemoryEventBus.cs:19 | a handler subscribed twice runs twice |
| EventBus.NullHandlerNeverRuns | Swarm.Editor/Models/Events/InMemoryEventBus.cs:33 | a null handler is stored but never invoked |
| Commands.NewDelegateCommand | Swarm.Editor/Common/Commands/DelegateCommand.cs:12-16 | a null action throws; otherwise action and predicate are kept |
| Commands.DelegateCanExecute | Swarm.Editor/Common/Commands/DelegateCommand.cs:18 | the predicate's answer, or true without one |
| Commands.NewGenericDelegateCommand | Swarm.Editor/Common/Commands/DelegateCommand.cs:32-36 | a null action throws; otherwise action and predicate are kept |
| Commands.GenericDelegateCanExecute | Swarm.Editor/Common/Commands/DelegateCommand.cs:38-39 | null answers whether there is no predicate; a T goes to the predicate; a foreign object throws exactly when a predicate exists |
| Commands.GenericDelegateExecute | Swarm.Editor/Common/Commands/DelegateCommand.cs:41-47 | null does nothing, a foreign object throws, and a T runs the action with it |
| Commands.NewRelayCommand | Swarm.Editor/ViewModels/RelayCommand.cs:13-21 | a null action throws; a missing predicate becomes "always true" |
| Commands.NewGenericRelayCommand | Swarm.Editor/ViewModels/RelayCommand.cs:46-54 | a null action throws; otherwise action and predicate are kept |
| Commands.AsT | Swarm.Editor/ViewModels/RelayCommand.cs:58 | a T is kept, and null or a foreign object becomes the default |
| Commands.GenericRelayCanExecute | Swarm.Editor/ViewModels/RelayCommand.cs:56-59 | true without a predicate, else the predicate on the parameter taken as a T |
| Commands.GenericRelayExecute | Swarm.Editor/ViewModels/RelayCommand.cs:61-64 | the action always runs, with the parameter taken as a T |
| Commands.NonGenericIgnoresParameter | Swarm.Editor/Common/Commands/DelegateCommand.cs:18-20 | neither non-generic command depends on its parameter |
| Commands.NonGenericCommandsAgree | Swarm.Editor/ViewModels/RelayCommand.cs:17-31 | both non-generic commands, built alike, are built, answer and run alike: each runs the given action once and answers the given predicate, or true without one |
| Commands.GenericCommandsAgreeOnValues | Swarm.Editor/Common/Commands/DelegateCommand.cs:38-47 | on a T parameter the two generic commands answer and run alike |
| Commands.GenericCommandsDifferOnNull | Swarm.Editor/ViewModels/RelayCommand.cs:56-64 | on null the delegate command does nothing and says no when there is a predicate, while the relay command runs with the default |
| Converters.CountVisible | Swarm.Editor/Common/Converters/CountToVisibilityConverter.cs:10-20 | shown exactly for an int of at least 2 |
| Converters.CountInverseVisible | Swarm.Editor/Common/Converters/CountToInverseVisibilityConverter.cs:9-19 | shown for a non-int, and for an int exactly when it is at most 1 |
| Converters.StatusVisible | Swarm.Editor/Common/Converters/StringToVisibilityConverter.cs:9-17 | shown exactly for a non-blank string other than "Ready" in any case |
| Converters.Icon | Swarm.Editor/Common/Converters/BoolToFolderIconConverter.cs:9-17 | the folder icon exactly for a boxed true, the document icon otherwise |
| Converters.Alignment | Swarm.Editor/Common/Converters/BoolToAlignmentConverter.cs:10-20 | right exactly for a boxed true, left otherwise |
| Converters.Convert | Swarm.Editor/Common/Converters/CountToVisibilityConverter.cs:10-20 | each converter boxes its own decision |
| Converters.ConvertBack | Swarm.Editor/Common/Converters/CountToVisibilityConverter.cs:22-25 | converting back always throws |
| Converters.ConvertIgnoresContext | Swarm.Editor/Common/Converters/StringToVisibilityConverter.cs:9 | the target type, parameter and culture never affect the result |
| Converters.InverseIsNegation | Swarm.Editor/Common/Converters/CountToInverseVisibilityConverter.cs:11-18 | the inverse converter is the negation of the count converter |
| Converters.ExactlyOneEditorView | Swarm.Editor/Common/Converters/CountToVisibilityConverter.cs:12-19 | the tab strip and the single editor are never both shown or both hidden |
| Converters.ReadyHidesStatus | Swarm.Editor/Common/Converters/StringToVisibilityConverter.cs:13 | "Ready" in any letter case hides the status |
| Converters.SameLetters | Swarm.Editor/Common/Converters/StringToVisibilityConverter.cs:13 | strings that agree letter by letter up to case are equal ignoring case |
| Converters.BlankHidesStatus | Swarm.Editor/Common/Converters/StringToVisibilityConverter.cs:13-16 | empty, white-space and null statuses are hidden |
| Converters.ChatStatusShownWhileBusy | Swarm.Editor/ViewModels/Chat/ChatViewModel.cs:78-177 | through the string-visibility converter, each status the chat sets when a workflow is sent, started or progressing is shown, and the "Ready" of a new or finished chat is hidden |
| Converters.IconAgreesWithAlignment | Swarm.Editor/Common/Converters/BoolToAlignmentConverter.cs:12-19 | the folder icon appears exactly when the alignment is right |
| Markers.NewMargin | Swarm.Editor/Views/CodeEditor/MarkersMargin.cs:24 | a new margin has no breakpoints |
| Markers.PointerPressed | Swarm.Editor/Views/CodeEditor/MarkersMargin.cs:55-89 | a click on a line toggles only that line and is handled; a click that finds no line changes nothing and is not handled |
| Markers.Measure | Swarm.Editor/Views/CodeEditor/MarkersMargin.cs:92-95 | the margin is always 24 wide and 0 high |
| Markers.ToggleTwiceRestores | Swarm.Editor/Views/CodeEditor/MarkersMargin.cs:76-83 | clicking a line twice restores the breakpoints |
| Markers.Clicks | Swarm.Editor/Views/CodeEditor/MarkersMargin.cs:55-89 | a line never clicked keeps its breakpoint state |
| Markers.BreakpointParity | Swarm.Editor/Views/CodeEditor/MarkersMargin.cs:76-83 | a line's breakpoint state flips once per click on it |
| SvgToPng.ParseArgs | Swarm.Shared/Tools/SvgToPngConverter/Program.cs:18-35 | an index crash needs a flag in last position, and a changed input or output needs its flag among the arguments |
| SvgToPng.ParseCommandLine | Swarm.Shared/Tools/SvgToPngConverter/Program.cs:12-35 | the index loop computes the same result as the recursive parse from the defaults |
| SvgToPng.Run | Swarm.Shared/Tools/SvgToPngConverter/Program.cs:10-86 | a parse exception escapes; 1 exactly for a missing input or output; 2 exactly when both are given and the input file does not exist; 3 when the conversion fails; 0 when it completes; the output file is added exactly when the conversion got as far as opening it, and nothing else changes |
| SvgToPng.ParseConcat | Swarm.Shared/Tools/SvgToPngConverter/Program.cs:18-35 | parsing two runs of arguments is parsing the second from the first's settings |
| SvgToPng.LastOccurrenceWins | Swarm.Shared/Tools/SvgToPngConverter/Program.cs:22-30 | a repeated flag takes its last value |
| SvgToPng.OtherArgumentsIgnored | Swarm.Shared/Tools/SvgToPngConverter/Program.cs:20-34 | arguments other than the four flags change nothing |
| SvgToPng.ValuesAreNotFlags | Swarm.Shared/Tools/SvgToPngConverter/Program.cs:22-24 | a flag's value is never read as a flag, and flags are case-sensitive |
| SvgToPng.TrailingFlagCrashes | Swarm.Shared/Tools/SvgToPngConverter/Program.cs:29 | a value flag in last position crashes with an index exception |
| SvgToPng.MalformedSizeCrashes | Swarm.Shared/Tools/SvgToPngConverter/Program.cs:29-32 | a size with no digits crashes with a format exception |
| SvgToPng.HugeSizeCrashes | Swarm.Shared/Tools/SvgToPngConverter/Program.cs:29-32 | a size beyond the 32-bit range crashes with an overflow exception |
| SvgToPng.SizeErrorCrashes | Swarm.Shared/Tools/SvgToPngConverter/Program.cs:29-32 | whatever the integer parser rejects crashes with the matching exception |
| SvgToPng.UsageErrorIgnoresDisk | Swarm.Shared/Tools/SvgToPngConverter/Program.cs:37-41 | the usage error depends on neither the disk nor the renderer |
| SvgToPng.NoArgumentsIsUsage | Swarm.Shared/Tools/SvgToPngConverter/Program.cs:12-41 | no arguments exits 1, and the default size is 24 by 24 |
| SvgToPng.ConvertsExistingInput | Swarm.Shared/Tools/SvgToPngConverter/Program.cs:43-85 | an existing input with both paths exits 0 exactly when the conversion completes and 3 otherwise; the output file exists afterwards exactly when it did before or the conversion opened it |
| Text.ToLower | Swarm.Lsp/Configuration/DefaultLspConfigProvider.cs:63 | lower-casing maps each character and keeps the length |
| Text.ToLowerHasNoUpper | Swarm.Lsp/Configuration/DefaultLspConfigProvider.cs:63 | a lower-cased string holds no upper-case letter |
| Text.ReplaceAbsent | Swarm.Lsp/Services/LspService.cs:116-117 | text without the pattern is left unchanged |
| Text.ReplaceSkipsPrefix | Swarm.Lsp/Services/LspService.cs:116-117 | replacement passes over a prefix that cannot start the pattern |
| Text.ReplaceLeading | Swarm.Lsp/Services/LspService.cs:116-117 | a leading occurrence is replaced and scanning resumes after it |
| Text.DigitChar | Swarm.Lsp/Services/LspService.cs:117 | each digit prints as a digit character |
| Text.NatToStringRoundTrip | Swarm.Lsp/Services/LspService.cs:117 | a printed number is non-empty digits whose value is the number |
| Text.NatToStringHasNoBrace | Swarm.Lsp/Services/LspService.cs:117 | a printed process id contains no '{' |
| Text.TrimStart | Swarm.Shared/Tools/SvgToPngConverter/Program.cs:29 | exactly the leading white space is removed |
| Text.TrimEnd | Swarm.Shared/Tools/SvgToPngConverter/Program.cs:29 | exactly the trailing white space is removed |
| Text.TrimKeeps | Swarm.Shared/Tools/SvgToPngConverter/Program.cs:29 | text with no edge white space is kept by trimming |
| Text.ParseDigits | Swarm.Shared/Tools/SvgToPngConverter/Program.cs:29 | unsigned digits parse to their value, or overflow above the 32-bit range |
| Text.ParseInt32RoundTrip | Swarm.Shared/Tools/SvgToPngConverter/Program.cs:29 | printing and parsing a number gives it back inside the 32-bit range, and overflows above it |
| Text.ParseInt32Negative | Swarm.Shared/Tools/SvgToPngConverter/Program.cs:32 | a minus sign negates, down to the least 32-bit value |
| Text.NoDigitsNoNumber | Swarm.Shared/Tools/SvgToPngConverter/Program.cs:32 | text without a digit is a format error |
| Paths.LastIndexOf | Swarm.Editor/ViewModels/FileSystemItemViewModel.cs:35 | the last position of the character, or -1 when it is absent |
| Paths.GetFileName | Swarm.Editor/ViewModels/FileSystemItemViewModel.cs:28 | the file name is the separator-free tail of the path that starts at the beginning or right after a separator |
| Paths.TrimSeparatorsBack | Swarm.Lsp/Services/LspService.cs:592 | stepping back passes over separators only, and stops at the root or after a non-separator |
| Paths.GetDirectoryName | Swarm.Lsp/Services/LspService.cs:585-592 | the directory is a strictly shorter prefix, and null exactly for an empty path or a bare root; it ends before the file name, and only separators lie between, with none at its end unless it is the root |
| Paths.CombineSplits | Swarm.Lsp/ServerManagement/LspServerManager.cs:54-55 | joining a directory and a segment and then splitting gives both back |
| Paths.TrimEndSeparators | Swarm.Editor/ViewModels/FileSystemItemViewModel.cs:34 | the result is the prefix that does not end in a separator and is followed only by separators |
| Paths.FileNameIsLastSegment | Swarm.Editor/ViewModels/FileSystemItemViewModel.cs:27 | any separator-free tail that starts at the beginning or right after a separator is the file name |
| Paths.TrimEndIsLongestUntrimmed | Swarm.Editor/ViewModels/FileSystemItemViewModel.cs:33 | any prefix that does not end in a separator and is followed only by separators is the trimmed path |
| Paths.TrimEndSeparatorsOfPadded | Swarm.Editor/ViewModels/FileSystemItemViewModel.cs:33 | trimming a path padded with any number of separators gives it back |

## Left out

- The LSP transport is not modelled:
  - JSON-RPC framing, the language-client library and the position arguments of requests;
  - the diagnostics event and the server process's exit handler;
  - server stdout and stderr logging.

  Only which client is asked, and the effect logged, is modelled.
- Concurrency is not modelled: the `Dispatcher.UIThread.Post` queue, `Task.WhenAll` and the race a concurrent caller could win against `TryAdd`. Operations run one at a time, and a posted action is applied at once.
- Logging and `Debug.WriteLine` output have no effect on state.
- The HTTP download, `ZipFile.ExtractToDirectory`, the chmod process and file deletion are outcomes passed in. Deletion is assumed to succeed.
- The SVG loading, scaling, tinting and PNG encoding of the converter tool are one oracle. It says only whether the conversion failed before the output file was opened, failed while saving into it, or completed. The bytes written are not modelled.
- Floating point: the chat's progress percentage is taken already converted to an `int`. The truncating float multiplication is not modelled.
- The shared event bus is not part of this model: `Swarm.Shared/EventBus/InMemoryEventBus.cs`, used by the main window and the explorer. The editor's own bus is modelled instead. Publishing an event from those view models is modelled as the published value.
- The dialogs and file saving of the main window are not modelled: open, save and save-as dialogs, `SaveFileAsync`, `SaveFileAsDialogAsync` and `Exit`. They go through the platform dialog service.
- `FileSystemService` is not modelled as code. Its answers appear as inputs: file existence, reading, directory existence and listing.
- The other converters and the views (panels, behaviours, the code editor control) are outside this model.
- Case-insensitive comparisons and `char.IsWhiteSpace` cover ASCII only. There are no culture tables and no Unicode case mapping.
- Chat.RemoveThinkingMessage: the test `Content.StartsWith("Thinking")` uses no `StringComparison`, so .NET compares with the current culture. There, ignorable characters such as a soft hyphen before "Thinking" still match. The model uses an ordinal prefix, so it does not promise the removal of such a message.
- Paths use the single separator '/'. Separator normalisation (collapsing "//") and Windows drive roots are not modelled.
- Converters.Convert: a boxed numeric value other than a 32-bit `int` is modelled as an opaque other object, so `long` or `short` counts are not distinguished.
- Commands.DelegateCanExecute: the parameterless predicate is modelled as a constant answer. A predicate whose answer changes between calls is not represented.
- LspService.Initialize: the process id comes in as a parameter, and whether the process starts and the handshake completes are outcomes passed in.
- Chat.HandleProgressUpdate: states the status text with the percentage already an integer. It does not state the float-to-int truncation.
- LspService.Register: the `ConcurrentDictionary`'s enumeration order is modelled as insertion order. .NET enumerates it by hash bucket, so `FindServerKeyForDocument`, the workspace-symbol fan-out and `Dispose` may visit sessions in another order. When two roots claim one path, the session chosen may differ. When one root claims it, the route is the same (`LspRouting.SoleClaimantRoutes`).
- LspService.StartClient: `new Uri(root)` is modelled as accepting exactly the roots that start with '/'. A relative root that happens to parse as a URI with a scheme (such as "a:b") is treated as rejected.
- LspInstaller.EnsureServerInstalled: `Directory.CreateDirectory` is modelled as adding the version directory alone. It also creates any missing parent directories. It runs outside the `try`, so a failure of its own (an unwritable base directory) would escape; that case is not modelled.
- EventBus.PublishThrowing: a handler that returns a null task, and the exceptions of tasks that fail after starting, are not modelled. Task failures surface from `Task.WhenAll`.

=== FILE: chat.dfy ===
/**
 * The chat transcript (Swarm.Editor/Models/Chat/ChatMessage.cs and
 * Swarm.Editor/ViewModels/Chat/ChatViewModel.cs): messages, the input box,
 * the processing flag and the status line, with the workflow events as
 * plain inputs. Posted UI actions are applied at once, in order.
 */
module Chat {
  import opened Options
  import opened Text

  /** A chat message; the timestamp is not modelled. */
  datatype Message = Message(content: string, isUserMessage: bool)

  /** A message as built with no initializer: empty content, not from the user. */
  function DefaultMessage(): (m: Message)
    ensures m.content == "" && !m.isUserMessage && SenderName(m) == "Agent"
  {
    Message("", false)
  }

  /** `SenderName`: "User" for the user's messages, "Agent" for all others. */
  function SenderName(m: Message): (name: string)
    ensures name == "User" <==> m.isUserMessage
    ensures name == "Agent" <==> !m.isUserMessage
  {
    if m.isUserMessage then "User" else "Agent"
  }

  /** The sender name depends on nothing but the user flag. */
  lemma SenderNameOnlyFromFlag(m: Message, other: Message)
    requires other.isUserMessage == m.isUserMessage
    ensures SenderName(other) == SenderName(m)
  {
  }

  datatype ChatState = ChatState(
    inputText: string,
    isProcessing: bool,
    statusMessage: string,
    messages: seq<Message>)

  const WelcomeText: string := "Welcome to Swarm Chat! How can I help you today?"
  const ClearedText: string := "Chat cleared. How may I assist you?"
  const ThinkingText: string := "Thinking..."
  const ThinkingPrefix: string := "Thinking"
  const Ready: string := "Ready"

  /** The constructor: an empty input, not processing, "Ready", and one welcome message from the agent. */
  function NewChat(): (c: ChatState)
    ensures c.inputText == "" && !c.isProcessing && c.statusMessage == Ready
    ensures |c.messages| == 1 && !c.messages[0].isUserMessage && c.messages[0].content == WelcomeText
  {
    ChatState("", false, Ready, [Message(WelcomeText, false)])
  }

  /** `CanSendMessage`: some non-whitespace input and no workflow in progress. */
  predicate CanSendMessage(c: ChatState)
  {
    !IsNullOrWhiteSpace(Some(c.inputText)) && !c.isProcessing
  }

  /**
   * `SendMessage`: whitespace input does nothing. Otherwise the input is
   * appended as a user message, processing starts with "Processing...",
   * the input is published as the prompt and the box is cleared. The
   * second component is the published prompt, if any.
   */
  function SendMessage(c: ChatState): (r: (ChatState, Option<string>))
    ensures IsNullOrWhiteSpace(Some(c.inputText)) ==> r == (c, None)
    ensures !IsNullOrWhiteSpace(Some(c.inputText)) ==>
              && r.1 == Some(c.inputText)
              && r.0.messages == c.messages + [Message(c.inputText, true)]
              && r.0.isProcessing && r.0.statusMessage == "Processing..." && r.0.inputText == ""
  {
    if IsNullOrWhiteSpace(Some(c.inputText)) then (c, None)
    else
      var sent := c.(messages := c.messages + [Message(c.inputText, true)]);
      (sent.(isProcessing := true, statusMessage := "Processing...", inputText := ""), Some(c.inputText))
  }

  /** `ClearChat`: ignored while processing; otherwise one "Chat cleared" message from the agent remains. */
  function ClearChat(c: ChatState): (r: ChatState)
    ensures c.isProcessing ==> r == c
    ensures !c.isProcessing ==> r == c.(messages := [Message(ClearedText, false)])
  {
    if c.isProcessing then c else c.(messages := [Message(ClearedText, false)])
  }

  /** `AddAssistantMessage`: appends a message from the agent. */
  function AddAssistantMessage(messages: seq<Message>, text: string): (r: seq<Message>)
    ensures |r| == |messages| + 1 && r[..|messages|] == messages
    ensures r[|messages|] == Message(text, false)
  {
    messages + [Message(text, false)]
  }

  /** Index of the last message satisfying `!isUserMessage`, searching below `end`. */
  function LastAgentBelow(messages: seq<Message>, end: nat): (k: Option<nat>)
    requires end <= |messages|
    ensures k.Some? ==> k.value < end && !messages[k.value].isUserMessage
    ensures k.Some? ==> forall j :: k.value < j < end ==> messages[j].isUserMessage
    ensures k.None? ==> forall j :: 0 <= j < end ==> messages[j].isUserMessage
    decreases end
  {
    if end == 0 then None
    else if !messages[end - 1].isUserMessage then Some(end - 1)
    else LastAgentBelow(messages, end - 1)
  }

  /**
   * `UpdateLastAssistantMessage`: scanning from the end, the first message
   * not from the user gets the new text; with none, nothing changes.
   */
  function UpdateLastAssistantMessage(messages: seq<Message>, newMessage: string): (r: seq<Message>)
    ensures |r| == |messages|
    ensures forall i :: 0 <= i < |messages| ==> r[i].isUserMessage == messages[i].isUserMessage
    ensures forall i :: 0 <= i < |messages| && r[i] != messages[i] ==>
              && !messages[i].isUserMessage && r[i].content == newMessage
              && forall j :: i < j < |messages| ==> messages[j].isUserMessage
    ensures (forall i :: 0 <= i < |messages| ==> messages[i].isUserMessage) ==> r == messages
    ensures (exists i :: 0 <= i < |messages| && !messages[i].isUserMessage) ==>
              exists i :: 0 <= i < |messages| && !messages[i].isUserMessage && r[i].content == newMessage
                          && forall j :: i < j < |messages| ==> messages[j].isUserMessage
  {
    match LastAgentBelow(messages, |messages|)
    case None => messages
    case Some(k) => messages[k := messages[k].(content := newMessage)]
  }

  /** A message the thinking-removal looks for. */
  predicate IsThinking(m: Message)
  {
    !m.isUserMessage && ThinkingPrefix <= m.content
  }

  /** Index of the last thinking message below `end`. */
  function LastThinkingBelow(messages: seq<Message>, end: nat): (k: Option<nat>)
    requires end <= |messages|
    ensures k.Some? ==> k.value < end && IsThinking(messages[k.value])
    ensures k.Some? ==> forall j :: k.value < j < end ==> !IsThinking(messages[j])
    ensures k.None? ==> forall j :: 0 <= j < end ==> !IsThinking(messages[j])
    decreases end
  {
    if end == 0 then None
    else if IsThinking(messages[end - 1]) then Some(end - 1)
    else LastThinkingBelow(messages, end - 1)
  }

  /**
   * `RemoveThinkingMessage`: removes the last message from the agent whose
   * text starts with "Thinking", keeping the order of the others.
   */
  function RemoveThinkingMessage(messages: seq<Message>): (r: seq<Message>)
    ensures (forall i :: 0 <= i < |messages| ==> !IsThinking(messages[i])) <==> r == messages
    ensures r != messages ==>
              && |r| == |messages| - 1
              && exists k :: 0 <= k < |messages| && IsThinking(messages[k]) && r == messages[..k] + messages[k + 1..]
                             && forall j :: k < j < |messages| ==> !IsThinking(messages[j])
  {
    match LastThinkingBelow(messages, |messages|)
    case None => messages
    case Some(k) =>
      var r := messages[..k] + messages[k + 1..];
      assert |r| < |messages|;
      r
  }

  /** Workflow started: processing, a status naming the workflow, and a "Thinking..." message. */
  function HandleWorkflowStarted(c: ChatState, workflowId: string): (r: ChatState)
    ensures r.isProcessing && r.inputText == c.inputText
    ensures r.statusMessage == "Processing workflow " + workflowId + "..."
    ensures r.messages == c.messages + [Message(ThinkingText, false)]
  {
    c.(statusMessage := "Processing workflow " + workflowId + "...", isProcessing := true,
       messages := AddAssistantMessage(c.messages, ThinkingText))
  }

  /** `int.ToString()` for any sign. */
  function IntToString(n: int): string
  {
    if n < 0 then "-" + NatToString(-n) else NatToString(n)
  }

  /**
   * Progress update: the status shows the percentage (already truncated to
   * an integer) and the message, and the last agent message becomes
   * "Thinking... " followed by the message.
   */
  function HandleProgressUpdate(c: ChatState, percentage: int, message: string): (r: ChatState)
    ensures r.isProcessing == c.isProcessing && r.inputText == c.inputText
    ensures r.statusMessage == "Processing... " + IntToString(percentage) + "% - " + message
    ensures r.messages == UpdateLastAssistantMessage(c.messages, "Thinking... " + message)
  {
    c.(statusMessage := "Processing... " + IntToString(percentage) + "% - " + message,
       messages := UpdateLastAssistantMessage(c.messages, "Thinking... " + message))
  }

  /** Workflow finished or failed: the thinking message is replaced by `text` at the end, and the chat is ready. */
  function Finish(c: ChatState, text: string): (r: ChatState)
    ensures !r.isProcessing && r.statusMessage == Ready && r.inputText == c.inputText
    ensures r.messages == RemoveThinkingMessage(c.messages) + [Message(text, false)]
  {
    c.(messages := AddAssistantMessage(RemoveThinkingMessage(c.messages), text), isProcessing := false, statusMessage := Ready)
  }

  /** Result available: the result is shown as an agent message. */
  function HandleResultAvailable(c: ChatState, result: string): (r: ChatState)
    ensures !r.isProcessing && r.statusMessage == Ready
    ensures r.messages == RemoveThinkingMessage(c.messages) + [Message(result, false)]
  {
    Finish(c, result)
  }

  /** Workflow error: "Error: " and the message are shown as an agent message. */
  function HandleWorkflowError(c: ChatState, errorMessage: string): (r: ChatState)
    ensures !r.isProcessing && r.statusMessage == Ready
    ensures r.messages == RemoveThinkingMessage(c.messages) + [Message("Error: " + errorMessage, false)]
  {
    Finish(c, "Error: " + errorMessage)
  }

  /** After a send, another send is not possible until the workflow ends. */
  lemma SendDisablesSend(c: ChatState)
    requires CanSendMessage(c)
    ensures !CanSendMessage(SendMessage(c).0) && SendMessage(c).1 == Some(c.inputText)
  {
  }

  /** Clearing twice is clearing once. */
  lemma ClearIdempotent(c: ChatState)
    ensures ClearChat(ClearChat(c)) == ClearChat(c)
  {
  }

  /**
   * A workflow that starts, reports progress and finishes leaves the
   * transcript as before plus the result: the progress message rewrote the
   * "Thinking..." message, which the result then removed.
   */
  lemma WorkflowRoundTrip(c: ChatState, workflowId: string, percentages: seq<int>, progress: seq<string>, result: string)
    requires |percentages| == |progress|
    ensures var started := HandleWorkflowStarted(c, workflowId);
            var done := HandleResultAvailable(Progress(started, percentages, progress), result);
            done.messages == c.messages + [Message(result, false)]
            && !done.isProcessing && done.statusMessage == Ready
  {
    var started := HandleWorkflowStarted(c, workflowId);
    var n := |c.messages|;
    ProgressKeepsThinkingLast(started, percentages, progress, n);
    var mid := Progress(started, percentages, progress);
    assert mid.messages[..n] == c.messages;
    var k := LastThinkingBelow(mid.messages, |mid.messages|);
    assert k == Some(n);
    assert mid.messages[..n] + mid.messages[n + 1..] == c.messages;
  }

  /** A workflow that starts and then fails leaves the transcript as before plus the error. */
  lemma FailedWorkflowShowsError(c: ChatState, workflowId: string, errorMessage: string)
    ensures var done := HandleWorkflowError(HandleWorkflowStarted(c, workflowId), errorMessage);
            done.messages == c.messages + [Message("Error: " + errorMessage, false)]
  {
    var started := HandleWorkflowStarted(c, workflowId);
    assert LastThinkingBelow(started.messages, |started.messages|) == Some(|c.messages|);
    assert started.messages[..|c.messages|] == c.messages;
  }

  /** Successive progress updates. */
  function Progress(c: ChatState, percentages: seq<int>, progress: seq<string>): ChatState
    requires |percentages| == |progress|
    decreases |progress|
  {
    if |progress| == 0 then c
    else Progress(HandleProgressUpdate(c, percentages[0], progress[0]), percentages[1..], progress[1..])
  }

  /** Progress updates only rewrite a trailing thinking message and keep it a thinking message. */
  lemma {:induction false} ProgressKeepsThinkingLast(c: ChatState, percentages: seq<int>, progress: seq<string>, n: nat)
    requires |percentages| == |progress|
    requires |c.messages| == n + 1 && IsThinking(c.messages[n])
    ensures var r := Progress(c, percentages, progress);
            |r.messages| == n + 1 && r.messages[..n] == c.messages[..n] && IsThinking(r.messages[n])
    decreases |progress|
  {
    if |progress| > 0 {
      var next := HandleProgressUpdate(c, percentages[0], progress[0]);
      var text := "Thinking... " + progress[0];
      assert LastAgentBelow(c.messages, n + 1) == Some(n);
      assert next.messages == c.messages[n := Message(text, false)];
      assert ThinkingPrefix <= text by {
        assert text[..|ThinkingPrefix|] == ThinkingPrefix;
      }
      ProgressKeepsThinkingLast(next, percentages[1..], progress[1..], n);
    }
  }
}

=== FILE: commands.dfy ===
/**
 * The two command implementations: `DelegateCommand` / `DelegateCommand<T>`
 * (Swarm.Editor/Common/Commands/DelegateCommand.cs) and `RelayCommand` /
 * `RelayCommand<T>` (Swarm.Editor/ViewModels/RelayCommand.cs). An action
 * is an identity; running a command yields the invocation it makes. A
 * predicate is a total Dafny function; a parameterless predicate is
 * modelled as a constant.
 */
module Commands {
  import opened Options

  type ActionRef = nat

  /** The `object?` parameter of a generic command: null, a `T`, or an object of some other type. */
  datatype Param<T> = Null | Value(value: T) | Foreign

  /** A constructor's outcome: the command, or a thrown `ArgumentNullException` for a null action. */
  datatype Built<C> = Built(command: C) | ThrewArgumentNull

  /** What `Execute` does: one call of the action with an argument, nothing, or a failed cast. */
  datatype Run<T> = Invoked(action: ActionRef, arg: T) | NoCall | ThrewInvalidCast

  /** What a generic `CanExecute` answers, or a failed cast. */
  datatype Answer = Answer(value: bool) | AnswerThrewInvalidCast

  // ---------------------------------------------------------------------------
  // DelegateCommand
  // ---------------------------------------------------------------------------

  datatype DelegateCommand = DelegateCommand(execute: ActionRef, canExecute: Option<bool>)

  function NewDelegateCommand(execute: Option<ActionRef>, canExecute: Option<bool>): (r: Built<DelegateCommand>)
    ensures r.ThrewArgumentNull? <==> execute.None?
    ensures r.Built? ==> r.command.execute == execute.value && r.command.canExecute == canExecute
  {
    if execute.None? then ThrewArgumentNull else Built(DelegateCommand(execute.value, canExecute))
  }

  /** `CanExecute`: the predicate's answer, true without one; the parameter is ignored. */
  function DelegateCanExecute<P>(c: DelegateCommand, parameter: P): (r: bool)
    ensures c.canExecute.None? ==> r
    ensures c.canExecute.Some? ==> r == c.canExecute.value
  {
    c.canExecute.OrElse(true)
  }

  /** `Execute`: the action runs once; the parameter is ignored (see `NonGenericIgnoresParameter`). */
  function DelegateExecute<P>(c: DelegateCommand, parameter: P): Run<()>
  {
    Invoked(c.execute, ())
  }

  datatype GenericDelegateCommand<!T> = GenericDelegateCommand(execute: ActionRef, canExecute: Option<T -> bool>)

  function NewGenericDelegateCommand<T>(execute: Option<ActionRef>, canExecute: Option<T -> bool>): (r: Built<GenericDelegateCommand<T>>)
    ensures r.ThrewArgumentNull? <==> execute.None?
    ensures r.Built? ==> r.command.execute == execute.value && r.command.canExecute == canExecute
  {
    if execute.None? then ThrewArgumentNull else Built(GenericDelegateCommand(execute.value, canExecute))
  }

  /**
   * `DelegateCommand<T>.CanExecute`: a null parameter answers whether no
   * predicate was given, without consulting it; a `T` goes to the
   * predicate, true without one; any other object fails the cast, but
   * only when there is a predicate to pass it to.
   */
  function GenericDelegateCanExecute<T>(c: GenericDelegateCommand<T>, parameter: Param<T>): (r: Answer)
    ensures parameter.Null? ==> r == Answer(c.canExecute.None?)
    ensures parameter.Value? && c.canExecute.Some? ==> r == Answer(c.canExecute.value(parameter.value))
    ensures !parameter.Null? && c.canExecute.None? ==> r == Answer(true)
    ensures r.AnswerThrewInvalidCast? <==> parameter.Foreign? && c.canExecute.Some?
  {
    match parameter
    case Null => Answer(c.canExecute.None?)
    case Value(v) => if c.canExecute.Some? then Answer(c.canExecute.value(v)) else Answer(true)
    case Foreign => if c.canExecute.Some? then AnswerThrewInvalidCast else Answer(true)
  }

  /** `DelegateCommand<T>.Execute`: nothing for null, the action with the `T`, a failed cast otherwise. */
  function GenericDelegateExecute<T>(c: GenericDelegateCommand<T>, parameter: Param<T>): (r: Run<T>)
    ensures parameter.Null? <==> r.NoCall?
    ensures parameter.Foreign? <==> r.ThrewInvalidCast?
    ensures r.Invoked? ==> r.action == c.execute && parameter == Value(r.arg)
  {
    match parameter
    case Null => NoCall
    case Value(v) => Invoked(c.execute, v)
    case Foreign => ThrewInvalidCast
  }

  // ---------------------------------------------------------------------------
  // RelayCommand
  // ---------------------------------------------------------------------------

  /** The predicate is stored already defaulted: a missing one becomes "always true". */
  datatype RelayCommand = RelayCommand(execute: ActionRef, canExecute: bool)

  function NewRelayCommand(execute: Option<ActionRef>, canExecute: Option<bool>): (r: Built<RelayCommand>)
    ensures r.ThrewArgumentNull? <==> execute.None?
    ensures r.Built? ==> r.command.execute == execute.value
    ensures r.Built? && canExecute.None? ==> r.command.canExecute
    ensures r.Built? && canExecute.Some? ==> r.command.canExecute == canExecute.value
  {
    if execute.None? then ThrewArgumentNull else Built(RelayCommand(execute.value, canExecute.OrElse(true)))
  }

  /** `CanExecute`: the stored predicate's answer; the parameter is ignored. */
  function RelayCanExecute<P>(c: RelayCommand, parameter: P): bool
  {
    c.canExecute
  }

  /** `Execute`: the action runs once; the parameter is ignored. */
  function RelayExecute<P>(c: RelayCommand, parameter: P): Run<()>
  {
    Invoked(c.execute, ())
  }

  /** `default(T)` travels with the command, since the model has no type-level defaults. */
  datatype GenericRelayCommand<!T> = GenericRelayCommand(execute: ActionRef, canExecute: Option<T -> bool>, defaultValue: T)

  function NewGenericRelayCommand<T>(execute: Option<ActionRef>, canExecute: Option<T -> bool>, defaultValue: T): (r: Built<GenericRelayCommand<T>>)
    ensures r.ThrewArgumentNull? <==> execute.None?
    ensures r.Built? ==> r.command.execute == execute.value && r.command.canExecute == canExecute
    ensures r.Built? ==> r.command.defaultValue == defaultValue
  {
    if execute.None? then ThrewArgumentNull else Built(GenericRelayCommand(execute.value, canExecute, defaultValue))
  }

  /** `parameter is T t ? t : default`: null and foreign objects both become the default. */
  function AsT<T>(parameter: Param<T>, defaultValue: T): (t: T)
    ensures parameter.Value? ==> t == parameter.value
    ensures !parameter.Value? ==> t == defaultValue
  {
    if parameter.Value? then parameter.value else defaultValue
  }

  /** `RelayCommand<T>.CanExecute`: true without a predicate, else the predicate on the parameter taken as a `T`. */
  function GenericRelayCanExecute<T>(c: GenericRelayCommand<T>, parameter: Param<T>): (r: bool)
    ensures c.canExecute.None? ==> r
    ensures c.canExecute.Some? ==> r == c.canExecute.value(AsT(parameter, c.defaultValue))
  {
    c.canExecute.None? || c.canExecute.value(AsT(parameter, c.defaultValue))
  }

  /** `RelayCommand<T>.Execute`: the action always runs, with the parameter taken as a `T`. */
  function GenericRelayExecute<T>(c: GenericRelayCommand<T>, parameter: Param<T>): (r: Run<T>)
    ensures r.Invoked? && r.action == c.execute
    ensures r.arg == AsT(parameter, c.defaultValue)
  {
    Invoked(c.execute, AsT(parameter, c.defaultValue))
  }

  // ---------------------------------------------------------------------------
  // Relations between the two implementations
  // ---------------------------------------------------------------------------

  /** Neither non-generic command looks at its parameter. */
  lemma NonGenericIgnoresParameter<P>(d: DelegateCommand, r: RelayCommand, x: P, y: P)
    ensures DelegateCanExecute(d, x) == DelegateCanExecute(d, y) && DelegateExecute(d, x) == DelegateExecute(d, y)
    ensures RelayCanExecute(r, x) == RelayCanExecute(r, y) && RelayExecute(r, x) == RelayExecute(r, y)
  {
  }

  /**
   * Built from the same action and predicate, the two non-generic commands
   * behave the same: both run the given action once, and both answer the
   * given predicate, or true without one.
   */
  lemma NonGenericCommandsAgree<P>(execute: Option<ActionRef>, canExecute: Option<bool>, parameter: P)
    ensures NewDelegateCommand(execute, canExecute).Built? <==> NewRelayCommand(execute, canExecute).Built?
    ensures var d := NewDelegateCommand(execute, canExecute);
            var r := NewRelayCommand(execute, canExecute);
            d.Built? ==> DelegateCanExecute(d.command, parameter) == RelayCanExecute(r.command, parameter)
                         && DelegateExecute(d.command, parameter) == RelayExecute(r.command, parameter)
                         && RelayExecute(r.command, parameter) == Invoked(execute.value, ())
                         && RelayCanExecute(r.command, parameter) == canExecute.OrElse(true)
  {
  }

  /** On a parameter that is a `T`, the two generic commands answer and run alike. */
  lemma GenericCommandsAgreeOnValues<T>(execute: ActionRef, canExecute: Option<T -> bool>, defaultValue: T, v: T)
    ensures var d := GenericDelegateCommand(execute, canExecute);
            var r := GenericRelayCommand(execute, canExecute, defaultValue);
            GenericDelegateCanExecute(d, Value(v)) == Answer(GenericRelayCanExecute(r, Value(v)))
            && GenericDelegateExecute(d, Value(v)) == GenericRelayExecute(r, Value(v))
  {
  }

  /**
   * On null they part ways: the delegate command does nothing and, with a
   * predicate, says it cannot run; the relay command runs the action with
   * the default value and asks the predicate about it.
   */
  lemma GenericCommandsDifferOnNull<T>(execute: ActionRef, canExecute: Option<T -> bool>, defaultValue: T)
    ensures var d := GenericDelegateCommand(execute, canExecute);
            var r := GenericRelayCommand(execute, canExecute, defaultValue);
            && GenericDelegateExecute(d, Null) == NoCall
            && GenericRelayExecute(r, Null) == Invoked(execute, defaultValue)
            && (canExecute.Some? ==> GenericDelegateCanExecute(d, Null) == Answer(false))
            && (canExecute.Some? ==> GenericRelayCanExecute(r, Null) == canExecute.value(defaultValue))
  {
  }
}

=== FILE: converters.dfy ===
/**
 * The five value converters that return plain values
 * (Swarm.Editor/Common/Converters): a boxed input is examined for its
 * run-time type, and the target type, the converter parameter and the
 * culture are never consulted. Converting back is not supported.
 */
module Converters {
  import opened Text
  import opened Options
  import Chat

  /** `Avalonia.Layout.HorizontalAlignment`. */
  datatype HorizontalAlignment = Stretch | Left | Center | Right

  /** An `object?` as far as the converters can tell it apart. */
  datatype Boxed =
    | BoxedNull
    | BoxedInt(i: Int32)  // only a 32-bit `int` counts; other numeric types are `BoxedOther`
    | BoxedBool(b: bool)
    | BoxedString(s: string)
    | BoxedAlignment(alignment: HorizontalAlignment)
    | BoxedOther

  /** The binding context a converter receives next to the value; the model names it only to show it is ignored. */
  datatype Context = Context(targetType: string, parameter: Boxed, culture: string)

  datatype Converter =
    | CountToVisibility
    | CountToInverseVisibility
    | StringToVisibility
    | BoolToFolderIcon
    | BoolToAlignment

  /** What `ConvertBack` produces: a value, or a thrown `NotImplementedException`. */
  datatype BackOutcome = BackReturned(value: Boxed) | ThrewNotImplemented

  const FolderIcon: string := "\U{1F4C1}"
  const DocumentIcon: string := "\U{1F4C4}"
  const ReadyStatus: string := "Ready"

  /** `CountToVisibilityConverter`: the tabs show only for an `int` count of two or more. */
  function CountVisible(value: Boxed): (shown: bool)
    ensures shown <==> value.BoxedInt? && value.i >= 2
  {
    match value
    case BoxedInt(count) => count > 1
    case _ => false
  }

  /** `CountToInverseVisibilityConverter`: the single editor shows for zero, one or a negative count, and for anything that is not an `int`. */
  function CountInverseVisible(value: Boxed): (shown: bool)
    ensures !value.BoxedInt? ==> shown
    ensures value.BoxedInt? ==> (shown <==> value.i <= 1)
  {
    match value
    case BoxedInt(count) => count <= 1
    case _ => true
  }

  /** `StringToVisibilityConverter`: a status shows unless it is blank or reads "Ready" in any letter case. */
  function StatusVisible(value: Boxed): (shown: bool)
    ensures !value.BoxedString? ==> !shown
    ensures value.BoxedString? ==>
              (shown <==> !IsNullOrWhiteSpace(Some(value.s)) && ToLower(value.s) != ToLower(ReadyStatus))
  {
    match value
    case BoxedString(str) => !IsNullOrWhiteSpace(Some(str)) && !EqualsIgnoreCase(str, ReadyStatus)
    case _ => false
  }

  /** `BoolToFolderIconConverter`: the folder icon for a boxed `true`, the document icon otherwise. */
  function Icon(value: Boxed): (icon: string)
    ensures icon == FolderIcon <==> value == BoxedBool(true)
    ensures icon == FolderIcon || icon == DocumentIcon
  {
    match value
    case BoxedBool(isDirectory) => if isDirectory then FolderIcon else DocumentIcon
    case _ => DocumentIcon
  }

  /** `BoolToAlignmentConverter`: right for a boxed `true` (a user message), left otherwise. */
  function Alignment(value: Boxed): (a: HorizontalAlignment)
    ensures a == Right <==> value == BoxedBool(true)
    ensures a == Right || a == Left
  {
    match value
    case BoxedBool(isUser) => if isUser then Right else Left
    case _ => Left
  }

  /** `Convert` of each converter, boxing the plain result. */
  function Convert(c: Converter, value: Boxed, context: Context): (r: Boxed)
    ensures c == CountToVisibility ==> r == BoxedBool(CountVisible(value))
    ensures c == CountToInverseVisibility ==> r == BoxedBool(CountInverseVisible(value))
    ensures c == StringToVisibility ==> r == BoxedBool(StatusVisible(value))
    ensures c == BoolToFolderIcon ==> r == BoxedString(Icon(value))
    ensures c == BoolToAlignment ==> r == BoxedAlignment(Alignment(value))
  {
    match c
    case CountToVisibility => BoxedBool(CountVisible(value))
    case CountToInverseVisibility => BoxedBool(CountInverseVisible(value))
    case StringToVisibility => BoxedBool(StatusVisible(value))
    case BoolToFolderIcon => BoxedString(Icon(value))
    case BoolToAlignment => BoxedAlignment(Alignment(value))
  }

  /** `ConvertBack` of every converter throws, whatever it is given. */
  function ConvertBack(c: Converter, value: Boxed, context: Context): (r: BackOutcome)
    ensures r.ThrewNotImplemented?
  {
    ThrewNotImplemented
  }

  /** The result depends on the value alone, never on the binding context. */
  lemma ConvertIgnoresContext(c: Converter, value: Boxed, x: Context, y: Context)
    ensures Convert(c, value, x) == Convert(c, value, y)
  {
  }

  /** The inverse converter is the negation of the count converter on every input. */
  lemma InverseIsNegation(value: Boxed)
    ensures CountInverseVisible(value) == !CountVisible(value)
  {
  }

  /** Exactly one of the tab strip and the single editor is shown for any count. */
  lemma ExactlyOneEditorView(value: Boxed, context: Context)
    ensures Convert(CountToVisibility, value, context) != Convert(CountToInverseVisibility, value, context)
  {
  }

  /** "Ready" hides the status in any letter case. */
  lemma ReadyHidesStatus()
    ensures !StatusVisible(BoxedString("Ready")) && !StatusVisible(BoxedString("READY")) && !StatusVisible(BoxedString("rEaDy"))
  {
    SameLetters("READY", ReadyStatus);
    SameLetters("rEaDy", ReadyStatus);
  }

  /** Two strings that agree letter by letter up to case are equal ignoring case. */
  lemma SameLetters(s: string, t: string)
    requires |s| == |t| && forall i :: 0 <= i < |s| ==> ToLowerChar(s[i]) == ToLowerChar(t[i])
    ensures EqualsIgnoreCase(s, t)
  {
  }

  /** A blank or missing status is hidden. */
  lemma BlankHidesStatus()
    ensures !StatusVisible(BoxedString("")) && !StatusVisible(BoxedString(" \t")) && !StatusVisible(BoxedNull)
  {
  }

  /** A status the chat sets while busy: it begins with a letter and is longer than "Ready". */
  lemma BusyTextShown(status: string)
    requires |status| > |ReadyStatus| && status[0] == 'P'
    ensures StatusVisible(BoxedString(status))
  {
    assert !IsWhiteSpace(status[0]);
    assert |ToLower(status)| != |ToLower(ReadyStatus)|;
  }

  /**
   * The status texts of the chat read through this converter: every status
   * set while a workflow runs is shown, and the "Ready" of an idle chat is
   * hidden.
   */
  lemma ChatStatusShownWhileBusy(c: Chat.ChatState, workflowId: string, percentage: int, message: string, text: string)
    ensures !StatusVisible(BoxedString(Chat.NewChat().statusMessage))
    ensures !IsNullOrWhiteSpace(Some(c.inputText)) ==> StatusVisible(BoxedString(Chat.SendMessage(c).0.statusMessage))
    ensures StatusVisible(BoxedString(Chat.HandleWorkflowStarted(c, workflowId).statusMessage))
    ensures StatusVisible(BoxedString(Chat.HandleProgressUpdate(c, percentage, message).statusMessage))
    ensures !StatusVisible(BoxedString(Chat.HandleResultAvailable(c, text).statusMessage))
    ensures !StatusVisible(BoxedString(Chat.HandleWorkflowError(c, text).statusMessage))
  {
    ReadyHidesStatus();
    BusyTextShown("Processing...");
    var started := "Processing workflow " + workflowId + "...";
    assert started[0] == 'P';
    BusyTextShown(started);
    var progress := "Processing... " + Chat.IntToString(percentage) + "% - " + message;
    assert progress[0] == 'P';
    BusyTextShown(progress);
  }

  /** The icon and the alignment read a boxed flag the same way: folder exactly when right-aligned. */
  lemma IconAgreesWithAlignment(value: Boxed)
    ensures Icon(value) == FolderIcon <==> Alignment(value) == Right
  {
  }
}

=== FILE: document.dfy ===
/**
 * One document of the editor area (Swarm.Editor/ViewModels/DocumentViewModel.cs):
 * nullable title, path and text, and the dirty flag that a text change
 * raises only for documents backed by a file.
 */
module Documents {
  import opened Options
  import opened Paths

  datatype Doc = Doc(
    title: Option<string>,
    filePath: Option<string>,
    content: Option<string>,
    isDirty: bool,
    isReadOnly: bool)

  /** The parameterless constructor: every field null or false. */
  function NewDoc(): (d: Doc)
    ensures d.title.None? && d.filePath.None? && d.content.None? && !d.isDirty && !d.isReadOnly
  {
    Doc(None, None, None, false, false)
  }

  const PlaceholderPrefix: string := "Content for "

  /**
   * The path constructor: the title is the file name (null for a null
   * path), the text is "Content for " followed by the path (null
   * interpolates as nothing), and the document is clean.
   */
  function OpenedDoc(filePath: Option<string>): (d: Doc)
    ensures d.filePath == filePath && !d.isDirty && !d.isReadOnly
    ensures d.title.Some? <==> filePath.Some?
    ensures filePath.Some? ==> d.title.value == GetFileName(filePath.value)
    ensures d.content.Some? && PlaceholderPrefix <= d.content.value
    ensures d.content.value[|PlaceholderPrefix|..] == filePath.OrElse("")
  {
    var title := if filePath.Some? then Some(GetFileName(filePath.value)) else None;
    Doc(title, filePath, Some(PlaceholderPrefix + filePath.OrElse("")), false, false)
  }

  /**
   * Assigning `Content`: an equal value changes nothing; a different one
   * is stored and, when the document has a path, marks it dirty.
   */
  function SetContent(d: Doc, value: Option<string>): (r: Doc)
    ensures r.content == value
    ensures r.title == d.title && r.filePath == d.filePath && r.isReadOnly == d.isReadOnly
    ensures r.isDirty <==> d.isDirty || (value != d.content && d.filePath.Some?)
  {
    if value == d.content then d
    else
      var changed := d.(content := value);
      if changed.filePath.Some? then changed.(isDirty := true) else changed
  }

  /** Setting the same text twice is the same as setting it once. */
  lemma SetContentIdempotent(d: Doc, value: Option<string>)
    ensures SetContent(SetContent(d, value), value) == SetContent(d, value)
  {
  }

  /** A document without a path never becomes dirty through text changes. */
  lemma {:induction false} UntitledNeverDirty(d: Doc, edits: seq<Option<string>>)
    requires d.filePath.None? && !d.isDirty
    ensures var r := ApplyEdits(d, edits); !r.isDirty && r.filePath.None?
    decreases |edits|
  {
    if |edits| > 0 {
      UntitledNeverDirty(SetContent(d, edits[0]), edits[1..]);
    }
  }

  /** Successive assignments of `Content`. */
  function ApplyEdits(d: Doc, edits: seq<Option<string>>): (r: Doc)
    ensures r.filePath == d.filePath && r.title == d.title
    ensures |edits| > 0 ==> r.content == edits[|edits| - 1]
    ensures d.isDirty ==> r.isDirty
    decreases |edits|
  {
    if |edits| == 0 then d else ApplyEdits(SetContent(d, edits[0]), edits[1..])
  }

  /**
   * A document with a path is dirty after a run of edits exactly when it
   * was dirty before or some edit changed the text it had at that point.
   */
  lemma {:induction false} DirtyIffSomeEditChanged(d: Doc, edits: seq<Option<string>>)
    requires d.filePath.Some?
    ensures ApplyEdits(d, edits).isDirty <==> d.isDirty || exists i :: 0 <= i < |edits| && edits[i] != ContentBefore(d, edits, i)
    decreases |edits|
  {
    if |edits| > 0 {
      var d' := SetContent(d, edits[0]);
      DirtyIffSomeEditChanged(d', edits[1..]);
      assert forall i :: 0 <= i < |edits| - 1 ==> ContentBefore(d', edits[1..], i) == ContentBefore(d, edits, i + 1);
      if d'.isDirty {
      } else {
        assert !d.isDirty && edits[0] == ContentBefore(d, edits, 0);
        if exists i :: 0 <= i < |edits| && edits[i] != ContentBefore(d, edits, i) {
          var i :| 0 <= i < |edits| && edits[i] != ContentBefore(d, edits, i);
          assert i > 0;
          assert edits[1..][i - 1] != ContentBefore(d', edits[1..], i - 1);
        }
      }
    }
  }

  /** The text just before edit `i` is applied. */
  function ContentBefore(d: Doc, edits: seq<Option<string>>, i: nat): Option<string>
    requires i <= |edits|
  {
    if i == 0 then d.content else edits[i - 1]
  }
}

=== FILE: document_tab.dfy ===
/**
 * One editor tab (Swarm.Editor/ViewModels/DocumentTabViewModel.cs): its
 * constructors, the setters that normalise null to "" and the title shown
 * on the tab.
 */
module DocumentTabs {
  import opened Options
  import opened Paths

  datatype Tab = Tab(
    filePath: string,
    content: string,
    displayName: string,
    isModified: bool,
    isActive: bool,
    hasCustomDisplayName: bool)

  const Untitled: string := "Untitled"

  /** The parameterless constructor. */
  function NewTab(): (t: Tab)
    ensures t.filePath == "" && t.content == "" && t.displayName == Untitled
    ensures !t.isModified && !t.isActive && !t.hasCustomDisplayName
  {
    Tab("", "", Untitled, false, false, false)
  }

  /**
   * `DocumentTabViewModel(filePath, content, displayName = null)`: the name
   * is the given one, else the file-name part of the path, and "Untitled"
   * when that is empty.
   */
  function OpenTab(filePath: Option<string>, content: Option<string>, displayName: Option<string>): (t: Tab)
    ensures t.filePath == filePath.OrElse("") && t.content == content.OrElse("")
    ensures |t.displayName| > 0
    ensures displayName.Some? && |displayName.value| > 0 ==> t.displayName == displayName.value
    ensures displayName.None? && |GetFileName(filePath.OrElse(""))| > 0 ==> t.displayName == GetFileName(filePath.OrElse(""))
    ensures displayName.Some? && |displayName.value| == 0 ==> t.displayName == Untitled
    ensures displayName.None? && |GetFileName(filePath.OrElse(""))| == 0 ==> t.displayName == Untitled
    ensures !t.isModified && !t.isActive
    ensures t.hasCustomDisplayName <==> displayName.Some?
  {
    var name := if displayName.Some? then displayName.value else GetFileName(filePath.OrElse(""));
    Tab(filePath.OrElse(""), content.OrElse(""), if |name| == 0 then Untitled else name, false, false, displayName.Some?)
  }

  /**
   * `DocumentTabViewModel(filePath, content, customDisplayName, useCustomName)`:
   * the name is taken verbatim (null becomes "Untitled", "" stays ""); the
   * flag argument is ignored.
   */
  function NamedTab(filePath: Option<string>, content: Option<string>, customDisplayName: Option<string>): (t: Tab)
    ensures t.filePath == filePath.OrElse("") && t.content == content.OrElse("")
    ensures t.displayName == customDisplayName.OrElse(Untitled)
    ensures !t.isModified && !t.isActive && t.hasCustomDisplayName
  {
    Tab(filePath.OrElse(""), content.OrElse(""), customDisplayName.OrElse(Untitled), false, false, true)
  }

  /** Setting `FilePath`: null becomes "". */
  function SetFilePath(t: Tab, value: Option<string>): (r: Tab)
    ensures r.filePath == value.OrElse("")
    ensures r == t.(filePath := r.filePath)
  {
    t.(filePath := value.OrElse(""))
  }

  /** Setting `Content` marks the tab modified, even when the text is the same. */
  function SetContent(t: Tab, value: Option<string>): (r: Tab)
    ensures r.content == value.OrElse("") && r.isModified
    ensures r == t.(content := r.content, isModified := true)
  {
    t.(content := value.OrElse(""), isModified := true)
  }

  /** Setting `DisplayName`: null becomes "", and the name counts as custom from then on. */
  function SetDisplayName(t: Tab, value: Option<string>): (r: Tab)
    ensures r.displayName == value.OrElse("") && r.hasCustomDisplayName
    ensures r == t.(displayName := r.displayName, hasCustomDisplayName := true)
  {
    t.(displayName := value.OrElse(""), hasCustomDisplayName := true)
  }

  /** `TabTitle`: the name with a '*' appended while modified. */
  function TabTitle(t: Tab): string
  {
    if t.isModified then t.displayName + "*" else t.displayName
  }

  /**
   * The title determines the name and the modified flag back, provided the
   * name itself does not end in '*'.
   */
  lemma TabTitleDecodes(t: Tab)
    requires |t.displayName| == 0 || t.displayName[|t.displayName| - 1] != '*'
    ensures var title := TabTitle(t);
            (t.isModified <==> |title| > 0 && title[|title| - 1] == '*')
            && t.displayName == (if t.isModified then title[..|title| - 1] else title)
  {
    var title := TabTitle(t);
    if t.isModified {
      assert title[..|title| - 1] == t.displayName;
    }
  }

  /** Re-assigning the same text still shows the tab as modified. */
  lemma SameContentStillModifies(t: Tab)
    requires !t.isModified
    ensures var r := SetContent(t, Some(t.content));
            r.content == t.content && r.isModified && TabTitle(r) == t.displayName + "*" && TabTitle(t) == t.displayName
  {
  }

  /** A tab without a custom name shows the file name of its path. */
  lemma OpenTabShowsFileName(dir: string, name: string, content: string)
    requires IsDirectoryPath(dir) && IsSegment(name)
    ensures OpenTab(Some(Combine(dir, name)), Some(content), None).displayName == name
    ensures TabTitle(OpenTab(Some(Combine(dir, name)), Some(content), None)) == name
  {
    CombineSplits(dir, name);
  }

  /** An empty custom name is kept by the named constructor but replaced by the other one. */
  lemma EmptyCustomNameDiffers()
    ensures NamedTab(None, None, Some("")).displayName == ""
    ensures OpenTab(None, None, Some("")).displayName == Untitled
  {
  }
}

=== FILE: editor_area.dfy ===
/**
 * The editor area (Swarm.Editor/ViewModels/EditorAreaViewModel.cs): the
 * list of open documents and the active one. Documents are objects
 * compared by reference; each has an identity `DocId` in `store`.
 */
module EditorArea {
  import opened Options
  import opened Documents

  type DocId = nat

  datatype Area = Area(store: map<DocId, Doc>, docs: seq<DocId>, active: Option<DocId>, nextId: DocId)

  /** Listed and active documents exist, the list has no repeats, fresh identities are unused. */
  predicate Valid(a: Area)
  {
    && (forall i :: 0 <= i < |a.docs| ==> a.docs[i] in a.store)
    && (forall i, j :: 0 <= i < j < |a.docs| ==> a.docs[i] != a.docs[j])
    && (a.active.Some? ==> a.active.value in a.store)
    && (forall id :: id in a.store ==> id < a.nextId)
  }

  /** No two listed documents share a non-null path. */
  predicate DistinctPaths(a: Area)
    requires Valid(a)
  {
    forall i, j :: 0 <= i < j < |a.docs| && a.store[a.docs[i]].filePath.Some? ==>
      a.store[a.docs[i]].filePath != a.store[a.docs[j]].filePath
  }

  /** Allocates `d`, appends it and makes it active. */
  function AppendActive(a: Area, d: Doc): (r: Area)
    requires Valid(a)
    ensures Valid(r) && r.active.Some? && r.active.value !in a.store
    ensures r.docs == a.docs + [r.active.value] && r.store == a.store[r.active.value := d]
    ensures DistinctPaths(a) && (d.filePath.None? || forall i :: 0 <= i < |a.docs| ==> a.store[a.docs[i]].filePath != d.filePath)
            ==> DistinctPaths(r)
  {
    var id := a.nextId;
    Area(a.store[id := d], a.docs + [id], Some(id), id + 1)
  }

  /** `AddNewDocument`: a new untitled document is appended and activated. */
  function AddNewDocument(a: Area): (r: Area)
    requires Valid(a)
    ensures Valid(r) && r.active.Some? && r.active.value !in a.store
    ensures r.docs == a.docs + [r.active.value] && r.store[r.active.value] == NewDoc()
    ensures forall id :: id in a.store ==> id in r.store && r.store[id] == a.store[id]
    ensures DistinctPaths(a) ==> DistinctPaths(r)
  {
    AppendActive(a, NewDoc())
  }

  /** The constructor: one untitled document, active. */
  function NewArea(): (a: Area)
    ensures Valid(a) && DistinctPaths(a) && |a.docs| == 1 && a.active == Some(a.docs[0])
    ensures a.store[a.docs[0]] == NewDoc()
  {
    AddNewDocument(Area(map[], [], None, 0))
  }

  /** First listed document whose path equals `filePath` (two nulls are equal). */
  function FindByPath(a: Area, filePath: Option<string>, from: nat): (r: Option<nat>)
    requires Valid(a) && from <= |a.docs|
    ensures r.Some? ==> from <= r.value < |a.docs| && a.store[a.docs[r.value]].filePath == filePath
    ensures r.Some? ==> forall j :: from <= j < r.value ==> a.store[a.docs[j]].filePath != filePath
    ensures r.None? <==> forall j :: from <= j < |a.docs| ==> a.store[a.docs[j]].filePath != filePath
    decreases |a.docs| - from
  {
    if from == |a.docs| then None
    else if a.store[a.docs[from]].filePath == filePath then Some(from)
    else FindByPath(a, filePath, from + 1)
  }

  const LoadedPrefix: string := "Content of "

  /**
   * `OpenDocument(filePath)`: an open document with an equal path is only
   * activated; otherwise a document is built from the path, its text is
   * replaced by "Content of " and the path, and it is appended and
   * activated.
   */
  function OpenDocument(a: Area, filePath: Option<string>): (r: Area)
    requires Valid(a)
    ensures Valid(r)
    ensures FindByPath(a, filePath, 0).Some? ==>
              r == a.(active := Some(a.docs[FindByPath(a, filePath, 0).value]))
    ensures FindByPath(a, filePath, 0).None? ==>
              && r.active.Some? && r.active.value !in a.store && r.docs == a.docs + [r.active.value]
              && r.store == a.store[r.active.value := SetContent(OpenedDoc(filePath), Some(LoadedPrefix + filePath.OrElse("")))]
    ensures DistinctPaths(a) ==> DistinctPaths(r)
  {
    match FindByPath(a, filePath, 0)
    case Some(i) => a.(active := Some(a.docs[i]))
    case None =>
      var doc := SetContent(OpenedDoc(filePath), Some(LoadedPrefix + filePath.OrElse("")));
      AppendActive(a, doc)
  }

  /** Position of the first occurrence of `id`, or -1. */
  function IndexOf(docs: seq<DocId>, id: DocId): (k: int)
    ensures -1 <= k < |docs|
    ensures k >= 0 ==> docs[k] == id && forall i :: 0 <= i < k ==> docs[i] != id
    ensures k < 0 <==> id !in docs
  {
    if |docs| == 0 then -1
    else if docs[0] == id then 0
    else
      var k := IndexOf(docs[1..], id);
      if k < 0 then -1 else k + 1
  }

  /** `Collection.Remove`: the list without the first occurrence of `id`, if any. */
  function Remove(docs: seq<DocId>, id: DocId): (r: seq<DocId>)
    ensures id !in docs ==> r == docs
    ensures id in docs ==> |r| == |docs| - 1
    ensures id in docs ==> forall i :: 0 <= i < |r| ==>
              r[i] == if i < IndexOf(docs, id) then docs[i] else docs[i + 1]
  {
    var k := IndexOf(docs, id);
    if k < 0 then docs else docs[..k] + docs[k + 1..]
  }

  /** Removing from a list without repeats leaves no repeats and drops `id` entirely. */
  lemma RemoveKeepsDistinct(docs: seq<DocId>, id: DocId)
    requires forall i, j :: 0 <= i < j < |docs| ==> docs[i] != docs[j]
    ensures var r := Remove(docs, id);
            (forall i, j :: 0 <= i < j < |r| ==> r[i] != r[j]) && id !in r
            && forall i :: 0 <= i < |r| ==> r[i] in docs
  {
    var r := Remove(docs, id);
    var k := IndexOf(docs, id);
    if k >= 0 {
      forall i, j | 0 <= i < j < |r|
        ensures r[i] != r[j]
      {
        var i' := if i < k then i else i + 1;
        var j' := if j < k then j else j + 1;
        assert r[i] == docs[i'] && r[j] == docs[j'];
      }
      forall i | 0 <= i < |r|
        ensures r[i] != id && r[i] in docs
      {
        var i' := if i < k then i else i + 1;
        assert r[i] == docs[i'];
      }
    }
  }

  /** Removing one document keeps the invariants. */
  lemma RemoveKeepsInvariants(a: Area, id: DocId)
    requires Valid(a)
    ensures Valid(a.(docs := Remove(a.docs, id), active := None))
    ensures id !in Remove(a.docs, id)
    ensures DistinctPaths(a) ==> DistinctPaths(a.(docs := Remove(a.docs, id), active := None))
  {
    RemoveKeepsDistinct(a.docs, id);
    if DistinctPaths(a) {
      RemoveKeepsDistinctPaths(a, id);
    }
  }

  /** Removing one document keeps the remaining paths distinct. */
  lemma RemoveKeepsDistinctPaths(a: Area, id: DocId)
    requires Valid(a) && DistinctPaths(a)
    ensures var r := Remove(a.docs, id);
            forall i, j :: 0 <= i < j < |r| && a.store[r[i]].filePath.Some? ==>
              a.store[r[i]].filePath != a.store[r[j]].filePath
  {
    var r := Remove(a.docs, id);
    var k := IndexOf(a.docs, id);
    if k >= 0 {
      forall i, j | 0 <= i < j < |r| && a.store[r[i]].filePath.Some?
        ensures a.store[r[i]].filePath != a.store[r[j]].filePath
      {
        var i' := if i < k then i else i + 1;
        var j' := if j < k then j else j + 1;
        assert r[i] == a.docs[i'] && r[j] == a.docs[j'];
        assert 0 <= i' < j' < |a.docs|;
      }
    }
  }

  /**
   * `CloseDocument(document)`: the argument, or the active document when
   * it is null, is removed from the list (a document not in the list
   * leaves it unchanged) and the first remaining document becomes active;
   * with neither an argument nor an active document nothing happens.
   */
  function CloseDocument(a: Area, documentToClose: Option<DocId>): (r: Area)
    requires Valid(a)
    ensures Valid(r) && r.store == a.store
    ensures documentToClose.None? && a.active.None? ==> r == a
    ensures var doc := if documentToClose.Some? then documentToClose else a.active;
            doc.Some? ==> && r.docs == Remove(a.docs, doc.value) && doc.value !in r.docs
                          && r.active == (if |r.docs| > 0 then Some(r.docs[0]) else None)
    ensures r.docs != a.docs ==> |r.docs| == |a.docs| - 1
    ensures DistinctPaths(a) ==> DistinctPaths(r)
  {
    var doc := if documentToClose.Some? then documentToClose else a.active;
    if doc.None? then a
    else
      RemoveKeepsInvariants(a, doc.value);
      var remaining := Remove(a.docs, doc.value);
      a.(docs := remaining, active := if |remaining| > 0 then Some(remaining[0]) else None)
  }

  /** Opening the same path twice creates one document and leaves it active. */
  lemma OpenIsIdempotent(a: Area, filePath: Option<string>)
    requires Valid(a)
    ensures OpenDocument(OpenDocument(a, filePath), filePath) == OpenDocument(a, filePath)
  {
    if FindByPath(a, filePath, 0).Some? {
      ReopenFindsSame(a, filePath);
    } else {
      ReopenFindsAppended(a, filePath);
    }
  }

  /** A path already open is found at the same place once it is activated. */
  lemma ReopenFindsSame(a: Area, filePath: Option<string>)
    requires Valid(a) && FindByPath(a, filePath, 0).Some?
    ensures var once := OpenDocument(a, filePath);
            FindByPath(once, filePath, 0) == FindByPath(a, filePath, 0)
  {
    var once := OpenDocument(a, filePath);
    var i := FindByPath(a, filePath, 0).value;
    assert once.docs == a.docs && once.store == a.store;
    assert once.store[once.docs[i]].filePath == filePath;
  }

  /** A path just opened is found at the end of the list. */
  lemma ReopenFindsAppended(a: Area, filePath: Option<string>)
    requires Valid(a) && FindByPath(a, filePath, 0).None?
    ensures var once := OpenDocument(a, filePath);
            FindByPath(once, filePath, 0) == Some(|a.docs|) && once.docs[|a.docs|] == once.active.value
  {
    var once := OpenDocument(a, filePath);
    var n := |a.docs|;
    var id := once.active.value;
    assert once.docs[n] == id && once.store[id].filePath == filePath;
    forall j | 0 <= j < n
      ensures once.store[once.docs[j]].filePath != filePath
    {
      assert once.docs[j] == a.docs[j] && a.docs[j] != id;
    }
    FindFirstMatch(once, filePath, n);
  }

  /** A match with none before it is what the search returns. */
  lemma FindFirstMatch(a: Area, filePath: Option<string>, n: nat)
    requires Valid(a) && n < |a.docs| && a.store[a.docs[n]].filePath == filePath
    requires forall j :: 0 <= j < n ==> a.store[a.docs[j]].filePath != filePath
    ensures FindByPath(a, filePath, 0) == Some(n)
  {
  }

  /**
   * A document opened from a path shows its file name and is already
   * dirty, because the text is replaced right after construction.
   */
  lemma OpenedFileIsDirty(a: Area, path: string)
    requires Valid(a) && FindByPath(a, Some(path), 0).None?
    ensures var r := OpenDocument(a, Some(path));
            var d := r.store[r.active.value];
            d.isDirty && d.title == Some(Paths.GetFileName(path)) && d.content == Some(LoadedPrefix + path)
  {
    PrefixesDiffer(path, path);
  }

  /** A text built by the path constructor never equals one built by `OpenDocument`. */
  lemma PrefixesDiffer(s: string, t: string)
    ensures LoadedPrefix + s != PlaceholderPrefix + t
  {
    assert (LoadedPrefix + s)[8] == 'o';
    assert (PlaceholderPrefix + t)[8] == 'f';
  }

  /** Opening a null path reuses the first untitled document. */
  lemma NullPathFindsUntitled(a: Area)
    requires Valid(a) && |a.docs| > 0 && a.store[a.docs[0]] == NewDoc()
    ensures OpenDocument(a, None) == a.(active := Some(a.docs[0]))
  {
  }

  /** Closing a document just added restores the list. */
  lemma AddThenCloseRestores(a: Area)
    requires Valid(a)
    ensures var added := AddNewDocument(a);
            var r := CloseDocument(added, None);
            r.docs == a.docs && r.active == (if |a.docs| > 0 then Some(a.docs[0]) else None)
  {
    var added := AddNewDocument(a);
    var id := added.active.value;
    var n := |a.docs|;
    assert forall i :: 0 <= i < n ==> added.docs[i] != id;
    assert IndexOf(added.docs, id) == n by {
      assert added.docs[n] == id;
    }
    assert (a.docs + [id])[..n] == a.docs;
  }
}

=== FILE: event_bus.dfy ===
/**
 * The editor's in-process event bus (Swarm.Editor/Models/Events/InMemoryEventBus.cs):
 * a map from an event type to the handlers subscribed to it, in
 * subscription order. There is no unsubscribe. A handler is an identity;
 * a null handler is stored like any other but is skipped when publishing,
 * because it fails the delegate type test.
 */
module EventBus {
  import opened Options

  /** The static type `typeof(TEvent)` a handler was subscribed under. */
  type EventType = string
  type HandlerRef = nat

  datatype Bus = Bus(handlers: map<EventType, seq<Option<HandlerRef>>>)

  function NewBus(): (b: Bus)
    ensures forall t :: t !in b.handlers
  {
    Bus(map[])
  }

  /**
   * `Subscribe<TEvent>`: a type with no entry gets a list holding just
   * this handler; otherwise the handler is appended, even if it is there
   * already. No other type's list changes.
   */
  function Subscribe(b: Bus, eventType: EventType, handler: Option<HandlerRef>): (r: Bus)
    ensures eventType in r.handlers
    ensures eventType !in b.handlers ==> r.handlers[eventType] == [handler]
    ensures eventType in b.handlers ==> r.handlers[eventType] == b.handlers[eventType] + [handler]
    ensures r.handlers.Keys == b.handlers.Keys + {eventType}
    ensures forall t :: t in b.handlers && t != eventType ==> r.handlers[t] == b.handlers[t]
  {
    var list := if eventType in b.handlers then b.handlers[eventType] else [];
    Bus(b.handlers[eventType := list + [handler]])
  }

  /** The non-null handlers of a list, in order: the ones the type test lets through. */
  function Present(list: seq<Option<HandlerRef>>): (r: seq<HandlerRef>)
    ensures |r| <= |list|
    ensures forall h :: h in r <==> Some(h) in list
    decreases |list|
  {
    if |list| == 0 then []
    else
      var rest := Present(list[1..]);
      assert forall h :: Some(h) in list <==> list[0] == Some(h) || Some(h) in list[1..];
      if list[0].Some? then [list[0].value] + rest else rest
  }

  /**
   * `PublishAsync<TEvent>` when no handler throws before returning its
   * task: the handlers invoked with the event, in the order they were
   * subscribed; none for a type with no entry. Every invocation is started
   * before any is awaited. `PublishThrowing` covers a handler that throws.
   */
  function Publish(b: Bus, eventType: EventType): (invoked: seq<HandlerRef>)
    ensures eventType !in b.handlers ==> invoked == []
    ensures forall h :: h in invoked <==> eventType in b.handlers && Some(h) in b.handlers[eventType]
  {
    if eventType !in b.handlers then [] else Present(b.handlers[eventType])
  }

  /**
   * The handlers actually started when some of them throw before returning
   * their task: the loop stops at the first such handler, which has been
   * called, and the exception leaves `PublishAsync`.
   */
  function StartUntilThrow(hs: seq<HandlerRef>, throwsSynchronously: HandlerRef -> bool): (r: (seq<HandlerRef>, bool))
    ensures r.0 <= hs
    ensures forall i :: 0 <= i < |r.0| - 1 ==> !throwsSynchronously(r.0[i])
    ensures r.1 <==> |r.0| > 0 && throwsSynchronously(r.0[|r.0| - 1])
    ensures !r.1 ==> r.0 == hs
    decreases |hs|
  {
    if |hs| == 0 then ([], false)
    else if throwsSynchronously(hs[0]) then ([hs[0]], true)
    else
      var rest := StartUntilThrow(hs[1..], throwsSynchronously);
      assert [hs[0]] + hs[1..] == hs;
      ([hs[0]] + rest.0, rest.1)
  }

  /**
   * `PublishAsync<TEvent>` when a handler may throw synchronously: the
   * handlers started, in subscription order, and whether an exception
   * escaped before the tasks were awaited.
   */
  function PublishThrowing(b: Bus, eventType: EventType, throwsSynchronously: HandlerRef -> bool): (r: (seq<HandlerRef>, bool))
    ensures r.0 <= Publish(b, eventType)
    ensures r.1 <==> exists i :: 0 <= i < |Publish(b, eventType)| && throwsSynchronously(Publish(b, eventType)[i])
    ensures r.1 ==> |r.0| > 0 && throwsSynchronously(r.0[|r.0| - 1])
    ensures forall i :: 0 <= i < |r.0| - 1 ==> !throwsSynchronously(r.0[i])
  {
    var hs := Publish(b, eventType);
    var r := StartUntilThrow(hs, throwsSynchronously);
    assert r.1 ==> hs[|r.0| - 1] == r.0[|r.0| - 1];
    r
  }

  /** When no handler throws before returning its task, every published handler is started. */
  lemma NoThrowStartsAll(b: Bus, eventType: EventType, throwsSynchronously: HandlerRef -> bool)
    requires forall h :: !throwsSynchronously(h)
    ensures PublishThrowing(b, eventType, throwsSynchronously) == (Publish(b, eventType), false)
  {
  }

  /**
   * A handler subscribed after one that throws is never started: the
   * publish stops right after the throwing handler, and the exception
   * escapes.
   */
  lemma ThrowHidesLaterHandlers(b: Bus, eventType: EventType, bad: HandlerRef, later: HandlerRef,
                                throwsSynchronously: HandlerRef -> bool)
    requires forall i :: 0 <= i < |Publish(b, eventType)| ==> !throwsSynchronously(Publish(b, eventType)[i])
    requires throwsSynchronously(bad)
    ensures PublishThrowing(SubscribeAll(b, eventType, [bad, later]), eventType, throwsSynchronously)
            == (Publish(b, eventType) + [bad], true)
  {
    var r := SubscribeAll(b, eventType, [bad, later]);
    PublishInSubscriptionOrder(b, eventType, [bad, later]);
    var before := Publish(b, eventType);
    var all := Publish(r, eventType);
    assert all == before + [bad, later];
    var started := PublishThrowing(r, eventType, throwsSynchronously);
    assert all[|before|] == bad;
    assert started.0 == all[..|before| + 1];
    assert all[..|before| + 1] == before + [bad];
  }

  /** Handler lists only grow: every list is a prefix of its later self. */
  lemma SubscribeOnlyGrows(b: Bus, eventType: EventType, handler: Option<HandlerRef>)
    ensures var r := Subscribe(b, eventType, handler);
            forall t :: t in b.handlers ==> t in r.handlers && b.handlers[t] <= r.handlers[t]
  {
  }

  /** A later subscription adds its handler at the end of what is published for its type, and nothing for other types. */
  lemma {:induction false} PublishAfterSubscribe(b: Bus, eventType: EventType, handler: Option<HandlerRef>, published: EventType)
    ensures var r := Subscribe(b, eventType, handler);
            Publish(r, published) ==
              if published != eventType then Publish(b, published)
              else if handler.Some? then Publish(b, published) + [handler.value]
              else Publish(b, published)
  {
    if published == eventType {
      var list := if eventType in b.handlers then b.handlers[eventType] else [];
      PresentAppend(list, [handler]);
      assert Present([handler]) == if handler.Some? then [handler.value] else [];
    }
  }

  /** Filtering distributes over concatenation. */
  lemma {:induction false} PresentAppend(xs: seq<Option<HandlerRef>>, ys: seq<Option<HandlerRef>>)
    ensures Present(xs + ys) == Present(xs) + Present(ys)
    decreases |xs|
  {
    if |xs| > 0 {
      assert (xs + ys)[0] == xs[0] && (xs + ys)[1..] == xs[1..] + ys;
      PresentAppend(xs[1..], ys);
    } else {
      assert xs + ys == ys;
    }
  }

  /** Subscribes each handler in turn under one type. */
  function SubscribeAll(b: Bus, eventType: EventType, hs: seq<HandlerRef>): (r: Bus)
    ensures eventType in b.handlers || |hs| > 0 ==> eventType in r.handlers
    decreases |hs|
  {
    if |hs| == 0 then b else SubscribeAll(Subscribe(b, eventType, Some(hs[0])), eventType, hs[1..])
  }

  /**
   * Subscribing a run of handlers adds them, once each, in subscription
   * order and duplicates included, after what a publish already invoked.
   */
  lemma {:induction false} PublishInSubscriptionOrder(b: Bus, eventType: EventType, hs: seq<HandlerRef>)
    ensures Publish(SubscribeAll(b, eventType, hs), eventType) == Publish(b, eventType) + hs
    decreases |hs|
  {
    if |hs| > 0 {
      var b' := Subscribe(b, eventType, Some(hs[0]));
      var before := Publish(b, eventType);
      calc {
        Publish(SubscribeAll(b, eventType, hs), eventType);
        Publish(SubscribeAll(b', eventType, hs[1..]), eventType);
        { PublishInSubscriptionOrder(b', eventType, hs[1..]); }
        Publish(b', eventType) + hs[1..];
        { PublishAfterSubscribe(b, eventType, Some(hs[0]), eventType); }
        (before + [hs[0]]) + hs[1..];
        { assert [hs[0]] + hs[1..] == hs; }
        before + hs;
      }
    }
  }

  /** A handler subscribed twice runs twice. */
  lemma DuplicateRunsTwice(h: HandlerRef, eventType: EventType)
    ensures Publish(SubscribeAll(NewBus(), eventType, [h, h]), eventType) == [h, h]
  {
    PublishInSubscriptionOrder(NewBus(), eventType, [h, h]);
  }

  /** A null handler is stored but never invoked. */
  lemma NullHandlerNeverRuns(b: Bus, eventType: EventType)
    ensures var r := Subscribe(b, eventType, None);
            |r.handlers[eventType]| > 0 && Publish(r, eventType) == Publish(b, eventType)
  {
    PublishAfterSubscribe(b, eventType, None, eventType);
  }
}

=== FILE: file_explorer.dfy ===
/**
 * The file explorer (Swarm.Editor/ViewModels/FileExplorerViewModel.cs):
 * the root items of the tree and the open request it publishes for a
 * chosen file. Directory existence comes from a `Disk`; the root's
 * listing is passed in.
 */
module FileExplorer {
  import opened Options
  import opened FileSystems
  import opened FileTree

  datatype Explorer = Explorer(rootItems: seq<Item>)

  /** The constructor: no root items. */
  function NewExplorer(): (e: Explorer)
    ensures e.rootItems == []
  {
    Explorer([])
  }

  /** `CanOpenFile`: a non-null item that is not a directory. */
  predicate CanOpenFile(item: Option<Item>)
  {
    item.Some? && !item.value.isDirectory
  }

  /**
   * `ExecuteOpenFileAsync`: the path carried by the one open request it
   * publishes, or None when nothing is published (a null item, a
   * directory, an empty path). A failing publish is swallowed.
   */
  function ExecuteOpenFile(item: Option<Item>): (published: Option<string>)
    ensures published.Some? <==> CanOpenFile(item) && |item.value.fullPath| > 0
    ensures published.Some? ==> published.value == item.value.fullPath
  {
    if item.None? || item.value.isDirectory then None
    else if |item.value.fullPath| == 0 then None
    else Some(item.value.fullPath)
  }

  /**
   * `LoadFolderAsync`: the roots are cleared; an existing folder becomes the
   * one directory root, expanded with the listing given.
   */
  function LoadFolder(e: Explorer, disk: Disk, folderPath: string, listing: Listing): (r: Explorer)
    ensures folderPath !in disk.dirs ==> r.rootItems == []
    ensures folderPath in disk.dirs ==>
              && |r.rootItems| == 1
              && r.rootItems[0].isDirectory && r.rootItems[0].fullPath == folderPath
              && r.rootItems[0] == Expand(NewItem(folderPath, true), listing)
  {
    if folderPath in disk.dirs then Explorer([Expand(NewItem(folderPath, true), listing)])
    else Explorer([])
  }

  /**
   * `HandleFolderSelected`: a null event, an empty path or a missing
   * directory clears the roots; anything else loads the folder.
   */
  function HandleFolderSelected(e: Explorer, disk: Disk, folderPath: Option<string>, listing: Listing): (r: Explorer)
    ensures folderPath.None? || |folderPath.value| == 0 || folderPath.value !in disk.dirs ==> r.rootItems == []
    ensures folderPath.Some? && |folderPath.value| > 0 ==> r == LoadFolder(e, disk, folderPath.value, listing)
  {
    if folderPath.None? || |folderPath.value| == 0 || folderPath.value !in disk.dirs then Explorer([])
    else LoadFolder(e, disk, folderPath.value, listing)
  }

  /** The roots after a folder event are exactly one directory, or none, whatever was shown before. */
  lemma FolderEventLeavesAtMostOneRoot(e: Explorer, disk: Disk, folderPath: Option<string>, listing: Listing)
    ensures var r := HandleFolderSelected(e, disk, folderPath, listing);
            |r.rootItems| <= 1
            && (|r.rootItems| == 1 <==> folderPath.Some? && |folderPath.value| > 0 && folderPath.value in disk.dirs)
            && (|r.rootItems| == 1 ==> r.rootItems[0].isDirectory && r.rootItems[0].isInitialized == listing.Listed?)
  {
  }

  /** A loaded root shows the listing as its children, one per entry. */
  lemma LoadedRootShowsListing(e: Explorer, disk: Disk, folderPath: string, entries: seq<Entry>)
    requires folderPath in disk.dirs
    ensures var r := LoadFolder(e, disk, folderPath, Listed(entries));
            r.rootItems[0].children == ChildrenOf(entries) && r.rootItems[0].isInitialized
  {
  }

  /** Only files can be opened: opening a child of a listing publishes its entry's path exactly when it is a file. */
  lemma OpenChildOfListing(entries: seq<Entry>, i: nat)
    requires i < |entries| && |entries[i].fullName| > 0
    ensures var child := ChildrenOf(entries)[i];
            ExecuteOpenFile(Some(child)) == if entries[i].isDirectory then None else Some(entries[i].fullName)
  {
  }
}

=== FILE: file_tree.dfy ===
/**
 * One node of the file tree (Swarm.Editor/ViewModels/FileSystemItemViewModel.cs):
 * the name derived from the path, the "Loading..." placeholder child of a
 * fresh directory, and the expand-once state machine driven by a directory
 * listing that is passed in.
 */
module FileTree {
  import opened Paths

  datatype Item = Item(
    name: string,
    fullPath: string,
    isDirectory: bool,
    isExpanded: bool,
    isLoading: bool,
    isInitialized: bool,
    children: seq<Item>)

  /** One entry of a directory listing: a `DirectoryInfo` or a `FileInfo`. */
  datatype Entry = Entry(fullName: string, isDirectory: bool)

  /** What the directory listing produced. */
  datatype Listing = Listed(entries: seq<Entry>) | ListingThrew

  const LoadingName: string := "Loading..."
  const ErrorName: string := "Error loading contents"

  /**
   * The displayed name: the file-name part of the path; for a directory
   * whose path ends in a separator, the last segment once trailing
   * separators are trimmed; and the full path when that is empty too.
   */
  function ItemName(fullPath: string, isDirectory: bool): (name: string)
    ensures !isDirectory ==> name == GetFileName(fullPath)
    ensures isDirectory ==> (|name| == 0 <==> |fullPath| == 0)
    ensures |GetFileName(fullPath)| > 0 ==> name == GetFileName(fullPath)
    ensures isDirectory && |GetFileName(fullPath)| == 0 ==> name == LastSegmentOr(fullPath)
  {
    var fileName := GetFileName(fullPath);
    if |fileName| == 0 && isDirectory then LastSegmentOr(fullPath) else fileName
  }

  /** The last segment once trailing separators are trimmed, or the whole path when that is empty. */
  function LastSegmentOr(fullPath: string): (name: string)
    ensures |name| == 0 <==> |fullPath| == 0
    ensures var t := TrimEndSeparators(fullPath);
            |t| == 0 ==> name == fullPath
    ensures var t := TrimEndSeparators(fullPath);
            |t| > 0 ==>
              && 0 < |name| <= |t| && t[|t| - |name|..] == name
              && (forall i :: 0 <= i < |name| ==> name[i] != Sep)
              && (|name| == |t| || t[|t| - |name| - 1] == Sep)
  {
    SegmentOr(TrimEndSeparators(fullPath), fullPath)
  }

  /** The segment after the last separator of an already trimmed path, or `fullPath` when that segment is empty. */
  function SegmentOr(trimmed: string, fullPath: string): (name: string)
    requires |trimmed| == 0 || trimmed[|trimmed| - 1] != Sep
    ensures |trimmed| == 0 ==> name == fullPath
    ensures |trimmed| > 0 ==>
              && 0 < |name| <= |trimmed| && trimmed[|trimmed| - |name|..] == name
              && (forall i :: 0 <= i < |name| ==> name[i] != Sep)
              && (|name| == |trimmed| || trimmed[|trimmed| - |name| - 1] == Sep)
  {
    var segment := GetFileName(trimmed);
    NonSeparatorEndHasFileName(trimmed);
    if |segment| == 0 then fullPath else segment
  }

  /** The constructor: a directory starts with one loading placeholder, a file with no children. */
  function NewItem(fullPath: string, isDirectory: bool): (item: Item)
    ensures item.name == ItemName(fullPath, isDirectory) && item.fullPath == fullPath
    ensures item.isDirectory == isDirectory
    ensures !item.isExpanded && !item.isInitialized
    ensures !isDirectory ==> item.children == [] && !item.isLoading
    ensures isDirectory ==> item.children == [LoadingPlaceholder()] && !item.isLoading
  {
    var children := if isDirectory then [LoadingPlaceholder()] else [];
    Item(ItemName(fullPath, isDirectory), fullPath, isDirectory, false, false, false, children)
  }

  /** The dummy child that makes a directory expandable: a file item flagged loading. */
  function LoadingPlaceholder(): (p: Item)
    ensures p.name == LoadingName && p.fullPath == LoadingName
    ensures !p.isDirectory && p.isLoading && p.children == []
  {
    Item(ItemName(LoadingName, false), LoadingName, false, false, true, false, [])
  }

  /** The children built from a listing, one per entry, in listing order. */
  function ChildrenOf(entries: seq<Entry>): (children: seq<Item>)
    ensures |children| == |entries|
    ensures forall i :: 0 <= i < |entries| ==>
              children[i] == NewItem(entries[i].fullName, entries[i].isDirectory)
  {
    if |entries| == 0 then [] else [NewItem(entries[0].fullName, entries[0].isDirectory)] + ChildrenOf(entries[1..])
  }

  /**
   * `ExpandDirectoryAsync`: nothing for a file, an initialized directory or
   * one already loading. A listing replaces every child and marks the
   * directory initialized; a failed listing leaves it uninitialized and
   * adds an error child only when there are no children. Loading is off
   * afterwards either way.
   */
  function Expand(item: Item, listing: Listing): (r: Item)
    ensures !item.isDirectory || item.isInitialized || item.isLoading ==> r == item
    ensures item.isDirectory && !item.isInitialized && !item.isLoading ==>
              && !r.isLoading
              && r == item.(children := r.children, isInitialized := r.isInitialized)
              && (r.isInitialized <==> listing.Listed?)
              && (listing.Listed? ==> r.children == ChildrenOf(listing.entries))
              && (listing.ListingThrew? && |item.children| > 0 ==> r.children == item.children)
              && (listing.ListingThrew? && |item.children| == 0 ==> r.children == [NewItem(ErrorName, false)])
  {
    if !item.isDirectory || item.isInitialized || item.isLoading then item
    else
      match listing
      case Listed(entries) => item.(children := ChildrenOf(entries), isInitialized := true)
      case ListingThrew =>
        if |item.children| == 0 then item.(children := [NewItem(ErrorName, false)]) else item
  }

  /**
   * Setting `IsExpanded`. ReactiveUI's `RaiseAndSetIfChanged` returns the
   * value now stored, not whether it changed, so every assignment of true
   * to a directory starts an expand, even when it was expanded already;
   * the expand's own guard then decides whether anything is listed.
   */
  function SetExpanded(item: Item, value: bool, listing: Listing): (r: Item)
    ensures r.isExpanded == value
    ensures r.name == item.name && r.fullPath == item.fullPath && r.isDirectory == item.isDirectory
    ensures !value || !item.isDirectory || item.isInitialized || item.isLoading ==> r == item.(isExpanded := value)
    ensures value && item.isDirectory && !item.isInitialized && !item.isLoading ==>
              !r.isLoading && (r.isInitialized <==> listing.Listed?)
              && (listing.Listed? ==> r.children == ChildrenOf(listing.entries))
              && (listing.ListingThrew? ==> |r.children| > 0)
  {
    var stored := item.(isExpanded := value);
    if value && item.isDirectory then Expand(stored, listing) else stored
  }

  /**
   * Setting an already expanded directory to true again retries a listing
   * that failed before, because the setter does not compare old and new.
   */
  lemma ReassertingExpandedRetries(item: Item, entries: seq<Entry>)
    requires item.isDirectory && !item.isInitialized && !item.isLoading
    ensures var failed := SetExpanded(item, true, ListingThrew);
            failed.isExpanded && !failed.isInitialized
            && SetExpanded(failed, true, Listed(entries)).isInitialized
            && SetExpanded(failed, true, Listed(entries)).children == ChildrenOf(entries)
  {
  }

  /** Once a listing has been loaded, later expands never list again. */
  lemma ExpandOnce(item: Item, first: Listing, later: Listing)
    requires first.Listed?
    ensures Expand(Expand(item, first), later) == Expand(item, first)
  {
  }

  /** After a failed listing the next expand retries, and a listing then succeeds. */
  lemma FailedExpandRetries(item: Item, entries: seq<Entry>)
    requires item.isDirectory && !item.isInitialized && !item.isLoading
    ensures var failed := Expand(item, ListingThrew);
            !failed.isInitialized && |failed.children| > 0
            && Expand(failed, Listed(entries)).isInitialized
            && Expand(failed, Listed(entries)).children == ChildrenOf(entries)
  {
  }

  /**
   * Expanding a fresh directory: the placeholder is replaced by the listing,
   * and each child is a directory exactly when its entry is one.
   */
  lemma FreshDirectoryExpands(path: string, entries: seq<Entry>)
    ensures var r := Expand(NewItem(path, true), Listed(entries));
            r.isInitialized && !r.isLoading && |r.children| == |entries|
            && forall i :: 0 <= i < |entries| ==>
                 r.children[i].isDirectory == entries[i].isDirectory && r.children[i].fullPath == entries[i].fullName
  {
  }

  /** Collapsing and expanding again after a load keeps the loaded children. */
  lemma ReopenKeepsChildren(item: Item, listing: Listing, later: Listing)
    requires listing.Listed? && item.isDirectory && !item.isExpanded
    ensures var shown := SetExpanded(item, true, listing);
            var reopened := SetExpanded(SetExpanded(shown, false, later), true, later);
            reopened.children == shown.children && reopened.isExpanded
  {
  }

  /** A directory path followed by trailing separators is named by the segment before them. */
  lemma PaddedDirectoryName(p: string, segment: string, trailing: nat)
    requires trailing > 0 && IsSegment(segment) && GetFileName(p) == segment
    ensures ItemName(p + seq(trailing, _ => Sep), true) == segment
  {
    var q := p + seq(trailing, _ => Sep);
    assert q[|q| - 1] == Sep;
    assert |GetFileName(q)| == 0;
    assert p[|p| - 1] == segment[|segment| - 1];
    TrimEndSeparatorsOfPadded(p, trailing);
  }

  /** A directory written with trailing separators is still named by its last segment. */
  lemma TrailingSeparatorName(dir: string, segment: string, trailing: nat)
    requires IsDirectoryPath(dir) && IsSegment(segment)
    ensures ItemName(Combine(dir, segment) + seq(trailing, _ => Sep), true) == segment
    ensures ItemName(Combine(dir, segment) + [Sep], true) == segment
    ensures ItemName(Combine(dir, segment), true) == segment
    ensures ItemName(Combine(dir, segment), false) == segment
  {
    var p := Combine(dir, segment);
    CombineSplits(dir, segment);
    SegmentPathNames(p, segment, trailing);
    OneTrailingSeparatorName(p, segment);
  }

  /** The one-separator and separator-free cases, for a file and for a directory. */
  lemma OneTrailingSeparatorName(p: string, segment: string)
    requires IsSegment(segment) && GetFileName(p) == segment
    ensures ItemName(p + [Sep], true) == segment
    ensures ItemName(p, true) == segment && ItemName(p, false) == segment
  {
    SegmentPathNames(p, segment, 1);
    assert p + seq(1, _ => Sep) == p + [Sep];
  }

  /** A path whose file name is a segment names that segment, with any number of trailing separators. */
  lemma SegmentPathNames(p: string, segment: string, trailing: nat)
    requires IsSegment(segment) && GetFileName(p) == segment
    ensures ItemName(p + seq(trailing, _ => Sep), true) == segment
  {
    if trailing == 0 {
      assert p + seq(trailing, _ => Sep) == p;
    } else {
      PaddedDirectoryName(p, segment, trailing);
    }
  }

  /** The root directory is named by its full path. */
  lemma RootNamedByPath()
    ensures ItemName([Sep], true) == [Sep]
    ensures ItemName([Sep], false) == []
  {
    assert LastIndexOf([Sep], Sep) == 0;
    assert TrimEndSeparators([Sep]) == [];
  }
}

=== FILE: filesystem.dfy ===
/**
 * An abstract file system: the set of existing files and the set of
 * existing directories, both as path strings. Every disk operation the
 * editor performs is stated against this value.
 */
module FileSystems {
  import opened Options
  import opened Paths

  datatype Disk = Disk(files: set<string>, dirs: set<string>)

  /** `Directory.Delete(dir, recursive: true)`: drops `dir` and everything below it. */
  function DeleteTree(disk: Disk, dir: string): (r: Disk)
    ensures forall f :: f in r.files <==> f in disk.files && !IsUnder(f, dir)
    ensures forall d :: d in r.dirs <==> d in disk.dirs && !IsUnder(d, dir)
  {
    Disk(set f | f in disk.files && !IsUnder(f, dir), set d | d in disk.dirs && !IsUnder(d, dir))
  }

  /** The files lying directly in `dir` (what `Directory.GetFiles(dir)` enumerates). */
  predicate IsChildFile(disk: Disk, f: string, dir: string)
  {
    f in disk.files && GetDirectoryName(f) == Some(dir)
  }
}

=== FILE: lsp_catalog.dfy ===
/**
 * The hard-coded server catalog and its first-match lookup
 * (Swarm.Lsp/Configuration/DefaultLspConfigProvider.cs).
 */
module LspCatalog {
  import opened Options
  import opened Text
  import opened LspSettings

  const OmniSharpReleases: string := "https://github.com/OmniSharp/omnisharp-roslyn/releases/download/v1.39.13/"

  /** The release asset of one platform: "omnisharp-<platform>-net6.0" plus the archive extension. */
  function ReleaseAsset(platform: string, extension: string): string
  {
    OmniSharpReleases + "omnisharp-" + platform + "-net6.0" + extension
  }

  /** OmniSharp's argument template `-s "{WorkspaceRoot}" --hostPID {HostProcessId}`, written in pieces at its placeholders. */
  const OmniSharpTemplate: string := "-s \"" + ("{WorkspaceRoot}" + ("\" --hostPID " + "{HostProcessId}"))

  /** The only server the default provider knows: OmniSharp 1.39.13 for C#. */
  function OmniSharpSettings(): LspServerSettings
  {
    LspServerSettings(
      "omnisharp",
      "1.39.13",
      ["csharp"],
      true,
      map[
        "win-x64" := PlatformDetails(ReleaseAsset("win-x64", ".zip"), "OmniSharp.exe"),
        "linux-x64" := PlatformDetails(ReleaseAsset("linux-x64", ".tar.gz"), "run"),
        "osx-x64" := PlatformDetails(ReleaseAsset("osx-x64", ".tar.gz"), "run"),
        "osx-arm64" := PlatformDetails(ReleaseAsset("osx-arm64", ".tar.gz"), "run")
      ],
      Some(OmniSharpTemplate))
  }

  /** The provider holds one configuration built once, at construction. */
  datatype DefaultLspConfigProvider = DefaultLspConfigProvider(config: LspConfig)

  function NewDefaultProvider(): DefaultLspConfigProvider
  {
    DefaultLspConfigProvider(LspConfig([OmniSharpSettings()]))
  }

  /** `GetConfig`: the configuration object built by the constructor. */
  function GetConfig(p: DefaultLspConfigProvider): LspConfig
  {
    p.config
  }

  /** A server answers for a (lower-cased) language id when enabled and listing it. */
  predicate Serves(s: LspServerSettings, id: string)
  {
    s.isEnabled && id in s.languageIds
  }

  /** Index of the first server from `i` on that serves `id`. */
  function FirstServingFrom(servers: seq<LspServerSettings>, id: string, i: nat): (r: Option<nat>)
    requires i <= |servers|
    ensures r.Some? ==> i <= r.value < |servers| && Serves(servers[r.value], id)
    ensures r.Some? ==> forall j :: i <= j < r.value ==> !Serves(servers[j], id)
    ensures r.None? ==> forall j :: i <= j < |servers| ==> !Serves(servers[j], id)
    decreases |servers| - i
  {
    if i == |servers| then None
    else if Serves(servers[i], id) then Some(i)
    else FirstServingFrom(servers, id, i + 1)
  }

  /**
   * `GetSettingsForLanguage`: a null id gives null; otherwise the id is
   * lower-cased and the first enabled server listing exactly that string wins.
   */
  function GetSettingsForLanguage(config: LspConfig, languageId: Option<string>): (r: Option<LspServerSettings>)
    ensures languageId.None? ==> r.None?
    ensures r.Some? ==> languageId.Some? && r.value.isEnabled && ToLower(languageId.value) in r.value.languageIds
    ensures r.Some? ==> exists k :: 0 <= k < |config.servers| && config.servers[k] == r.value
                                  && forall j :: 0 <= j < k ==> !Serves(config.servers[j], ToLower(languageId.value))
    ensures languageId.Some? && r.None? ==>
              forall j :: 0 <= j < |config.servers| ==> !Serves(config.servers[j], ToLower(languageId.value))
  {
    match languageId
    case None => None
    case Some(id) =>
      match FirstServingFrom(config.servers, ToLower(id), 0)
      case None => None
      case Some(k) => Some(config.servers[k])
  }

  /** `GetSettingsForLanguage` on the provider's own configuration. */
  function ProviderSettingsForLanguage(p: DefaultLspConfigProvider, languageId: Option<string>): Option<LspServerSettings>
  {
    GetSettingsForLanguage(GetConfig(p), languageId)
  }

  /** Queries that agree after lower-casing resolve to the same server. */
  lemma LookupIgnoresQueryCase(config: LspConfig, a: string, b: string)
    requires ToLower(a) == ToLower(b)
    ensures GetSettingsForLanguage(config, Some(a)) == GetSettingsForLanguage(config, Some(b))
  {
  }

  /** A stored id holding an upper-case letter can never be matched by any query. */
  lemma {:induction false} UpperCaseIdNeverMatches(config: LspConfig, query: string, id: string, i: nat)
    requires i < |id| && IsUpperAscii(id[i])
    ensures ToLower(query) != id
    ensures forall k :: 0 <= k < |config.servers| && config.servers[k].languageIds == [id] ==>
              GetSettingsForLanguage(config, Some(query)) != Some(config.servers[k])
  {
    ToLowerHasNoUpper(query);
    if |ToLower(query)| == |id| {
      assert !IsUpperAscii(ToLower(query)[i]);
      assert ToLower(query)[i] != id[i];
    }
  }

  /** A freshly constructed settings record serves no language at all. */
  lemma NewSettingsServesNothing(query: string)
    ensures GetSettingsForLanguage(LspConfig([NewSettings()]), Some(query)).None?
  {
    assert !Serves(NewSettings(), ToLower(query));
  }

  /** A new record is enabled: giving it a lower-case id makes it resolvable. */
  lemma NewSettingsEnabledByDefault(id: string)
    requires ToLower(id) == id
    ensures GetSettingsForLanguage(LspConfig([NewSettings().(languageIds := [id])]), Some(id))
            == Some(NewSettings().(languageIds := [id]))
  {
    assert Serves(NewSettings().(languageIds := [id]), id);
  }

  /** Lower-casing the ASCII word "CSharp" in any capitalisation gives "csharp". */
  lemma CSharpSpellings()
    ensures ToLower("csharp") == "csharp"
    ensures ToLower("CSharp") == "csharp"
    ensures ToLower("CSHARP") == "csharp"
  {
    assert ToLower("csharp") == "csharp";
    assert ToLower("CSharp") == "csharp";
    assert ToLower("CSHARP") == "csharp";
  }

  /**
   * The default catalog: "csharp" in any case resolves to OmniSharp, other
   * languages (such as "python") and a null id resolve to nothing.
   */
  lemma DefaultCatalogLookup()
    ensures ProviderSettingsForLanguage(NewDefaultProvider(), Some("csharp")) == Some(OmniSharpSettings())
    ensures ProviderSettingsForLanguage(NewDefaultProvider(), Some("CSharp")) == Some(OmniSharpSettings())
    ensures ProviderSettingsForLanguage(NewDefaultProvider(), Some("CSHARP")) == Some(OmniSharpSettings())
    ensures ProviderSettingsForLanguage(NewDefaultProvider(), Some("python")).None?
    ensures ProviderSettingsForLanguage(NewDefaultProvider(), None).None?
  {
    CSharpSpellings();
    var lp := ToLower("python");
    assert lp[0] == 'p';
    assert lp != "csharp";
  }

  /** The default catalog holds exactly one server, with this identity and launch template. */
  lemma DefaultCatalogContents()
    ensures |GetConfig(NewDefaultProvider()).servers| == 1
    ensures var s := GetConfig(NewDefaultProvider()).servers[0];
            s.serverName == "omnisharp" && s.version == "1.39.13" && s.isEnabled
            && s.languageIds == ["csharp"]
            && s.arguments == Some("-s \"" + ("{WorkspaceRoot}" + ("\" --hostPID " + "{HostProcessId}")))
            && s.platformSpecifics.Keys == {"win-x64", "linux-x64", "osx-x64", "osx-arm64"}
            && "linux-arm64" !in s.platformSpecifics
            && s.platformSpecifics["win-x64"].executableRelativePath == "OmniSharp.exe"
            && s.platformSpecifics["linux-x64"].executableRelativePath == "run"
            && s.platformSpecifics["osx-x64"].executableRelativePath == "run"
            && s.platformSpecifics["osx-arm64"].executableRelativePath == "run"
  {
  }
}

=== FILE: lsp_installer.dfy ===
/**
 * The server installer (Swarm.Lsp/ServerManagement/LspServerManager.cs):
 * a decision procedure over an abstract file system. The network, the zip
 * library and the chmod process are replaced by an oracle that fixes their
 * outcomes; deleting a file or a directory is assumed to succeed.
 */
module LspInstaller {
  import opened Options
  import opened Text
  import opened Paths
  import opened LspSettings
  import opened LspCatalog
  import opened FileSystems

  // ---------------------------------------------------------------------------
  // Runtime identifier
  // ---------------------------------------------------------------------------

  /** The operating systems `RuntimeInformation.IsOSPlatform` can report. */
  datatype OperatingSystem = Windows | Linux | MacOs | FreeBsd | OtherOs

  /** `System.Runtime.InteropServices.Architecture`. */
  datatype Architecture = X86 | X64 | Arm | Arm64 | Wasm | S390x | LoongArch64 | Armv6 | Ppc64le | RiscV64

  datatype Host = Host(os: OperatingSystem, arch: Architecture)

  /** The message of the `PlatformNotSupportedException`. */
  datatype PlatformError = UnsupportedOs | UnsupportedArchitecture(arch: Architecture)

  datatype RuntimeId = Rid(rid: string) | PlatformNotSupported(error: PlatformError)

  function OsMoniker(os: OperatingSystem): Option<string>
  {
    match os
    case Windows => Some("win")
    case Linux => Some("linux")
    case MacOs => Some("osx")
    case _ => None
  }

  function ArchMoniker(arch: Architecture): Option<string>
  {
    match arch
    case X64 => Some("x64")
    case Arm64 => Some("arm64")
    case _ => None
  }

  /**
   * `GetCurrentRuntimeIdentifier`: "<os>-<arch>"; the operating system is
   * checked first, so an unsupported one is reported whatever the architecture.
   */
  function GetCurrentRuntimeIdentifier(h: Host): (r: RuntimeId)
    ensures r.Rid? <==> h.os in {Windows, Linux, MacOs} && h.arch in {X64, Arm64}
    ensures h.os !in {Windows, Linux, MacOs} ==> r == PlatformNotSupported(UnsupportedOs)
    ensures h.os in {Windows, Linux, MacOs} && h.arch !in {X64, Arm64} ==>
              r == PlatformNotSupported(UnsupportedArchitecture(h.arch))
    ensures r.Rid? ==> r.rid == OsMoniker(h.os).value + "-" + ArchMoniker(h.arch).value
  {
    match OsMoniker(h.os)
    case None => PlatformNotSupported(UnsupportedOs)
    case Some(os) =>
      match ArchMoniker(h.arch)
      case None => PlatformNotSupported(UnsupportedArchitecture(h.arch))
      case Some(arch) => Rid(os + "-" + arch)
  }

  /** Reads a runtime identifier back into the host it names. */
  function ParseRuntimeIdentifier(rid: string): Option<Host>
  {
    if rid == "win-x64" then Some(Host(Windows, X64))
    else if rid == "win-arm64" then Some(Host(Windows, Arm64))
    else if rid == "linux-x64" then Some(Host(Linux, X64))
    else if rid == "linux-arm64" then Some(Host(Linux, Arm64))
    else if rid == "osx-x64" then Some(Host(MacOs, X64))
    else if rid == "osx-arm64" then Some(Host(MacOs, Arm64))
    else None
  }

  /**
   * Every supported host has an identifier that names it and no other, so
   * install directories of different platforms never coincide.
   */
  lemma RuntimeIdentifierRoundTrip(h: Host)
    requires GetCurrentRuntimeIdentifier(h).Rid?
    ensures ParseRuntimeIdentifier(GetCurrentRuntimeIdentifier(h).rid) == Some(h)
  {
    var rid := GetCurrentRuntimeIdentifier(h).rid;
    match h.os
    case Windows => assert rid[..4] == "win-"; assert rid[0] == 'w';
    case Linux => assert rid[..6] == "linux-"; assert rid[0] == 'l';
    case MacOs => assert rid[..4] == "osx-"; assert rid[0] == 'o';
  }

  lemma RuntimeIdentifierInjective(h1: Host, h2: Host)
    requires GetCurrentRuntimeIdentifier(h1).Rid? && GetCurrentRuntimeIdentifier(h2).Rid?
    requires GetCurrentRuntimeIdentifier(h1) == GetCurrentRuntimeIdentifier(h2)
    ensures h1 == h2
  {
    RuntimeIdentifierRoundTrip(h1);
    RuntimeIdentifierRoundTrip(h2);
  }

  // ---------------------------------------------------------------------------
  // Archive kinds
  // ---------------------------------------------------------------------------

  datatype ArchiveKind = Zip | TarGz | UnsupportedArchive

  /** Chosen by case-insensitive URL suffix, ".zip" before ".tar.gz". */
  function ArchiveKindOf(url: string): (k: ArchiveKind)
    ensures k == Zip <==> EndsWithIgnoreCase(url, ".zip")
    ensures k == TarGz <==> !EndsWithIgnoreCase(url, ".zip") && EndsWithIgnoreCase(url, ".tar.gz")
  {
    if EndsWithIgnoreCase(url, ".zip") then Zip
    else if EndsWithIgnoreCase(url, ".tar.gz") then TarGz
    else UnsupportedArchive
  }

  /** Any URL ending in ".zip" is unpacked as a zip. */
  lemma ZipUrl(prefix: string)
    ensures ArchiveKindOf(prefix + ".zip") == Zip
  {
    var u := prefix + ".zip";
    assert u[|u| - 4..] == ".zip";
    assert ToLower(".zip") == ".zip";
  }

  /** Any URL ending in ".tar.gz" is unpacked as a tar.gz. */
  lemma TarGzUrl(prefix: string)
    ensures ArchiveKindOf(prefix + ".tar.gz") == TarGz
  {
    var u := prefix + ".tar.gz";
    assert u[|u| - 7..] == ".tar.gz";
    assert u[|u| - 4..] == "r.gz";
    assert ToLower(".tar.gz") == ".tar.gz";
    assert ToLower("r.gz")[0] == 'r';
    assert ToLower(".zip")[0] == '.';
  }

  /** In the default catalog Windows downloads a zip, every other platform a tar.gz. */
  lemma DefaultCatalogArchiveKinds()
    ensures ArchiveKindOf(OmniSharpSettings().platformSpecifics["win-x64"].downloadUrl) == Zip
    ensures ArchiveKindOf(OmniSharpSettings().platformSpecifics["linux-x64"].downloadUrl) == TarGz
    ensures ArchiveKindOf(OmniSharpSettings().platformSpecifics["osx-x64"].downloadUrl) == TarGz
    ensures ArchiveKindOf(OmniSharpSettings().platformSpecifics["osx-arm64"].downloadUrl) == TarGz
  {
    var ps := OmniSharpSettings().platformSpecifics;
    assert ps["win-x64"].downloadUrl == ReleaseAsset("win-x64", ".zip");
    assert ps["linux-x64"].downloadUrl == ReleaseAsset("linux-x64", ".tar.gz");
    assert ps["osx-x64"].downloadUrl == ReleaseAsset("osx-x64", ".tar.gz");
    assert ps["osx-arm64"].downloadUrl == ReleaseAsset("osx-arm64", ".tar.gz");
    ZipUrl(OmniSharpReleases + "omnisharp-" + "win-x64" + "-net6.0");
    TarGzUrl(OmniSharpReleases + "omnisharp-" + "linux-x64" + "-net6.0");
    TarGzUrl(OmniSharpReleases + "omnisharp-" + "osx-x64" + "-net6.0");
    TarGzUrl(OmniSharpReleases + "omnisharp-" + "osx-arm64" + "-net6.0");
  }

  // ---------------------------------------------------------------------------
  // File system and oracle
  // ---------------------------------------------------------------------------

  /** What the HTTP download does. */
  datatype Download =
    | RequestFailed        // non-success status or connection error: no temp file is created
    | CopyFailed           // the temp file was created, then the stream copy threw
    | Downloaded           // the archive is in the temp file

  /** What `ZipFile.ExtractToDirectory` does with the downloaded archive. */
  datatype Extraction = Extracted(entries: set<string>) | ExtractionThrew

  datatype InstallOracle = InstallOracle(download: Download, zip: Extraction, chmodSucceeds: bool)

  /** The fixed environment of one installer instance. */
  datatype InstallEnv = InstallEnv(baseDir: string, tempDir: string, host: Host)

  /** Observable installer actions, in order. */
  datatype InstallAction =
    | CreatedDirectory(path: string)
    | DownloadStarted(url: string, to: string)
    | ExtractedZip(dir: string)
    | ExtractedTarGzPlaceholder(dir: string)
    | Chmod(path: string, succeeded: bool)
    | DeletedDirectory(path: string)
    | DeletedTempFile(path: string)

  /** The C# result: a path or null, or an exception escaping the method. */
  datatype InstallOutcome = Returned(path: Option<string>) | Threw(error: PlatformError)

  datatype Install = Install(outcome: InstallOutcome, disk: Disk, actions: seq<InstallAction>)

  /** `base/name/version/rid`. */
  function VersionDir(baseDir: string, s: LspServerSettings, rid: string): string
  {
    Combine(Combine(Combine(baseDir, s.serverName), s.version), rid)
  }

  /** `base/name/version/rid/relativePath`. */
  function ExecutablePath(baseDir: string, s: LspServerSettings, rid: string, d: PlatformDetails): string
  {
    Combine(VersionDir(baseDir, s, rid), d.executableRelativePath)
  }

  /** The deterministic temp archive `name-version-rid-download`. */
  function DownloadPath(tempDir: string, s: LspServerSettings, rid: string): string
  {
    Combine(tempDir, s.serverName + "-" + s.version + "-" + rid + "-download")
  }

  /** For plain segments the install path is the slash-joined chain. */
  lemma ExecutablePathLayout(baseDir: string, s: LspServerSettings, rid: string, d: PlatformDetails)
    requires |baseDir| > 0 && baseDir[|baseDir| - 1] != Sep
    requires IsSegment(s.serverName) && IsSegment(s.version) && IsSegment(rid)
    requires IsSegment(d.executableRelativePath)
    ensures ExecutablePath(baseDir, s, rid, d)
            == baseDir + "/" + s.serverName + "/" + s.version + "/" + rid + "/" + d.executableRelativePath
  {
  }

  // ---------------------------------------------------------------------------
  // EnsureServerInstalledAsync
  // ---------------------------------------------------------------------------

  /** The `try` block and its `catch`: download, extract, verify, or clean up. */
  function TryDownloadAndExtract(disk: Disk, env: InstallEnv, d: PlatformDetails, dir: string, exe: string,
                                 tmp: string, oracle: InstallOracle): (r: Install)
    ensures r.outcome.Returned?
    ensures r.outcome.path.Some? ==> r.outcome.path.value == exe && exe in r.disk.files
    ensures r.outcome.path.None? ==> forall f :: f in r.disk.files ==> !IsUnder(f, dir)
    ensures r.outcome.path.None? ==> forall x :: x in r.disk.dirs ==> !IsUnder(x, dir)
    ensures r.disk.dirs <= disk.dirs
    ensures r.outcome.path.Some? ==> r.disk.dirs == disk.dirs && disk.files <= r.disk.files
  {
    var started := [DownloadStarted(d.downloadUrl, tmp)];
    match oracle.download
    case RequestFailed =>
      Install(Returned(None), DeleteTree(disk, dir), started + [DeletedDirectory(dir)])
    case CopyFailed =>
      var withTmp := disk.(files := disk.files + {tmp});
      Install(Returned(None), DeleteTree(withTmp, dir), started + [DeletedDirectory(dir)])
    case Downloaded =>
      var withTmp := disk.(files := disk.files + {tmp});
      var extracted: Option<(Disk, InstallAction)> :=
        match ArchiveKindOf(d.downloadUrl)
        case Zip =>
          (match oracle.zip
           case Extracted(entries) =>
             var unpacked := set e | e in entries :: Combine(dir, e);
             Some((withTmp.(files := withTmp.files + unpacked), ExtractedZip(dir)))
           case ExtractionThrew => None)
        case TarGz => Some((withTmp, ExtractedTarGzPlaceholder(dir)))
        case UnsupportedArchive => None;
      match extracted
      case None =>
        Install(Returned(None), DeleteTree(withTmp, dir), started + [DeletedDirectory(dir)])
      case Some((after, how)) =>
        if exe in after.files then
          var chmod := if env.host.os != Windows then [Chmod(exe, oracle.chmodSucceeds)] else [];
          Install(Returned(Some(exe)), after, started + [how] + chmod)
        else
          Install(Returned(None), DeleteTree(after, dir), started + [how, DeletedDirectory(dir)])
  }

  /** The `finally` block: the temp archive is removed if it exists. */
  function RemoveTempArchive(r: Install, tmp: string): (r': Install)
    ensures tmp !in r'.disk.files
    ensures r'.outcome == r.outcome && r'.disk.dirs == r.disk.dirs
    ensures r'.disk.files == r.disk.files - {tmp}
  {
    if tmp in r.disk.files then
      Install(r.outcome, r.disk.(files := r.disk.files - {tmp}), r.actions + [DeletedTempFile(tmp)])
    else r
  }

  /**
   * `EnsureServerInstalledAsync(languageId)`. The runtime identifier is
   * computed outside the `try`, so an unsupported platform escapes as an
   * exception; everything after the download starts ends in `Returned`.
   */
  function EnsureServerInstalled(config: LspConfig, env: InstallEnv, disk: Disk, languageId: string,
                                 oracle: InstallOracle): (r: Install)
    // catalog miss, platform-key miss, present executable: nothing is touched
    ensures GetSettingsForLanguage(config, Some(languageId)).None? ==>
              r == Install(Returned(None), disk, [])
    ensures r.outcome.Threw? <==>
              GetSettingsForLanguage(config, Some(languageId)).Some? && GetCurrentRuntimeIdentifier(env.host).PlatformNotSupported?
    ensures r.outcome.Threw? ==>
              (r.disk == disk && r.actions == [] && r.outcome.error == GetCurrentRuntimeIdentifier(env.host).error)
    ensures var s := GetSettingsForLanguage(config, Some(languageId));
            var id := GetCurrentRuntimeIdentifier(env.host);
            s.Some? && id.Rid? && id.rid !in s.value.platformSpecifics ==>
              r == Install(Returned(None), disk, [])
    ensures var s := GetSettingsForLanguage(config, Some(languageId));
            var id := GetCurrentRuntimeIdentifier(env.host);
            s.Some? && id.Rid? && id.rid in s.value.platformSpecifics
            && ExecutablePath(env.baseDir, s.value, id.rid, s.value.platformSpecifics[id.rid]) in disk.files ==>
              r == Install(Returned(Some(ExecutablePath(env.baseDir, s.value, id.rid, s.value.platformSpecifics[id.rid]))), disk, [])
    // every non-null result is the deterministic executable path
    ensures r.outcome.Returned? && r.outcome.path.Some? ==>
              var s := GetSettingsForLanguage(config, Some(languageId)).value;
              var rid := GetCurrentRuntimeIdentifier(env.host).rid;
              rid in s.platformSpecifics && r.outcome.path.value == ExecutablePath(env.baseDir, s, rid, s.platformSpecifics[rid])
    // a returned path exists afterwards, unless it is the temp archive the `finally` deletes
    ensures r.outcome.Returned? && r.outcome.path.Some? ==>
              r.outcome.path.value in r.disk.files
              || r.outcome.path.value == DownloadPath(env.tempDir, GetSettingsForLanguage(config, Some(languageId)).value,
                                                      GetCurrentRuntimeIdentifier(env.host).rid)
  {
    match GetSettingsForLanguage(config, Some(languageId))
    case None => Install(Returned(None), disk, [])
    case Some(s) =>
      match GetCurrentRuntimeIdentifier(env.host)
      case PlatformNotSupported(e) => Install(Threw(e), disk, [])
      case Rid(rid) =>
        if rid !in s.platformSpecifics then Install(Returned(None), disk, [])
        else
          var d := s.platformSpecifics[rid];
          var dir := VersionDir(env.baseDir, s, rid);
          var exe := ExecutablePath(env.baseDir, s, rid, d);
          if exe in disk.files then Install(Returned(Some(exe)), disk, [])
          else
            var tmp := DownloadPath(env.tempDir, s, rid);
            var created := disk.(dirs := disk.dirs + {dir});
            var attempt := TryDownloadAndExtract(created, env, d, dir, exe, tmp, oracle);
            var done := RemoveTempArchive(attempt, tmp);
            Install(done.outcome, done.disk, [CreatedDirectory(dir)] + done.actions)
  }

  /** The installer reached the download: settings, platform entry, no executable yet. */
  predicate ReachesDownload(config: LspConfig, env: InstallEnv, disk: Disk, languageId: string)
  {
    var s := GetSettingsForLanguage(config, Some(languageId));
    var id := GetCurrentRuntimeIdentifier(env.host);
    s.Some? && id.Rid? && id.rid in s.value.platformSpecifics
    && ExecutablePath(env.baseDir, s.value, id.rid, s.value.platformSpecifics[id.rid]) !in disk.files
  }

  /**
   * Once the download is attempted the temp archive is gone afterwards,
   * and a failed install removes the version directory and everything under it.
   */
  lemma FreshInstallCleansUp(config: LspConfig, env: InstallEnv, disk: Disk, languageId: string, oracle: InstallOracle)
    requires ReachesDownload(config, env, disk, languageId)
    ensures var s := GetSettingsForLanguage(config, Some(languageId)).value;
            var rid := GetCurrentRuntimeIdentifier(env.host).rid;
            var r := EnsureServerInstalled(config, env, disk, languageId, oracle);
            && r.outcome.Returned?
            && DownloadPath(env.tempDir, s, rid) !in r.disk.files
            && (r.outcome.path.None? ==> forall f :: f in r.disk.files ==> !IsUnder(f, VersionDir(env.baseDir, s, rid)))
            && (r.outcome.path.None? ==> forall x :: x in r.disk.dirs ==> !IsUnder(x, VersionDir(env.baseDir, s, rid)))
            && |r.actions| >= 2 && r.actions[0] == CreatedDirectory(VersionDir(env.baseDir, s, rid))
            && r.actions[1] == DownloadStarted(s.platformSpecifics[rid].downloadUrl, DownloadPath(env.tempDir, s, rid))
  {
  }

  /** A failed download yields null whatever the archive would have held. */
  lemma DownloadFailureYieldsNull(config: LspConfig, env: InstallEnv, disk: Disk, languageId: string, oracle: InstallOracle)
    requires ReachesDownload(config, env, disk, languageId)
    requires oracle.download != Downloaded
    ensures EnsureServerInstalled(config, env, disk, languageId, oracle).outcome == Returned(None)
  {
  }

  /**
   * The tar.gz extractor is a placeholder that unpacks nothing, so a fresh
   * install from a ".tar.gz" URL always fails and removes the version
   * directory (unless the temp archive is itself the executable path).
   */
  lemma TarGzInstallAlwaysFails(config: LspConfig, env: InstallEnv, disk: Disk, languageId: string, oracle: InstallOracle)
    requires ReachesDownload(config, env, disk, languageId)
    requires var s := GetSettingsForLanguage(config, Some(languageId)).value;
             var rid := GetCurrentRuntimeIdentifier(env.host).rid;
             ArchiveKindOf(s.platformSpecifics[rid].downloadUrl) == TarGz
             && DownloadPath(env.tempDir, s, rid) != ExecutablePath(env.baseDir, s, rid, s.platformSpecifics[rid])
    ensures var s := GetSettingsForLanguage(config, Some(languageId)).value;
            var rid := GetCurrentRuntimeIdentifier(env.host).rid;
            var r := EnsureServerInstalled(config, env, disk, languageId, oracle);
            r.outcome == Returned(None)
            && VersionDir(env.baseDir, s, rid) !in r.disk.dirs
  {
  }

  /** An archive in an unknown format makes the install fail after the download. */
  lemma UnsupportedArchiveFails(config: LspConfig, env: InstallEnv, disk: Disk, languageId: string, oracle: InstallOracle)
    requires ReachesDownload(config, env, disk, languageId)
    requires var s := GetSettingsForLanguage(config, Some(languageId)).value;
             var rid := GetCurrentRuntimeIdentifier(env.host).rid;
             ArchiveKindOf(s.platformSpecifics[rid].downloadUrl) == UnsupportedArchive
    ensures EnsureServerInstalled(config, env, disk, languageId, oracle).outcome == Returned(None)
  {
  }

  /** A zip holding the executable installs it; the chmod outcome never matters. */
  lemma ZipInstallSucceeds(config: LspConfig, env: InstallEnv, disk: Disk, languageId: string, oracle: InstallOracle)
    requires ReachesDownload(config, env, disk, languageId)
    requires var s := GetSettingsForLanguage(config, Some(languageId)).value;
             var rid := GetCurrentRuntimeIdentifier(env.host).rid;
             var d := s.platformSpecifics[rid];
             ArchiveKindOf(d.downloadUrl) == Zip && oracle.download == Downloaded
             && oracle.zip.Extracted? && d.executableRelativePath in oracle.zip.entries
    ensures var s := GetSettingsForLanguage(config, Some(languageId)).value;
            var rid := GetCurrentRuntimeIdentifier(env.host).rid;
            EnsureServerInstalled(config, env, disk, languageId, oracle).outcome
              == Returned(Some(ExecutablePath(env.baseDir, s, rid, s.platformSpecifics[rid])))
  {
    var s := GetSettingsForLanguage(config, Some(languageId)).value;
    var rid := GetCurrentRuntimeIdentifier(env.host).rid;
    var d := s.platformSpecifics[rid];
    var dir := VersionDir(env.baseDir, s, rid);
    assert Combine(dir, d.executableRelativePath) in set e | e in oracle.zip.entries :: Combine(dir, e);
  }

  /** A failed chmod is not fatal: the outcome and the disk do not depend on it. */
  lemma ChmodFailureIsHarmless(config: LspConfig, env: InstallEnv, disk: Disk, languageId: string, oracle: InstallOracle)
    ensures var ok := EnsureServerInstalled(config, env, disk, languageId, oracle.(chmodSucceeds := true));
            var bad := EnsureServerInstalled(config, env, disk, languageId, oracle.(chmodSucceeds := false));
            ok.outcome == bad.outcome && ok.disk == bad.disk
  {
    var s := GetSettingsForLanguage(config, Some(languageId));
    var id := GetCurrentRuntimeIdentifier(env.host);
    if s.Some? && id.Rid? && id.rid in s.value.platformSpecifics {
      var d := s.value.platformSpecifics[id.rid];
      var dir := VersionDir(env.baseDir, s.value, id.rid);
      var exe := ExecutablePath(env.baseDir, s.value, id.rid, d);
      var tmp := DownloadPath(env.tempDir, s.value, id.rid);
      AttemptIgnoresChmod(disk.(dirs := disk.dirs + {dir}), env, d, dir, exe, tmp, oracle);
    }
  }

  /** Inside the `try`, the chmod result only shows in the action log. */
  lemma AttemptIgnoresChmod(disk: Disk, env: InstallEnv, d: PlatformDetails, dir: string, exe: string,
                            tmp: string, oracle: InstallOracle)
    ensures var ok := TryDownloadAndExtract(disk, env, d, dir, exe, tmp, oracle.(chmodSucceeds := true));
            var bad := TryDownloadAndExtract(disk, env, d, dir, exe, tmp, oracle.(chmodSucceeds := false));
            ok.outcome == bad.outcome && ok.disk == bad.disk
  {
  }

  /**
   * Idempotence: after an install that produced the executable, a second
   * call finds it and returns the same path without touching anything.
   */
  lemma {:induction false} InstallIsIdempotent(config: LspConfig, env: InstallEnv, disk: Disk, languageId: string,
                                               first: InstallOracle, second: InstallOracle)
    requires var r := EnsureServerInstalled(config, env, disk, languageId, first);
             r.outcome.Returned? && r.outcome.path.Some?
    requires var s := GetSettingsForLanguage(config, Some(languageId)).value;
             var rid := GetCurrentRuntimeIdentifier(env.host).rid;
             DownloadPath(env.tempDir, s, rid) != ExecutablePath(env.baseDir, s, rid, s.platformSpecifics[rid])
    ensures var r := EnsureServerInstalled(config, env, disk, languageId, first);
            EnsureServerInstalled(config, env, r.disk, languageId, second) == Install(r.outcome, r.disk, [])
  {
    var r := EnsureServerInstalled(config, env, disk, languageId, first);
    var s := GetSettingsForLanguage(config, Some(languageId)).value;
    var rid := GetCurrentRuntimeIdentifier(env.host).rid;
    var exe := ExecutablePath(env.baseDir, s, rid, s.platformSpecifics[rid]);
    if exe !in disk.files {
      var tmp := DownloadPath(env.tempDir, s, rid);
      var dir := VersionDir(env.baseDir, s, rid);
      var attempt := TryDownloadAndExtract(disk.(dirs := disk.dirs + {dir}), env, s.platformSpecifics[rid], dir, exe, tmp, first);
      assert exe in attempt.disk.files;
      assert r.disk.files == attempt.disk.files - {tmp};
    }
    assert exe in r.disk.files;
  }
}

=== FILE: lsp_routing.dfy ===
/**
 * How the session layer (Swarm.Lsp/Services/LspService.cs) decides which
 * workspace a document belongs to and which running session owns a path.
 */
module LspRouting {
  import opened Options
  import opened Text
  import opened Paths
  import opened FileSystems

  // ---------------------------------------------------------------------------
  // Workspace root
  // ---------------------------------------------------------------------------

  /** A ".sln" file name, matched ordinally as on a case-sensitive file system. */
  predicate IsSolutionFile(f: string)
  {
    |f| >= 4 && f[|f| - 4..] == ".sln"
  }

  /** `dir` holds a ".git" directory or a "*.sln" file directly inside it. */
  predicate HasWorkspaceMarker(disk: Disk, dir: string)
  {
    Combine(dir, ".git") in disk.dirs
    || exists f :: f in disk.files && IsChildFile(disk, f, dir) && IsSolutionFile(GetFileName(f))
  }

  /**
   * Result of the upward walk. `Directory.GetFiles` throws on a directory
   * that does not exist, and the walk is not guarded, so the exception
   * escapes to the caller.
   */
  datatype RootSearch = FoundRoot(root: string) | NoRoot | MissingDirectory(dir: string)

  /**
   * The directories the walk visits from `dir`: `dir` itself, then each
   * `GetDirectoryName` in turn, until null or "".
   */
  function Ancestry(dir: Option<string>): (r: seq<string>)
    ensures forall i :: 0 <= i < |r| ==> |r[i]| > 0
    ensures forall i :: 0 <= i < |r| ==> dir.Some? && r[i] <= dir.value
    ensures IsNullOrEmpty(dir) <==> |r| == 0
    decreases if dir.Some? then |dir.value| else 0
  {
    if IsNullOrEmpty(dir) then []
    else [dir.value] + Ancestry(GetDirectoryName(dir.value))
  }

  /** The loop of `FindWorkspaceRoot`, from the directory it currently holds. */
  function WalkUp(disk: Disk, dir: Option<string>): (r: RootSearch)
    ensures r.FoundRoot? ==> HasWorkspaceMarker(disk, r.root) && r.root in Ancestry(dir)
    ensures r.MissingDirectory? ==> r.dir in Ancestry(dir) && r.dir !in disk.dirs
    decreases if dir.Some? then |dir.value| else 0
  {
    if IsNullOrEmpty(dir) then NoRoot
    else
      var d := dir.value;
      if Combine(d, ".git") in disk.dirs then FoundRoot(d)
      else if d !in disk.dirs then MissingDirectory(d)
      else if exists f :: f in disk.files && IsChildFile(disk, f, d) && IsSolutionFile(GetFileName(f)) then FoundRoot(d)
      else WalkUp(disk, GetDirectoryName(d))
  }

  /** `FindWorkspaceRoot(documentPath)`: starts at the document's own directory. */
  function FindWorkspaceRoot(disk: Disk, documentPath: string): (r: RootSearch)
    ensures r.FoundRoot? ==> HasWorkspaceMarker(disk, r.root) && |r.root| > 0 && r.root < documentPath
  {
    var r := WalkUp(disk, GetDirectoryName(documentPath));
    if r.FoundRoot? then
      assert GetDirectoryName(documentPath).Some?;
      r
    else r
  }

  /** The walk cannot go on from `d`: a ".git" child, a missing directory, or a marker. */
  predicate StopsAt(disk: Disk, d: string)
  {
    Combine(d, ".git") in disk.dirs || d !in disk.dirs || HasWorkspaceMarker(disk, d)
  }

  /** Index of the first directory in `chain` where the walk stops; `|chain|` if none. */
  function FirstStop(disk: Disk, chain: seq<string>): (k: nat)
    ensures k <= |chain|
    ensures forall i :: 0 <= i < k ==> !StopsAt(disk, chain[i])
    ensures k < |chain| ==> StopsAt(disk, chain[k])
  {
    if |chain| == 0 then 0
    else if StopsAt(disk, chain[0]) then 0
    else 1 + FirstStop(disk, chain[1..])
  }

  /**
   * The walk, stated against the list of directories it visits: it ends at
   * the first directory where it stops; that directory is the root when it
   * has a ".git" child or exists, and is reported missing otherwise.
   */
  lemma {:induction false} WalkUpIsFirstStop(disk: Disk, dir: Option<string>)
    ensures var chain := Ancestry(dir);
            var k := FirstStop(disk, chain);
            WalkUp(disk, dir) ==
              if k == |chain| then NoRoot
              else if Combine(chain[k], ".git") in disk.dirs || chain[k] in disk.dirs then FoundRoot(chain[k])
              else MissingDirectory(chain[k])
    decreases if dir.Some? then |dir.value| else 0
  {
    if !IsNullOrEmpty(dir) {
      var d := dir.value;
      var chain := Ancestry(dir);
      var rest := Ancestry(GetDirectoryName(d));
      assert chain == [d] + rest;
      assert chain[1..] == rest;
      if !StopsAt(disk, d) {
        WalkUpIsFirstStop(disk, GetDirectoryName(d));
        var k := FirstStop(disk, rest);
        assert FirstStop(disk, chain) == 1 + k;
        if k < |rest| {
          assert chain[1 + k] == rest[k];
        }
      }
    }
  }

  /**
   * The root `InitializeForDocumentAsync` keys the session on: the found
   * workspace root, else the document's directory, else ".". A one-segment
   * relative path has directory "", which is used as it is.
   */
  function WorkspaceRootFor(disk: Disk, documentPath: string): (r: Option<string>)
    ensures r.None? <==> FindWorkspaceRoot(disk, documentPath).MissingDirectory?
    ensures FindWorkspaceRoot(disk, documentPath).FoundRoot? ==> r == Some(FindWorkspaceRoot(disk, documentPath).root)
    ensures FindWorkspaceRoot(disk, documentPath).NoRoot? ==>
              r == Some(GetDirectoryName(documentPath).OrElse("."))
  {
    match FindWorkspaceRoot(disk, documentPath)
    case MissingDirectory(_) => None
    case FoundRoot(root) => Some(root)
    case NoRoot => Some(GetDirectoryName(documentPath).OrElse("."))
  }

  /** A bare file name has directory "", so the session root is "" rather than ".". */
  lemma BareFileNameRoot(disk: Disk, name: string)
    requires IsSegment(name)
    ensures WorkspaceRootFor(disk, name) == Some("")
  {
    assert LastIndexOf(name, Sep) == -1;
  }

  lemma RootDirectoryDocument(disk: Disk)
    requires "/" in disk.dirs && !HasWorkspaceMarker(disk, "/")
    ensures WorkspaceRootFor(disk, "/a.cs") == Some("/")
  {
    CombineSplits("/", "a.cs");
    assert Combine("/", "a.cs") == "/a.cs";
    assert GetDirectoryName("/") == None;
  }

  // ---------------------------------------------------------------------------
  // Session table and owning-session lookup
  // ---------------------------------------------------------------------------

  /** `record struct ServerKey(WorkspaceRoot, LanguageId)`: ordinal, case-sensitive equality. */
  datatype ServerKey = ServerKey(workspaceRoot: string, languageId: string)

  /** Opaque identity of one language client. */
  type ClientId = nat

  datatype Session = Session(key: ServerKey, client: ClientId)

  /** The client dictionary, in its iteration order. */
  type SessionTable = seq<Session>

  predicate UniqueKeys(t: SessionTable)
  {
    forall i, j :: 0 <= i < j < |t| ==> t[i].key != t[j].key
  }

  predicate HasKey(t: SessionTable, k: ServerKey)
  {
    exists i :: 0 <= i < |t| && t[i].key == k
  }

  /** `TryGetValue` on a table with unique keys. */
  function ClientOf(t: SessionTable, k: ServerKey): (r: Option<ClientId>)
    ensures r.Some? <==> HasKey(t, k)
    ensures r.Some? ==> exists i :: 0 <= i < |t| && t[i] == Session(k, r.value)
  {
    if |t| == 0 then None
    else if t[0].key == k then Some(t[0].client)
    else
      var r := ClientOf(t[1..], k);
      if r.Some? then
        var i :| 0 <= i < |t[1..]| && t[1..][i] == Session(k, r.value);
        assert t[i + 1] == Session(k, r.value);
        r
      else
        assert forall i :: 1 <= i < |t| ==> t[i] == t[1..][i - 1];
        r
  }

  /** A session's root claims a path when it is a case-insensitive raw prefix of it. */
  predicate Claims(root: string, documentPath: string)
  {
    StartsWithIgnoreCase(documentPath, root)
  }

  /**
   * `FindServerKeyForDocument`: the first key in table order whose root
   * claims the path. No segment boundary and no language are checked.
   */
  function FindServerKeyForDocument(t: SessionTable, documentPath: string): (r: Option<nat>)
    ensures r.Some? ==> r.value < |t| && Claims(t[r.value].key.workspaceRoot, documentPath)
    ensures r.Some? ==> forall j :: 0 <= j < r.value ==> !Claims(t[j].key.workspaceRoot, documentPath)
    ensures r.None? <==> forall j :: 0 <= j < |t| ==> !Claims(t[j].key.workspaceRoot, documentPath)
  {
    FirstClaim(t, documentPath, 0)
  }

  function FirstClaim(t: SessionTable, documentPath: string, i: nat): (r: Option<nat>)
    requires i <= |t|
    ensures r.Some? ==> i <= r.value < |t| && Claims(t[r.value].key.workspaceRoot, documentPath)
    ensures r.Some? ==> forall j :: i <= j < r.value ==> !Claims(t[j].key.workspaceRoot, documentPath)
    ensures r.None? ==> forall j :: i <= j < |t| ==> !Claims(t[j].key.workspaceRoot, documentPath)
    decreases |t| - i
  {
    if i == |t| then None
    else if Claims(t[i].key.workspaceRoot, documentPath) then Some(i)
    else FirstClaim(t, documentPath, i + 1)
  }

  /** The client a per-document call goes to: the owning key's entry. */
  function Route(t: SessionTable, documentPath: string): (r: Option<ClientId>)
    ensures r.None? <==> forall j :: 0 <= j < |t| ==> !Claims(t[j].key.workspaceRoot, documentPath)
    ensures r.Some? ==> exists j :: 0 <= j < |t| && t[j].client == r.value && Claims(t[j].key.workspaceRoot, documentPath)
  {
    match FindServerKeyForDocument(t, documentPath)
    case None => None
    case Some(i) => Some(t[i].client)
  }

  /** The prefix test ignores segment boundaries: root "/ws/a" owns "/ws/ab/x.py", and any path that merely starts with a root. */
  lemma RawPrefixOwnsSibling(key: ServerKey, client: ClientId, rest: string)
    ensures Route([Session(key, client)], key.workspaceRoot + rest) == Some(client)
    ensures Route([Session(ServerKey("/ws/a", "csharp"), 7)], "/ws/ab/x.py") == Some(7)
  {
    assert (key.workspaceRoot + rest)[..|key.workspaceRoot|] == key.workspaceRoot;
    assert "/ws/ab/x.py" == "/ws/a" + "b/x.py";
    assert "/ws/ab/x.py"[..5] == "/ws/a";
  }

  /** The prefix test ignores letter case. */
  lemma PrefixIgnoresCase(t: SessionTable, p: string, q: string)
    requires ToLower(p) == ToLower(q)
    ensures Route(t, p) == Route(t, q)
  {
    forall j | 0 <= j < |t|
      ensures Claims(t[j].key.workspaceRoot, p) == Claims(t[j].key.workspaceRoot, q)
    {
      var root := t[j].key.workspaceRoot;
      if |root| <= |p| {
        assert ToLower(p[..|root|]) == ToLower(q[..|root|]) by {
          forall i | 0 <= i < |root|
            ensures ToLower(p[..|root|])[i] == ToLower(q[..|root|])[i]
          {
            assert ToLower(p)[i] == ToLower(q)[i];
          }
        }
      }
    }
    RouteDependsOnClaims(t, p, q);
  }

  /** Two paths claimed by exactly the same roots are routed alike. */
  lemma RouteDependsOnClaims(t: SessionTable, p: string, q: string)
    requires forall j :: 0 <= j < |t| ==> Claims(t[j].key.workspaceRoot, p) == Claims(t[j].key.workspaceRoot, q)
    ensures Route(t, p) == Route(t, q)
  {
  }

  /**
   * Routing looks only at roots and clients: relabelling the language ids
   * of a table leaves every route unchanged, so a Python file under a C#
   * session's root goes to that session.
   */
  lemma RoutingIgnoresLanguage(t: SessionTable, u: SessionTable, documentPath: string)
    requires |t| == |u|
    requires forall j :: 0 <= j < |t| ==> t[j].key.workspaceRoot == u[j].key.workspaceRoot && t[j].client == u[j].client
    ensures Route(t, documentPath) == Route(u, documentPath)
    ensures Route([Session(ServerKey("/ws", "csharp"), 1)], "/ws/tool.py") == Some(1)
  {
    assert "/ws/tool.py"[..3] == "/ws";
  }

  /**
   * A path claimed by a single session is routed to it, wherever that
   * session sits in the table: for such a path the order of the table does
   * not matter.
   */
  lemma SoleClaimantRoutes(t: SessionTable, documentPath: string, k: nat)
    requires k < |t| && Claims(t[k].key.workspaceRoot, documentPath)
    requires forall j :: 0 <= j < |t| && j != k ==> !Claims(t[j].key.workspaceRoot, documentPath)
    ensures Route(t, documentPath) == Some(t[k].client)
  {
  }

  /** A session rooted at "/" owns every absolute path. */
  lemma SlashRootOwnsAbsolutePaths(t: SessionTable, documentPath: string)
    requires |t| > 0 && t[0].key.workspaceRoot == [Sep] && RootLength(documentPath) > 0
    ensures Route(t, documentPath) == Some(t[0].client)
  {
    assert documentPath[..1] == [Sep];
  }
}

=== FILE: lsp_service.dfy ===
/**
 * The language-server session layer (Swarm.Lsp/Services/LspService.cs):
 * a table of running clients keyed by (workspace root, language id), the
 * document notifications and requests routed through it, the
 * workspace-symbol merge and disposal. Each operation maps a service value
 * to a new one and appends what it sent to an effect log; everything the
 * language-client library, the server process or the installer would
 * decide arrives as an explicit outcome parameter.
 */
module LspService {
  import opened Options
  import opened Text
  import opened Paths
  import opened FileSystems
  import opened LspSettings
  import opened LspCatalog
  import opened LspInstaller
  import opened LspRouting

  // ---------------------------------------------------------------------------
  // State
  // ---------------------------------------------------------------------------

  datatype RequestKind = CompletionRequest | HoverRequest | DefinitionRequest | SignatureHelpRequest
                       | ReferencesRequest | DocumentSymbolsRequest | CodeActionRequest | RenameRequest

  /** What the service did to the outside world, in order. */
  datatype Effect =
    | Launched(executable: string, arguments: string, workingDirectory: string)
    | DidOpen(client: ClientId, documentPath: string, languageId: string, version: int, text: string)
    | DidChange(client: ClientId, documentPath: string, changeVersion: Option<int>, changes: seq<string>)
    | DidClose(client: ClientId, documentPath: string)
    | Requested(client: ClientId, kind: RequestKind, documentPath: string)
    | SymbolQuery(client: ClientId, query: string)
    | Disposed(client: ClientId)

  /** The client table, the next fresh client identity and the effect log. */
  datatype Service = Service(table: SessionTable, nextClient: ClientId, log: seq<Effect>)

  /** Keys are unique, every client is distinct and was handed out already, and every root is one `new Uri` accepts. */
  predicate Valid(s: Service)
  {
    && UniqueKeys(s.table)
    && (forall i, j :: 0 <= i < j < |s.table| ==> s.table[i].client != s.table[j].client)
    && (forall i :: 0 <= i < |s.table| ==> s.table[i].client < s.nextClient)
    && (forall i :: 0 <= i < |s.table| ==> UriAccepts(s.table[i].key.workspaceRoot))
  }

  function NewService(): (s: Service)
    ensures Valid(s) && |s.table| == 0
  {
    Service([], 0, [])
  }

  /** Whether an async operation ran to completion or let an exception escape. */
  datatype Completion = Finished | Faulted

  datatype Step = Step(service: Service, completion: Completion)

  // ---------------------------------------------------------------------------
  // Launch arguments
  // ---------------------------------------------------------------------------

  const WorkspaceRootPlaceholder: string := "{WorkspaceRoot}"
  const HostProcessIdPlaceholder: string := "{HostProcessId}"

  /**
   * The argument line of `StartLanguageClientAsync`: a null template is "";
   * every root placeholder is replaced first, then every process-id
   * placeholder in the result.
   */
  function ExpandArguments(template: Option<string>, root: string, pid: nat): string
  {
    Replace(Replace(template.OrElse(""), WorkspaceRootPlaceholder, root), HostProcessIdPlaceholder, NatToString(pid))
  }

  /** A null template launches the server with no arguments. */
  lemma NullTemplateIsEmpty(root: string, pid: nat)
    ensures ExpandArguments(None, root, pid) == ""
  {
  }

  /** A template without any '{' is passed on unchanged. */
  lemma PlainTemplateUnchanged(template: string, root: string, pid: nat)
    requires forall i :: 0 <= i < |template| ==> template[i] != '{'
    ensures ExpandArguments(Some(template), root, pid) == template
  {
    ReplaceSkipsPrefix(template, "", WorkspaceRootPlaceholder, root);
    assert template + "" == template;
    ReplaceSkipsPrefix(template, "", HostProcessIdPlaceholder, NatToString(pid));
  }

  /** The default OmniSharp template, cut at its placeholders. */
  lemma OmniSharpTemplateShape()
    ensures OmniSharpSettings().arguments
            == Some("-s \"" + (WorkspaceRootPlaceholder + ("\" --hostPID " + HostProcessIdPlaceholder)))
  {
  }

  /** No character of the fixed text around the placeholders opens a brace. */
  predicate BraceFree(s: string)
  {
    forall i :: 0 <= i < |s| ==> s[i] != '{'
  }

  /** First pass over the OmniSharp template: only the root placeholder changes. */
  lemma OmniSharpFirstPass(root: string)
    ensures Replace(OmniSharpSettings().arguments.value, WorkspaceRootPlaceholder, root)
            == "-s \"" + (root + ("\" --hostPID " + HostProcessIdPlaceholder))
  {
    OmniSharpTemplateShape();
    var tail := "\" --hostPID ";
    assert BraceFree("-s \"");
    TailKeepsHostPlaceholder(root);
    ReplaceOneSlot("-s \"", WorkspaceRootPlaceholder, tail + HostProcessIdPlaceholder, root);
  }

  /** The text after the root placeholder is left alone by the first pass. */
  lemma TailKeepsHostPlaceholder(root: string)
    ensures Replace("\" --hostPID " + HostProcessIdPlaceholder, WorkspaceRootPlaceholder, root)
            == "\" --hostPID " + HostProcessIdPlaceholder
  {
    assert BraceFree("\" --hostPID ");
    ReplaceSkipsPrefix("\" --hostPID ", HostProcessIdPlaceholder, WorkspaceRootPlaceholder, root);
    ReplaceAbsentHost();
  }

  /** A single occurrence between a prefix that cannot start it and a suffix the replacement leaves alone. */
  lemma ReplaceOneSlot(pre: string, pat: string, post: string, rep: string)
    requires |pat| > 0 && pat[0] == '{' && BraceFree(pre)
    requires Replace(post, pat, rep) == post
    ensures Replace(pre + (pat + post), pat, rep) == pre + (rep + post)
  {
    ReplaceSkipsPrefix(pre, pat + post, pat, rep);
    ReplaceLeading(pat, post, rep);
  }

  /** Second pass: the process-id placeholder at the end becomes the printed id. */
  lemma OmniSharpSecondPass(root: string, pid: nat)
    requires BraceFree(root)
    ensures Replace("-s \"" + (root + ("\" --hostPID " + HostProcessIdPlaceholder)), HostProcessIdPlaceholder, NatToString(pid))
            == "-s \"" + root + "\" --hostPID " + NatToString(pid)
  {
    var tail := "\" --hostPID ";
    var fixed := "-s \"" + root + tail;
    assert "-s \"" + (root + (tail + HostProcessIdPlaceholder)) == fixed + HostProcessIdPlaceholder;
    assert BraceFree(fixed) by {
      assert BraceFree("-s \"") && BraceFree(tail);
      forall i | 0 <= i < |fixed| ensures fixed[i] != '{' {
        if i < 4 { assert fixed[i] == "-s \""[i]; }
        else if i < 4 + |root| { assert fixed[i] == root[i - 4]; }
        else { assert fixed[i] == tail[i - 4 - |root|]; }
      }
    }
    ReplaceSkipsPrefix(fixed, HostProcessIdPlaceholder, HostProcessIdPlaceholder, NatToString(pid));
    ReplaceLeading(HostProcessIdPlaceholder, "", NatToString(pid));
    assert HostProcessIdPlaceholder + "" == HostProcessIdPlaceholder;
    assert NatToString(pid) + "" == NatToString(pid);
  }

  /**
   * The default OmniSharp template expands to the quoted root and the
   * process id, provided the root holds no '{'.
   */
  lemma OmniSharpArguments(root: string, pid: nat)
    requires BraceFree(root)
    ensures ExpandArguments(OmniSharpSettings().arguments, root, pid)
            == "-s \"" + root + "\" --hostPID " + NatToString(pid)
  {
    OmniSharpTemplateShape();
    OmniSharpFirstPass(root);
    OmniSharpSecondPass(root, pid);
  }

  /** The process-id placeholder holds no root placeholder. */
  lemma ReplaceAbsentHost()
    ensures forall rep :: Replace(HostProcessIdPlaceholder, WorkspaceRootPlaceholder, rep) == HostProcessIdPlaceholder
  {
    forall rep
      ensures Replace(HostProcessIdPlaceholder, WorkspaceRootPlaceholder, rep) == HostProcessIdPlaceholder
    {
      forall i | 0 <= i < |HostProcessIdPlaceholder|
        ensures !OccursAt(HostProcessIdPlaceholder, WorkspaceRootPlaceholder, i)
      {
        if i == 0 {
          assert HostProcessIdPlaceholder[1] != WorkspaceRootPlaceholder[1];
        }
      }
      ReplaceAbsent(HostProcessIdPlaceholder, WorkspaceRootPlaceholder, rep);
    }
  }

  /**
   * The substituted root is scanned by the second pass: a root that itself
   * reads "{HostProcessId}" ends up as the process id.
   */
  lemma RootIsRescanned(pid: nat)
    ensures ExpandArguments(Some(WorkspaceRootPlaceholder), HostProcessIdPlaceholder, pid) == NatToString(pid)
  {
    ReplaceLeading(WorkspaceRootPlaceholder, "", HostProcessIdPlaceholder);
    assert WorkspaceRootPlaceholder + "" == WorkspaceRootPlaceholder;
    assert HostProcessIdPlaceholder + "" == HostProcessIdPlaceholder;
    ReplaceLeading(HostProcessIdPlaceholder, "", NatToString(pid));
    assert NatToString(pid) + "" == NatToString(pid);
  }

  // ---------------------------------------------------------------------------
  // InitializeForDocumentAsync
  // ---------------------------------------------------------------------------

  /** What starting the server process and the client handshake did. */
  datatype StartOutcome =
    | ProcessNotStarted      // `Process.Start` returned false or threw
    | ClientCreationThrew    // the process runs, but building the client threw
    | InitializeThrew        // the client was built, the handshake threw, the client is disposed
    | Initialized            // the handshake succeeded

  /** `TryAdd`: a new key is appended; a key already present makes the new client be disposed. */
  function Register(s: Service, key: ServerKey, client: ClientId): (r: Service)
    ensures HasKey(s.table, key) ==> r.table == s.table && r.log == s.log + [Disposed(client)]
    ensures !HasKey(s.table, key) ==> r.table == s.table + [Session(key, client)] && r.log == s.log
    ensures r.nextClient == s.nextClient
    ensures UniqueKeys(s.table) ==> UniqueKeys(r.table)
    ensures ClientOf(r.table, key).Some?
  {
    if HasKey(s.table, key) then s.(log := s.log + [Disposed(client)])
    else
      var t := s.table + [Session(key, client)];
      assert t[|s.table|].key == key;
      s.(table := t)
  }

  /** The key the document would be served under, or None when the root search throws. */
  function KeyFor(disk: Disk, documentPath: string, languageId: string): Option<ServerKey>
  {
    match WorkspaceRootFor(disk, documentPath)
    case None => None
    case Some(root) => Some(ServerKey(root, languageId))
  }

  /**
   * `new Uri(root)` for the client's root URI: an absolute path is taken as
   * an implicit file URI, while a relative root ("", "." or "src") makes
   * the constructor throw.
   */
  predicate UriAccepts(root: string)
  {
    RootLength(root) > 0
  }

  /**
   * `StartLanguageClientAsync` followed by the registration in the caller's
   * `try`. Once the process runs, building the client evaluates
   * `new Uri(root)`; a relative root therefore ends like a failed client
   * creation, whatever the library would have answered.
   */
  function StartClient(s: Service, settings: LspServerSettings, key: ServerKey, executable: string,
                       documentPath: string, content: string, start: StartOutcome, pid: nat): (r: Service)
    requires Valid(s) && !HasKey(s.table, key)
    ensures Valid(r)
    ensures start == Initialized && UriAccepts(key.workspaceRoot) ==>
              r.table == s.table + [Session(key, s.nextClient)]
              && r.log == s.log + [Launched(executable, ExpandArguments(settings.arguments, key.workspaceRoot, pid), key.workspaceRoot),
                                   DidOpen(s.nextClient, documentPath, key.languageId, 1, content)]
    ensures start != Initialized || !UriAccepts(key.workspaceRoot) ==> r.table == s.table
    ensures start == ProcessNotStarted ==> r == s
    ensures start != ProcessNotStarted && !UriAccepts(key.workspaceRoot) ==>
              r == s.(log := s.log + [Launched(executable, ExpandArguments(settings.arguments, key.workspaceRoot, pid), key.workspaceRoot)])
    ensures start == InitializeThrew && UriAccepts(key.workspaceRoot) ==>
              |r.log| > 0 && r.log[|r.log| - 1] == Disposed(s.nextClient)
    ensures s.log <= r.log
  {
    var launch := Launched(executable, ExpandArguments(settings.arguments, key.workspaceRoot, pid), key.workspaceRoot);
    var outcome := if start != ProcessNotStarted && !UriAccepts(key.workspaceRoot) then ClientCreationThrew else start;
    match outcome
    case ProcessNotStarted => s
    case ClientCreationThrew => s.(log := s.log + [launch])
    case InitializeThrew => s.(nextClient := s.nextClient + 1, log := s.log + [launch, Disposed(s.nextClient)])
    case Initialized =>
      var c := s.nextClient;
      var started := s.(nextClient := c + 1, log := s.log + [launch]);
      var registered := Register(started, key, c);
      registered.(log := registered.log + [DidOpen(c, documentPath, key.languageId, 1, content)])
  }

  /**
   * `InitializeForDocumentAsync(documentPath, languageId, initialContent)`.
   * The settings lookup lower-cases the id, but the session key keeps it
   * as given. The root search and the installer run outside the `try`, so
   * their exceptions escape; everything from the process start on is caught.
   */
  function Initialize(s: Service, config: LspConfig, disk: Disk, documentPath: string, languageId: string,
                      content: string, installed: InstallOutcome, start: StartOutcome, pid: nat): (r: Step)
    requires Valid(s)
    ensures Valid(r.service)
    ensures s.table <= r.service.table && |r.service.table| <= |s.table| + 1
    ensures s.log <= r.service.log
    ensures GetSettingsForLanguage(config, Some(languageId)).None? ==> r == Step(s, Finished)
    ensures r.completion == Faulted <==>
              GetSettingsForLanguage(config, Some(languageId)).Some?
              && (KeyFor(disk, documentPath, languageId).None?
                  || (!HasKey(s.table, KeyFor(disk, documentPath, languageId).value) && installed.Threw?))
    ensures r.completion == Faulted ==> r.service == s
    // a key already present: one more didOpen to its client and nothing else
    ensures GetSettingsForLanguage(config, Some(languageId)).Some? && KeyFor(disk, documentPath, languageId).Some?
            && HasKey(s.table, KeyFor(disk, documentPath, languageId).value) ==>
              r.service == s.(log := s.log + [DidOpen(ClientOf(s.table, KeyFor(disk, documentPath, languageId).value).value,
                                                       documentPath, languageId, 1, content)])
    // the table grows exactly when every step succeeded
    ensures r.service.table != s.table <==>
              GetSettingsForLanguage(config, Some(languageId)).Some? && KeyFor(disk, documentPath, languageId).Some?
              && !HasKey(s.table, KeyFor(disk, documentPath, languageId).value)
              && installed.Returned? && installed.path.Some? && |installed.path.value| > 0
              && start == Initialized && UriAccepts(KeyFor(disk, documentPath, languageId).value.workspaceRoot)
    ensures r.service.table != s.table ==>
              r.service.table == s.table + [Session(KeyFor(disk, documentPath, languageId).value, s.nextClient)]
              && |r.service.log| > 0 && r.service.log[|r.service.log| - 1] == DidOpen(s.nextClient, documentPath, languageId, 1, content)
  {
    match GetSettingsForLanguage(config, Some(languageId))
    case None => Step(s, Finished)
    case Some(settings) =>
      match KeyFor(disk, documentPath, languageId)
      case None => Step(s, Faulted)
      case Some(key) =>
        match ClientOf(s.table, key)
        case Some(existing) => Step(s.(log := s.log + [DidOpen(existing, documentPath, languageId, 1, content)]), Finished)
        case None =>
          match installed
          case Threw(_) => Step(s, Faulted)
          case Returned(path) =>
            if path.None? || |path.value| == 0 then Step(s, Finished)
            else Step(StartClient(s, settings, key, path.value, documentPath, content, start, pid), Finished)
  }

  /**
   * The check for an existing key precedes the registration and nothing
   * runs in between, so sequentially `TryAdd` never loses: no successful
   * initialisation ends with a disposed client.
   */
  lemma InitializeNeverLosesRegistration(s: Service, config: LspConfig, disk: Disk, documentPath: string, languageId: string,
                                         content: string, installed: InstallOutcome, pid: nat)
    requires Valid(s)
    ensures var r := Initialize(s, config, disk, documentPath, languageId, content, installed, Initialized, pid);
            Disposed(s.nextClient) !in r.service.log[|s.log|..]
  {
    var r := Initialize(s, config, disk, documentPath, languageId, content, installed, Initialized, pid);
    match GetSettingsForLanguage(config, Some(languageId))
    case None =>
    case Some(settings) =>
      match KeyFor(disk, documentPath, languageId)
      case None =>
      case Some(key) =>
        match ClientOf(s.table, key)
        case Some(existing) =>
          assert r.service.log[|s.log|..] == [DidOpen(existing, documentPath, languageId, 1, content)];
        case None =>
          if installed.Returned? && installed.path.Some? && |installed.path.value| > 0 {
            var launch := Launched(installed.path.value, ExpandArguments(settings.arguments, key.workspaceRoot, pid), key.workspaceRoot);
            if UriAccepts(key.workspaceRoot) {
              assert r.service.log[|s.log|..] == [launch, DidOpen(s.nextClient, documentPath, key.languageId, 1, content)];
            } else {
              assert r.service.log[|s.log|..] == [launch];
            }
          }
  }

  /**
   * Session keys compare the language id ordinally, so the same document
   * opened as "csharp" and then as "CSharp" gets two sessions (and two
   * server processes), although both resolve to the same settings.
   */
  lemma LanguageIdCaseSplitsSessions(disk: Disk, documentPath: string, content: string, pid: nat, exe: string)
    requires KeyFor(disk, documentPath, "csharp").Some? && UriAccepts(KeyFor(disk, documentPath, "csharp").value.workspaceRoot)
    requires |exe| > 0
    ensures var config := GetConfig(NewDefaultProvider());
            var first := Initialize(NewService(), config, disk, documentPath, "csharp", content, Returned(Some(exe)), Initialized, pid);
            var second := Initialize(first.service, config, disk, documentPath, "CSharp", content, Returned(Some(exe)), Initialized, pid);
            |second.service.table| == 2
  {
    var config := GetConfig(NewDefaultProvider());
    CSharpSpellings();
    CSharpSelectsOmniSharp("csharp");
    CSharpSelectsOmniSharp("CSharp");
    assert "csharp" != "CSharp" by {
      assert "csharp"[0] != "CSharp"[0];
    }
    TwoIdsTwoSessions(config, disk, documentPath, "csharp", "CSharp", content, exe, pid);
  }

  /** Two different language ids for one document, each with settings, give two sessions when both start. */
  lemma TwoIdsTwoSessions(config: LspConfig, disk: Disk, documentPath: string, first: string, second: string,
                          content: string, exe: string, pid: nat)
    requires first != second && |exe| > 0 && KeyFor(disk, documentPath, first).Some?
    requires UriAccepts(KeyFor(disk, documentPath, first).value.workspaceRoot)
    requires GetSettingsForLanguage(config, Some(first)).Some? && GetSettingsForLanguage(config, Some(second)).Some?
    ensures var one := Initialize(NewService(), config, disk, documentPath, first, content, Returned(Some(exe)), Initialized, pid);
            var two := Initialize(one.service, config, disk, documentPath, second, content, Returned(Some(exe)), Initialized, pid);
            |two.service.table| == 2
  {
    var s := NewService();
    var key := KeyFor(disk, documentPath, first).value;
    var key2 := KeyFor(disk, documentPath, second).value;
    assert !HasKey(s.table, key);
    var one := Initialize(s, config, disk, documentPath, first, content, Returned(Some(exe)), Initialized, pid);
    assert one.service.table == [Session(key, s.nextClient)];
    assert !HasKey(one.service.table, key2) by {
      assert one.service.table[0].key != key2;
    }
  }

  /**
   * A document given by a bare file name is keyed on the root "", which
   * `new Uri` rejects: whatever the process and the handshake do, no
   * session is added, and the launched process is left behind.
   */
  lemma BareFileNameStartsNoSession(s: Service, config: LspConfig, disk: Disk, name: string, languageId: string,
                                    content: string, installed: InstallOutcome, start: StartOutcome, pid: nat)
    requires Valid(s) && IsSegment(name)
    ensures Initialize(s, config, disk, name, languageId, content, installed, start, pid).service.table == s.table
  {
    BareFileNameRoot(disk, name);
    assert !UriAccepts("");
  }

  // ---------------------------------------------------------------------------
  // Notifications and requests
  // ---------------------------------------------------------------------------

  /** `DocumentDidChangeAsync`: one whole-text change with a null version, to the owning client. */
  function DocumentDidChange(s: Service, documentPath: string, newContent: string): (r: Service)
    ensures r.table == s.table && r.nextClient == s.nextClient
    ensures Route(s.table, documentPath).None? ==> r == s
    ensures Route(s.table, documentPath).Some? ==>
              r.log == s.log + [DidChange(Route(s.table, documentPath).value, documentPath, None, [newContent])]
  {
    match Route(s.table, documentPath)
    case None => s
    case Some(c) => s.(log := s.log + [DidChange(c, documentPath, None, [newContent])])
  }

  /** `DocumentDidCloseAsync`: notifies the owning client; the session stays. */
  function DocumentDidClose(s: Service, documentPath: string): (r: Service)
    ensures r.table == s.table && r.nextClient == s.nextClient
    ensures Route(s.table, documentPath).None? ==> r == s
    ensures Route(s.table, documentPath).Some? ==>
              r.log == s.log + [DidClose(Route(s.table, documentPath).value, documentPath)]
  {
    match Route(s.table, documentPath)
    case None => s
    case Some(c) => s.(log := s.log + [DidClose(c, documentPath)])
  }

  /** Closing a document never ends a session: the same paths are routed to the same clients afterwards. */
  lemma CloseKeepsRouting(s: Service, closed: string, other: string)
    ensures Route(DocumentDidClose(s, closed).table, other) == Route(s.table, other)
    ensures Route(s.table, closed).Some? ==> Route(DocumentDidClose(s, closed).table, closed).Some?
  {
  }

  /** What the client library answered to one request. */
  datatype Reply<T> = Responded(result: Option<T>) | RequestThrew

  datatype Answer<T> = Answer(service: Service, result: Option<T>)

  /**
   * Every per-document `Request*Async`: null when no session owns the
   * path, null when the request throws, the client's answer otherwise.
   */
  function Request<T>(s: Service, kind: RequestKind, documentPath: string, reply: Reply<T>): (r: Answer<T>)
    ensures r.service.table == s.table && r.service.nextClient == s.nextClient
    ensures Route(s.table, documentPath).None? ==> r == Answer(s, None)
    ensures Route(s.table, documentPath).Some? ==>
              r.service.log == s.log + [Requested(Route(s.table, documentPath).value, kind, documentPath)]
    ensures r.result.Some? <==> Route(s.table, documentPath).Some? && reply.Responded? && reply.result.Some?
    ensures r.result.Some? ==> r.result == reply.result
  {
    match Route(s.table, documentPath)
    case None => Answer(s, None)
    case Some(c) =>
      var sent := s.(log := s.log + [Requested(c, kind, documentPath)]);
      match reply
      case RequestThrew => Answer(sent, None)
      case Responded(v) => Answer(sent, v)
  }

  // ---------------------------------------------------------------------------
  // Workspace symbols
  // ---------------------------------------------------------------------------

  datatype Position = Position(line: int, character: int)
  datatype Range = Range(start: Position, end: Position)
  datatype Location = Location(uri: string, range: Range)

  /** `LocationOrFileLocation`: a full location, or only a document. */
  datatype SymbolLocation = FullLocation(location: Location) | FileOnly(uri: string)

  datatype WorkspaceSymbol = WorkspaceSymbol(name: string, kind: int, location: SymbolLocation,
                                             containerName: Option<string>, tags: seq<int>)

  datatype SymbolInformation = SymbolInformation(name: string, kind: int, location: Location,
                                                 containerName: Option<string>, tags: seq<int>)

  /** The copy made for a symbol that has a full location. */
  function ToSymbolInformation(w: WorkspaceSymbol): SymbolInformation
    requires w.location.FullLocation?
  {
    SymbolInformation(w.name, w.kind, w.location.location, w.containerName, w.tags)
  }

  /** The symbols of one answer that have a full location, converted, in order. */
  function KeepLocated(ws: seq<WorkspaceSymbol>): (r: seq<SymbolInformation>)
    ensures |r| <= |ws|
    ensures forall x :: x in r <==> exists j :: 0 <= j < |ws| && ws[j].location.FullLocation? && x == ToSymbolInformation(ws[j])
    // nothing dropped, nothing reordered, nothing repeated when every symbol is located
    ensures (forall j :: 0 <= j < |ws| ==> ws[j].location.FullLocation?) ==>
              |r| == |ws| && forall j :: 0 <= j < |ws| ==> r[j] == ToSymbolInformation(ws[j])
    ensures |r| == |ws| ==> forall j :: 0 <= j < |ws| ==> ws[j].location.FullLocation?
  {
    if |ws| == 0 then []
    else
      var rest := KeepLocated(ws[1..]);
      assert forall j :: 1 <= j < |ws| ==> ws[j] == ws[1..][j - 1];
      if ws[0].location.FullLocation? then [ToSymbolInformation(ws[0])] + rest else rest
  }

  /**
   * The filter works symbol by symbol: splitting an answer anywhere splits
   * the kept symbols at the same place, so their order and multiplicity are
   * those of the answer.
   */
  lemma {:induction false} KeepLocatedAppend(a: seq<WorkspaceSymbol>, b: seq<WorkspaceSymbol>)
    ensures KeepLocated(a + b) == KeepLocated(a) + KeepLocated(b)
    decreases |a|
  {
    if |a| > 0 {
      assert (a + b)[0] == a[0] && (a + b)[1..] == a[1..] + b;
      KeepLocatedAppend(a[1..], b);
    } else {
      assert a + b == b;
    }
  }

  /** One symbol is kept, converted, exactly when it has a full location. */
  lemma KeepLocatedSingle(w: WorkspaceSymbol)
    ensures KeepLocated([w]) == if w.location.FullLocation? then [ToSymbolInformation(w)] else []
  {
    assert [w][1..] == [];
  }

  /** The symbols a reply contributes: none for a throw or a null answer. */
  function Contribution(reply: Reply<seq<WorkspaceSymbol>>): seq<SymbolInformation>
  {
    match reply
    case Responded(Some(ws)) => KeepLocated(ws)
    case _ => []
  }

  /** The contributions of all replies, client after client. */
  function MergeReplies(replies: seq<Reply<seq<WorkspaceSymbol>>>): (r: seq<SymbolInformation>)
    ensures forall x :: x in r <==> exists i :: 0 <= i < |replies| && x in Contribution(replies[i])
  {
    if |replies| == 0 then []
    else
      var rest := MergeReplies(replies[1..]);
      assert forall i :: 1 <= i < |replies| ==> replies[i] == replies[1..][i - 1];
      Contribution(replies[0]) + rest
  }

  /** `x` is the copy of a located symbol in some client's non-null answer. */
  predicate Delivered(replies: seq<Reply<seq<WorkspaceSymbol>>>, x: SymbolInformation)
  {
    exists i, j :: 0 <= i < |replies| && replies[i].Responded? && replies[i].result.Some?
      && 0 <= j < |replies[i].result.value| && replies[i].result.value[j].location.FullLocation?
      && x == ToSymbolInformation(replies[i].result.value[j])
  }

  /** The merge holds exactly the delivered symbols. */
  lemma MergeMembership(replies: seq<Reply<seq<WorkspaceSymbol>>>)
    ensures forall x :: x in MergeReplies(replies) <==> Delivered(replies, x)
  {
    forall x | x in MergeReplies(replies)
      ensures Delivered(replies, x)
    {
      var i :| 0 <= i < |replies| && x in Contribution(replies[i]);
      var ws := replies[i].result.value;
      assert x in KeepLocated(ws);
      var j :| 0 <= j < |ws| && ws[j].location.FullLocation? && x == ToSymbolInformation(ws[j]);
      assert replies[i].result.value[j] == ws[j];
    }
    forall x | Delivered(replies, x)
      ensures x in MergeReplies(replies)
    {
      var i, j :| 0 <= i < |replies| && replies[i].Responded? && replies[i].result.Some?
                 && 0 <= j < |replies[i].result.value| && replies[i].result.value[j].location.FullLocation?
                 && x == ToSymbolInformation(replies[i].result.value[j]);
      assert x in Contribution(replies[i]);
    }
  }

  /**
   * `RequestWorkspaceSymbolsAsync(query)`: every client is asked (its reply
   * is the matching element of `replies`); located symbols survive in
   * client-then-server order; an empty merge is null, not an empty list.
   */
  function RequestWorkspaceSymbols(s: Service, query: string, replies: seq<Reply<seq<WorkspaceSymbol>>>): (r: Answer<seq<SymbolInformation>>)
    requires |replies| == |s.table|
    ensures r.service.table == s.table && r.service.nextClient == s.nextClient
    ensures |r.service.log| == |s.log| + |s.table| && s.log <= r.service.log
    ensures forall i :: 0 <= i < |s.table| ==> r.service.log[|s.log| + i] == SymbolQuery(s.table[i].client, query)
    ensures r.result.Some? ==> |r.result.value| > 0
    ensures r.result.None? <==> forall i :: 0 <= i < |replies| ==> |Contribution(replies[i])| == 0
    ensures r.result.None? ==> forall x :: !Delivered(replies, x)
    ensures r.result.Some? ==> forall x :: x in r.result.value <==> Delivered(replies, x)
    ensures r.result.Some? ==> r.result.value == Concat(Contributions(replies))
  {
    var queries := seq(|s.table|, i requires 0 <= i < |s.table| => SymbolQuery(s.table[i].client, query));
    var merged := MergeReplies(replies);
    MergeEmptyIff(replies);
    MergeMembership(replies);
    MergeKeepsClientOrder(replies);
    Answer(s.(log := s.log + queries), if |merged| > 0 then Some(merged) else None)
  }

  /** The merge is empty exactly when no reply contributes. */
  lemma {:induction false} MergeEmptyIff(replies: seq<Reply<seq<WorkspaceSymbol>>>)
    ensures |MergeReplies(replies)| == 0 <==> forall i :: 0 <= i < |replies| ==> |Contribution(replies[i])| == 0
  {
    if |replies| > 0 {
      MergeEmptyIff(replies[1..]);
      assert forall i :: 1 <= i < |replies| ==> replies[i] == replies[1..][i - 1];
    }
  }

  /** The concatenation of a sequence of runs, first run first. */
  function Concat<T>(runs: seq<seq<T>>): (r: seq<T>)
    decreases |runs|
  {
    if |runs| == 0 then [] else runs[0] + Concat(runs[1..])
  }

  /** Each client's contribution, in table order. */
  function Contributions(replies: seq<Reply<seq<WorkspaceSymbol>>>): (r: seq<seq<SymbolInformation>>)
    ensures |r| == |replies| && forall i :: 0 <= i < |replies| ==> r[i] == Contribution(replies[i])
  {
    seq(|replies|, i requires 0 <= i < |replies| => Contribution(replies[i]))
  }

  /**
   * Splitting the clients anywhere splits the merge at the same place: the
   * symbols of earlier clients come before those of later ones.
   */
  lemma {:induction false} MergeRepliesAppend(a: seq<Reply<seq<WorkspaceSymbol>>>, b: seq<Reply<seq<WorkspaceSymbol>>>)
    ensures MergeReplies(a + b) == MergeReplies(a) + MergeReplies(b)
    decreases |a|
  {
    if |a| > 0 {
      assert (a + b)[0] == a[0] && (a + b)[1..] == a[1..] + b;
      MergeRepliesAppend(a[1..], b);
    } else {
      assert a + b == b;
    }
  }

  /** The merge is the concatenation of the per-client contributions, in client order, duplicates kept. */
  lemma {:induction false} MergeKeepsClientOrder(replies: seq<Reply<seq<WorkspaceSymbol>>>)
    ensures MergeReplies(replies) == Concat(Contributions(replies))
    decreases |replies|
  {
    if |replies| > 0 {
      assert Contributions(replies)[1..] == Contributions(replies[1..]);
      MergeKeepsClientOrder(replies[1..]);
    }
  }

  // ---------------------------------------------------------------------------
  // Dispose
  // ---------------------------------------------------------------------------

  /**
   * `Dispose`: every client is disposed in table order (a throwing disposal
   * is caught and the loop goes on), then the table is cleared.
   */
  function Dispose(s: Service): (r: Service)
    ensures r.table == [] && r.nextClient == s.nextClient
    ensures |r.log| == |s.log| + |s.table| && s.log <= r.log
    ensures forall i :: 0 <= i < |s.table| ==> r.log[|s.log| + i] == Disposed(s.table[i].client)
    ensures Valid(r)
  {
    s.(table := [], log := s.log + seq(|s.table|, i requires 0 <= i < |s.table| => Disposed(s.table[i].client)))
  }

  /** After disposal no path is owned, so every notification and request is a no-op. */
  lemma DisposedServiceRoutesNothing<T>(s: Service, documentPath: string, text: string, kind: RequestKind, reply: Reply<T>)
    ensures DocumentDidChange(Dispose(s), documentPath, text) == Dispose(s)
    ensures DocumentDidClose(Dispose(s), documentPath) == Dispose(s)
    ensures Request(Dispose(s), kind, documentPath, reply) == Answer(Dispose(s), None)
  {
  }

  /** Only `Dispose` removes sessions: notifications and requests keep the table. */
  lemma OnlyDisposeShrinks<T>(s: Service, documentPath: string, text: string, kind: RequestKind, reply: Reply<T>,
                              query: string, replies: seq<Reply<seq<WorkspaceSymbol>>>)
    requires |replies| == |s.table|
    ensures DocumentDidChange(s, documentPath, text).table == s.table
    ensures DocumentDidClose(s, documentPath).table == s.table
    ensures Request(s, kind, documentPath, reply).service.table == s.table
    ensures RequestWorkspaceSymbols(s, query, replies).service.table == s.table
  {
  }

  // ---------------------------------------------------------------------------
  // With the default catalog and the real installer
  // ---------------------------------------------------------------------------

  /** Any spelling of "csharp" selects the OmniSharp entry of the default catalog. */
  lemma CSharpSelectsOmniSharp(languageId: string)
    requires ToLower(languageId) == "csharp"
    ensures GetSettingsForLanguage(GetConfig(NewDefaultProvider()), Some(languageId)) == Some(OmniSharpSettings())
  {
    CSharpSpellings();
    DefaultCatalogLookup();
    LookupIgnoresQueryCase(GetConfig(NewDefaultProvider()), languageId, "csharp");
  }

  /**
   * Outside win-x64 the default catalog either has no entry for the host or
   * ships a ".tar.gz", which the installer cannot unpack; so unless the
   * executable is already installed, installing OmniSharp never yields a path.
   */
  lemma OmniSharpInstallFailsOffWinX64(env: InstallEnv, disk: Disk, languageId: string, oracle: InstallOracle)
    requires ToLower(languageId) == "csharp"
    requires env.host != Host(Windows, X64)
    requires var id := GetCurrentRuntimeIdentifier(env.host);
             var o := OmniSharpSettings();
             id.Rid? && id.rid in o.platformSpecifics ==>
               ExecutablePath(env.baseDir, o, id.rid, o.platformSpecifics[id.rid]) !in disk.files
               && DownloadPath(env.tempDir, o, id.rid) != ExecutablePath(env.baseDir, o, id.rid, o.platformSpecifics[id.rid])
    ensures var r := EnsureServerInstalled(GetConfig(NewDefaultProvider()), env, disk, languageId, oracle).outcome;
            r.Threw? || r.path.None?
  {
    var config := GetConfig(NewDefaultProvider());
    CSharpSelectsOmniSharp(languageId);
    var o := OmniSharpSettings();
    var id := GetCurrentRuntimeIdentifier(env.host);
    if id.Rid? && id.rid in o.platformSpecifics {
      assert id.rid == "linux-x64" || id.rid == "osx-x64" || id.rid == "osx-arm64" by {
        DefaultCatalogContents();
        RuntimeIdentifierRoundTrip(env.host);
      }
      assert ArchiveKindOf(o.platformSpecifics[id.rid].downloadUrl) == TarGz by {
        DefaultCatalogArchiveKinds();
      }
      TarGzInstallAlwaysFails(config, env, disk, languageId, oracle);
    }
  }

  /** Hence, off win-x64 and without a prior install, opening a C# document never starts a session. */
  lemma OnlyWinX64StartsOmniSharp(s: Service, env: InstallEnv, disk: Disk, documentPath: string, languageId: string,
                                  content: string, oracle: InstallOracle, start: StartOutcome, pid: nat)
    requires Valid(s)
    requires ToLower(languageId) == "csharp"
    requires env.host != Host(Windows, X64)
    requires var id := GetCurrentRuntimeIdentifier(env.host);
             var o := OmniSharpSettings();
             id.Rid? && id.rid in o.platformSpecifics ==>
               ExecutablePath(env.baseDir, o, id.rid, o.platformSpecifics[id.rid]) !in disk.files
               && DownloadPath(env.tempDir, o, id.rid) != ExecutablePath(env.baseDir, o, id.rid, o.platformSpecifics[id.rid])
    ensures var config := GetConfig(NewDefaultProvider());
            var installed := EnsureServerInstalled(config, env, disk, languageId, oracle).outcome;
            Initialize(s, config, disk, documentPath, languageId, content, installed, start, pid).service.table == s.table
  {
    OmniSharpInstallFailsOffWinX64(env, disk, languageId, oracle);
  }
}

=== FILE: lsp_settings.dfy ===
/**
 * Configuration records of the language-server catalog
 * (Swarm.Lsp/Configuration/LspServerSettings.cs and LspConfig.cs).
 */
module LspSettings {
  import opened Options

  /** Where to download a server for one runtime identifier and what to run. */
  datatype PlatformDetails = PlatformDetails(downloadUrl: string, executableRelativePath: string)

  /** One language server: its install identity, languages, platforms and launch template. */
  datatype LspServerSettings = LspServerSettings(
    serverName: string,
    version: string,
    languageIds: seq<string>,
    isEnabled: bool,
    platformSpecifics: map<string, PlatformDetails>,
    arguments: Option<string>)

  /** All configured servers, in lookup order. */
  datatype LspConfig = LspConfig(servers: seq<LspServerSettings>)

  /** `new LspServerSettings()`: the property initialisers, with `Arguments` left null. */
  function NewSettings(): LspServerSettings
  {
    LspServerSettings("", "", [], true, map[], None)
  }

  /** `new LspConfig()`: no servers. */
  function NewConfig(): LspConfig
  {
    LspConfig([])
  }
}

=== FILE: main_window.dfy ===
/**
 * The tab state of the main window (Swarm.Editor/ViewModels/MainWindowViewModel.cs):
 * the tab list, the active tab, the editor text and the current path.
 * Tabs are objects compared by reference in the source; here each tab
 * object has an identity `TabId` and lives in `store`, so that a tab that
 * left the list (the placeholder, a closed tab) still exists as an object.
 */
module MainWindow {
  import opened Options
  import opened FileSystems
  import opened DocumentTabs

  type TabId = nat

  datatype Window = Window(
    store: map<TabId, Tab>,
    tabs: seq<TabId>,
    active: TabId,
    editorText: string,
    currentFilePath: string,
    nextId: TabId)

  /** Every referenced tab exists, the list has no repeats, fresh identities are unused. */
  predicate Valid(w: Window)
  {
    && w.active in w.store
    && (forall i :: 0 <= i < |w.tabs| ==> w.tabs[i] in w.store)
    && (forall i, j :: 0 <= i < j < |w.tabs| ==> w.tabs[i] != w.tabs[j])
    && (forall id :: id in w.store ==> id < w.nextId)
  }

  /** No two tabs in the list hold the same non-empty path. */
  predicate DistinctPaths(w: Window)
    requires Valid(w)
  {
    forall i, j :: 0 <= i < j < |w.tabs| && w.store[w.tabs[i]].filePath != "" ==>
      w.store[w.tabs[i]].filePath != w.store[w.tabs[j]].filePath
  }

  function ActiveTab(w: Window): Tab
    requires Valid(w)
  {
    w.store[w.active]
  }

  /** The constructor: no tabs, an active "InitialEmpty" placeholder marked active, empty editor. */
  function NewWindow(): (w: Window)
    ensures Valid(w) && DistinctPaths(w)
    ensures |w.tabs| == 0 && ActiveTab(w) == OpenTab(Some(""), Some(""), Some("InitialEmpty")).(isActive := true)
    ensures Loaded(w) && w.editorText == "" && w.currentFilePath == ""
  {
    var placeholder := OpenTab(Some(""), Some(""), Some("InitialEmpty"));
    Window(map[0 := placeholder.(isActive := true)], [], 0, placeholder.content, placeholder.filePath, 1)
  }

  /** Allocates a new tab object. */
  function Allocate(w: Window, t: Tab): (r: (Window, TabId))
    requires Valid(w)
    ensures Valid(r.0) && r.1 !in w.store && r.0.store == w.store[r.1 := t]
    ensures r.0.tabs == w.tabs && r.0.active == w.active && r.0.editorText == w.editorText
    ensures r.0.currentFilePath == w.currentFilePath
  {
    (w.(store := w.store[w.nextId := t], nextId := w.nextId + 1), w.nextId)
  }

  /** Every tab object of `w` still exists in `r` and keeps its path. */
  predicate KeepsPaths(w: Window, r: Window)
  {
    forall id :: id in w.store ==> id in r.store && r.store[id].filePath == w.store[id].filePath
  }

  /** The editor shows the active tab, which is flagged active. */
  predicate Loaded(w: Window)
    requires Valid(w)
  {
    w.editorText == ActiveTab(w).content && w.currentFilePath == ActiveTab(w).filePath && ActiveTab(w).isActive
  }

  /** The outgoing tab keeps the editor text only when it has a path. */
  function SaveOutgoing(w: Window): (store: map<TabId, Tab>)
    requires Valid(w)
    ensures store.Keys == w.store.Keys
    ensures forall id :: id in w.store ==> store[id].filePath == w.store[id].filePath
    ensures forall id :: id in w.store && id != w.active ==> store[id] == w.store[id]
  {
    var out := w.store[w.active];
    if out.filePath != "" then w.store[w.active := SetContent(out, Some(w.editorText)).(isActive := false)] else w.store
  }

  /** The switch to an existing, different tab object. */
  function Switch(w: Window, incoming: TabId): (r: Window)
    requires Valid(w) && incoming in w.store && incoming != w.active
    ensures Valid(r) && r.active == incoming && r.tabs == w.tabs && r.nextId == w.nextId
    ensures r.store.Keys == w.store.Keys && KeepsPaths(w, r)
    ensures r.store[incoming] == w.store[incoming].(isActive := true) && Loaded(r)
    ensures r.store[w.active] == SaveOutgoing(w)[w.active]
    ensures forall id :: id in w.store && id != incoming && id != w.active ==> r.store[id] == w.store[id]
  {
    var saved := SaveOutgoing(w);
    var inc := saved[incoming];
    w.(store := saved[incoming := inc.(isActive := true)], active := incoming,
       editorText := inc.content, currentFilePath := inc.filePath)
  }

  /**
   * The `ActiveDocument` setter: null is replaced by a new empty tab; the
   * same object is a no-op; otherwise the outgoing tab takes the editor
   * text (which marks it modified) and is marked inactive only when it has
   * a path, and the incoming tab is loaded and marked active.
   */
  function SetActive(w: Window, value: Option<TabId>): (r: Window)
    requires Valid(w) && (value.Some? ==> value.value in w.store)
    ensures Valid(r) && r.tabs == w.tabs && KeepsPaths(w, r)
    ensures value == Some(w.active) ==> r == w
    ensures value.Some? && value.value != w.active ==> r == Switch(w, value.value)
    ensures value.None? ==> r.active !in w.store && ActiveTab(r).displayName == Untitled
                             && ActiveTab(r).filePath == "" && ActiveTab(r).content == ""
    ensures (value.Some? && value.value != w.active) || value.None? ==> Loaded(r)
  {
    match value
    case None => SwitchToNew(w, OpenTab(Some(""), Some(""), None))
    case Some(id) => if id == w.active then w else Switch(w, id)
  }

  /** Allocates `t` and switches to it, without adding it to the list. */
  function SwitchToNew(w: Window, t: Tab): (r: Window)
    requires Valid(w)
    ensures Valid(r) && r.tabs == w.tabs && KeepsPaths(w, r) && Loaded(r)
    ensures r.active !in w.store && ActiveTab(r) == t.(isActive := true)
  {
    var p := Allocate(w, t);
    Switch(p.0, p.1)
  }

  /** Paths of the listed tabs carry over when the list and the paths are kept. */
  lemma KeepsDistinctPaths(w: Window, r: Window)
    requires Valid(w) && Valid(r) && r.tabs == w.tabs && KeepsPaths(w, r)
    ensures DistinctPaths(w) ==> DistinctPaths(r)
  {
  }

  /** Allocates `t`, appends it to the list and switches to it. */
  function AppendAndSwitch(w: Window, t: Tab): (r: Window)
    requires Valid(w)
    ensures Valid(r) && KeepsPaths(w, r) && Loaded(r)
    ensures r.tabs == w.tabs + [r.active] && r.active !in w.store && ActiveTab(r) == t.(isActive := true)
    ensures DistinctPaths(w) && (t.filePath == "" || forall i :: 0 <= i < |w.tabs| ==> w.store[w.tabs[i]].filePath != t.filePath)
            ==> DistinctPaths(r)
  {
    var p := Allocate(w, t);
    var appended := p.0.(tabs := p.0.tabs + [p.1]);
    assert Valid(appended) by {
      assert forall i :: 0 <= i < |w.tabs| ==> appended.tabs[i] == w.tabs[i];
    }
    assert KeepsPaths(w, appended);
    var r := Switch(appended, p.1);
    AppendedPathsDistinct(w, t, appended, p.1);
    KeepsDistinctPaths(appended, r);
    r
  }

  /** Appending a tab whose path is empty or new keeps the listed paths distinct. */
  lemma AppendedPathsDistinct(w: Window, t: Tab, appended: Window, id: TabId)
    requires Valid(w) && Valid(appended) && id !in w.store
    requires appended.tabs == w.tabs + [id] && appended.store == w.store[id := t]
    ensures DistinctPaths(w) && (t.filePath == "" || forall i :: 0 <= i < |w.tabs| ==> w.store[w.tabs[i]].filePath != t.filePath)
            ==> DistinctPaths(appended)
  {
    if DistinctPaths(w) && (t.filePath == "" || forall i :: 0 <= i < |w.tabs| ==> w.store[w.tabs[i]].filePath != t.filePath) {
      forall i, j | 0 <= i < j < |appended.tabs| && appended.store[appended.tabs[i]].filePath != ""
        ensures appended.store[appended.tabs[i]].filePath != appended.store[appended.tabs[j]].filePath
      {
        assert appended.tabs[i] == w.tabs[i] && appended.store[w.tabs[i]] == w.store[w.tabs[i]];
        if j < |w.tabs| {
          assert appended.tabs[j] == w.tabs[j] && appended.store[w.tabs[j]] == w.store[w.tabs[j]];
        } else {
          assert appended.tabs[j] == id;
        }
      }
    }
  }

  /**
   * `CreateNewDocument`: counts tabs whose path is null, which is always 0
   * because the setter normalises null, so the name is always "Untitled";
   * the tab is appended and activated.
   */
  function CreateNewDocument(w: Window): (r: Window)
    requires Valid(w)
    ensures Valid(r) && KeepsPaths(w, r) && Loaded(r)
    ensures r.tabs == w.tabs + [r.active] && r.active !in w.store
    ensures ActiveTab(r) == OpenTab(None, Some(""), Some(Untitled)).(isActive := true)
    ensures r.editorText == "" && r.currentFilePath == ""
    ensures DistinctPaths(w) ==> DistinctPaths(r)
  {
    AppendAndSwitch(w, OpenTab(None, Some(""), Some(Untitled)))
  }

  /** `CanSaveFile`: the active tab has a path. */
  predicate CanSaveFile(w: Window)
    requires Valid(w)
  {
    ActiveTab(w).filePath != ""
  }

  /** Position of a tab object in the list. */
  function IndexOf(tabs: seq<TabId>, id: TabId): (k: int)
    ensures -1 <= k < |tabs|
    ensures k >= 0 ==> tabs[k] == id && forall i :: 0 <= i < k ==> tabs[i] != id
    ensures k < 0 ==> id !in tabs
  {
    if |tabs| == 0 then -1
    else if tabs[0] == id then 0
    else
      var k := IndexOf(tabs[1..], id);
      if k < 0 then -1 else k + 1
  }

  function Max(a: int, b: int): int
  {
    if a >= b then a else b
  }

  /** The list without position `k`. */
  function RemoveAt(tabs: seq<TabId>, k: nat): (r: seq<TabId>)
    requires k < |tabs|
    ensures |r| == |tabs| - 1
    ensures forall i :: 0 <= i < |r| ==> r[i] == if i < k then tabs[i] else tabs[i + 1]
  {
    tabs[..k] + tabs[k + 1..]
  }

  /** Removing a listed tab keeps the window valid and its paths distinct. */
  lemma RemovalKeepsInvariants(w: Window, k: nat)
    requires Valid(w) && k < |w.tabs|
    ensures Valid(w.(tabs := RemoveAt(w.tabs, k)))
    ensures w.tabs[k] !in RemoveAt(w.tabs, k)
    ensures DistinctPaths(w) ==> DistinctPaths(w.(tabs := RemoveAt(w.tabs, k)))
  {
    RemoveAtKeepsDistinct(w.tabs, k);
    if DistinctPaths(w) {
      RemoveAtKeepsPaths(w, k);
    }
  }

  /** Removing a position from a list without repeats leaves no repeats and drops that element. */
  lemma RemoveAtKeepsDistinct(xs: seq<TabId>, k: nat)
    requires k < |xs| && forall i, j :: 0 <= i < j < |xs| ==> xs[i] != xs[j]
    ensures var r := RemoveAt(xs, k);
            (forall i, j :: 0 <= i < j < |r| ==> r[i] != r[j]) && xs[k] !in r
            && forall i :: 0 <= i < |r| ==> r[i] in xs
  {
    var r := RemoveAt(xs, k);
    forall i, j | 0 <= i < j < |r|
      ensures r[i] != r[j]
    {
      var i' := if i < k then i else i + 1;
      var j' := if j < k then j else j + 1;
      assert r[i] == xs[i'] && r[j] == xs[j'];
      assert 0 <= i' < j' < |xs|;
    }
    forall i | 0 <= i < |r|
      ensures r[i] != xs[k] && r[i] in xs
    {
      var i' := if i < k then i else i + 1;
      assert r[i] == xs[i'] && i' != k;
    }
  }

  /** Removing a position keeps the remaining paths distinct. */
  lemma RemoveAtKeepsPaths(w: Window, k: nat)
    requires Valid(w) && DistinctPaths(w) && k < |w.tabs|
    ensures var r := RemoveAt(w.tabs, k);
            forall i, j :: 0 <= i < j < |r| && w.store[r[i]].filePath != "" ==>
              w.store[r[i]].filePath != w.store[r[j]].filePath
  {
    var r := RemoveAt(w.tabs, k);
    forall i, j | 0 <= i < j < |r| && w.store[r[i]].filePath != ""
      ensures w.store[r[i]].filePath != w.store[r[j]].filePath
    {
      var i' := if i < k then i else i + 1;
      var j' := if j < k then j else j + 1;
      assert r[i] == w.tabs[i'] && r[j] == w.tabs[j'];
      assert 0 <= i' < j' < |w.tabs|;
    }
  }

  /**
   * `CloseDocument(document)`: null or a tab not in the list changes
   * nothing. Otherwise the tab is removed; if it was active, the tab just
   * before it (or the new first tab) becomes active, or, when none is
   * left, a fresh "InitialEmpty" placeholder with an empty editor.
   */
  function CloseDocument(w: Window, document: Option<TabId>): (r: Window)
    requires Valid(w)
    ensures Valid(r) && KeepsPaths(w, r)
    ensures document.None? || document.value !in w.tabs ==> r == w
    ensures document.Some? && document.value in w.tabs ==>
              r.tabs == RemoveAt(w.tabs, IndexOf(w.tabs, document.value))
    ensures document.Some? && document.value in w.tabs && document.value != w.active ==>
              r == w.(tabs := r.tabs)
    ensures document == Some(w.active) && w.active in w.tabs && |w.tabs| > 1 ==>
              r.active == r.tabs[Max(0, IndexOf(w.tabs, w.active) - 1)] && Loaded(r)
    ensures document == Some(w.active) && w.active in w.tabs && |w.tabs| == 1 ==>
              r.tabs == [] && r.active !in w.store && ActiveTab(r).displayName == "InitialEmpty"
              && r.editorText == "" && r.currentFilePath == "" && Loaded(r)
    ensures DistinctPaths(w) ==> DistinctPaths(r)
  {
    if document.None? || document.value !in w.tabs then w
    else
      var doc := document.value;
      var k := IndexOf(w.tabs, doc);
      RemovalKeepsInvariants(w, k);
      var removed := w.(tabs := RemoveAt(w.tabs, k));
      assert KeepsPaths(w, removed);
      if doc != w.active then removed
      else
        assert removed.active !in removed.tabs;
        Reactivate(removed, k)
  }

  /**
   * After the active tab at position `k` was removed: the tab before it
   * (or the first) becomes active, or a fresh "InitialEmpty" placeholder
   * when the list is empty.
   */
  function Reactivate(w: Window, k: nat): (r: Window)
    requires Valid(w) && k <= |w.tabs| && w.active !in w.tabs
    ensures Valid(r) && r.tabs == w.tabs && KeepsPaths(w, r) && Loaded(r)
    ensures |w.tabs| > 0 ==> r.active == w.tabs[Max(0, k - 1)]
    ensures |w.tabs| == 0 ==> r.active !in w.store && ActiveTab(r).displayName == "InitialEmpty"
                              && r.editorText == "" && r.currentFilePath == ""
    ensures DistinctPaths(w) ==> DistinctPaths(r)
  {
    if |w.tabs| > 0 then
      var r := SetActive(w, Some(w.tabs[Max(0, k - 1)]));
      KeepsDistinctPaths(w, r);
      r
    else
      SwitchToNew(w, OpenTab(Some(""), Some(""), Some("InitialEmpty")))
  }

  /** What reading the file produced. */
  datatype ReadOutcome = ReadThrew | ReadNull | ReadText(text: string)

  /** First tab in list order whose path is exactly `path`. */
  function FindTabByPath(w: Window, path: string): (r: Option<nat>)
    requires Valid(w)
    ensures r.Some? ==> r.value < |w.tabs| && w.store[w.tabs[r.value]].filePath == path
    ensures r.Some? ==> forall i :: 0 <= i < r.value ==> w.store[w.tabs[i]].filePath != path
    ensures r.None? <==> forall i :: 0 <= i < |w.tabs| ==> w.store[w.tabs[i]].filePath != path
  {
    FindTabFrom(w, path, 0)
  }

  function FindTabFrom(w: Window, path: string, i: nat): (r: Option<nat>)
    requires Valid(w) && i <= |w.tabs|
    ensures r.Some? ==> i <= r.value < |w.tabs| && w.store[w.tabs[r.value]].filePath == path
    ensures r.Some? ==> forall j :: i <= j < r.value ==> w.store[w.tabs[j]].filePath != path
    ensures r.None? ==> forall j :: i <= j < |w.tabs| ==> w.store[w.tabs[j]].filePath != path
    decreases |w.tabs| - i
  {
    if i == |w.tabs| then None
    else if w.store[w.tabs[i]].filePath == path then Some(i)
    else FindTabFrom(w, path, i + 1)
  }

  /**
   * `OpenFileAsync(filePath)`: nothing for an empty path, a missing file,
   * a failed read or a null result; an already open path (exact string
   * comparison) is only activated; otherwise one tab is appended and
   * activated.
   */
  function OpenFile(w: Window, disk: Disk, filePath: string, read: ReadOutcome): (r: Window)
    requires Valid(w)
    ensures Valid(r) && KeepsPaths(w, r)
    ensures filePath == "" || filePath !in disk.files ==> r == w
    ensures filePath != "" && filePath in disk.files && FindTabByPath(w, filePath).Some? ==>
              r.tabs == w.tabs && r.active == w.tabs[FindTabByPath(w, filePath).value]
    ensures filePath != "" && filePath in disk.files && FindTabByPath(w, filePath).None? && !read.ReadText? ==> r == w
    ensures filePath != "" && filePath in disk.files && FindTabByPath(w, filePath).None? && read.ReadText? ==>
              r.tabs == w.tabs + [r.active] && r.active !in w.store
              && ActiveTab(r) == OpenTab(Some(filePath), Some(read.text), None).(isActive := true)
              && r.editorText == read.text && r.currentFilePath == filePath
    ensures DistinctPaths(w) ==> DistinctPaths(r)
  {
    if filePath == "" || filePath !in disk.files then w
    else
      match FindTabByPath(w, filePath)
      case Some(i) =>
        var r := SetActive(w, Some(w.tabs[i]));
        KeepsDistinctPaths(w, r);
        r
      case None =>
        match read
        case ReadThrew => w
        case ReadNull => w
        case ReadText(text) => AppendAndSwitch(w, OpenTab(Some(filePath), Some(text), None))
  }

  /** `HandleFileOpenRequestedAsync`: a null event or an empty path is ignored, anything else is opened. */
  function HandleFileOpenRequested(w: Window, disk: Disk, requestedPath: Option<string>, read: ReadOutcome): (r: Window)
    requires Valid(w)
    ensures Valid(r)
    ensures requestedPath.None? ==> r == w
    ensures requestedPath.Some? ==> r == OpenFile(w, disk, requestedPath.value, read)
  {
    match requestedPath
    case None => w
    case Some(p) => if p == "" then w else OpenFile(w, disk, p, read)
  }

  /** Opening the same file twice yields one tab: the second open only activates it. */
  lemma OpenTwiceAddsOneTab(w: Window, disk: Disk, filePath: string, first: ReadOutcome, second: ReadOutcome)
    requires Valid(w) && filePath != "" && filePath in disk.files
    requires FindTabByPath(w, filePath).None? && first.ReadText?
    ensures var once := OpenFile(w, disk, filePath, first);
            var twice := OpenFile(once, disk, filePath, second);
            twice.tabs == once.tabs && twice.active == once.active && |twice.tabs| == |w.tabs| + 1
  {
    var once := OpenFile(w, disk, filePath, first);
    FindAppended(w, once, filePath);
  }

  /** A tab appended with a path no listed tab had is what a search for that path finds. */
  lemma FindAppended(w: Window, r: Window, path: string)
    requires Valid(w) && Valid(r) && KeepsPaths(w, r) && r.tabs == w.tabs + [r.active]
    requires FindTabByPath(w, path).None? && ActiveTab(r).filePath == path
    ensures FindTabByPath(r, path) == Some(|w.tabs|)
  {
    var n := |w.tabs|;
    assert r.tabs[n] == r.active;
    forall i | 0 <= i < n
      ensures r.store[r.tabs[i]].filePath != path
    {
      assert r.tabs[i] == w.tabs[i] && w.tabs[i] in w.store;
    }
  }

  /** A freshly opened file can be saved; a new untitled document cannot. */
  lemma SaveAvailability(w: Window, disk: Disk, filePath: string, text: string)
    requires Valid(w) && filePath != "" && filePath in disk.files && FindTabByPath(w, filePath).None?
    ensures CanSaveFile(OpenFile(w, disk, filePath, ReadText(text)))
    ensures !CanSaveFile(CreateNewDocument(w))
  {
  }

  /**
   * Leaving a file-backed tab stores the editor text into it and marks it
   * modified, even when the text was not edited.
   */
  lemma SwitchingAwayMarksModified(w: Window, other: TabId)
    requires Valid(w) && other in w.store && other != w.active
    requires ActiveTab(w).filePath != "" && w.editorText == ActiveTab(w).content && !ActiveTab(w).isModified
    ensures var r := SetActive(w, Some(other));
            r.store[w.active].isModified && r.store[w.active].content == ActiveTab(w).content
            && !r.store[w.active].isActive
  {
  }

  /** An untitled tab that is switched away from keeps its active flag. */
  lemma UntitledTabStaysFlaggedActive(w: Window, other: TabId)
    requires Valid(w) && other in w.store && other != w.active
    requires ActiveTab(w).filePath == "" && ActiveTab(w).isActive
    ensures var r := SetActive(w, Some(other));
            r.store[w.active].isActive && r.store[other].isActive
  {
  }

  /**
   * Closing a just-created document restores the tab list, and the tab
   * that was last in the list becomes active.
   */
  lemma CreateThenCloseRestoresTabs(w: Window)
    requires Valid(w)
    ensures var c := CreateNewDocument(w);
            var r := CloseDocument(c, Some(c.active));
            r.tabs == w.tabs && (|w.tabs| > 0 ==> r.active == w.tabs[|w.tabs| - 1])
  {
    var t := OpenTab(None, Some(""), Some(Untitled));
    AppendThenCloseRestores(w, t);
  }

  /** Closing the tab just appended and activated restores the list and activates the former last tab. */
  lemma AppendThenCloseRestores(w: Window, t: Tab)
    requires Valid(w)
    ensures var c := AppendAndSwitch(w, t);
            var r := CloseDocument(c, Some(c.active));
            r.tabs == w.tabs && (|w.tabs| > 0 ==> r.active == w.tabs[|w.tabs| - 1])
  {
    var c := AppendAndSwitch(w, t);
    CloseLastActive(c, w.tabs);
  }

  /** Closing the active tab when it is last in the list activates the one before it. */
  lemma CloseLastActive(c: Window, xs: seq<TabId>)
    requires Valid(c) && c.tabs == xs + [c.active]
    ensures var r := CloseDocument(c, Some(c.active));
            r.tabs == xs && (|xs| > 0 ==> r.active == xs[|xs| - 1])
  {
    var n := |xs|;
    assert c.active !in xs by {
      assert forall i :: 0 <= i < n ==> xs[i] == c.tabs[i] && c.tabs[i] != c.tabs[n];
    }
    IndexOfLast(xs, c.active);
    RemoveLast(xs, c.active);
  }

  /** An identity absent from a list is found at the position it is appended at. */
  lemma IndexOfLast(xs: seq<TabId>, x: TabId)
    requires x !in xs
    ensures IndexOf(xs + [x], x) == |xs|
  {
    assert (xs + [x])[|xs|] == x;
    assert forall i :: 0 <= i < |xs| ==> (xs + [x])[i] == xs[i];
  }

  /** Removing the last position gives the list back. */
  lemma RemoveLast(xs: seq<TabId>, x: TabId)
    ensures RemoveAt(xs + [x], |xs|) == xs
  {
    assert (xs + [x])[..|xs|] == xs;
  }
}

=== FILE: markers.dfy ===
/**
 * The breakpoint margin of the code editor
 * (Swarm.Editor/Views/CodeEditor/MarkersMargin.cs): a set of line numbers
 * toggled by a click, and the margin's fixed size. What lies under the
 * pointer is passed in, since it comes from the text view's layout.
 */
module Markers {

  const MarginWidth: int := 24

  datatype Margin = Margin(breakpoints: set<int>)

  /** What a click finds: no text view or document, no visual line at that height, or the first document line of one. */
  datatype Hit = NoDocument | NoVisualLine | OnLine(lineNumber: int)

  datatype Size = Size(width: int, height: int)

  /** The constructor: no breakpoints. */
  function NewMargin(): (m: Margin)
    ensures forall line :: line !in m.breakpoints
  {
    Margin({})
  }

  /**
   * `OnPointerPressed`: a click on a line removes its breakpoint if it has
   * one and adds one otherwise, and marks the event handled; a click that
   * finds no line changes nothing and leaves the event unhandled.
   */
  function PointerPressed(m: Margin, hit: Hit): (r: (Margin, bool))
    ensures !hit.OnLine? ==> r == (m, false)
    ensures hit.OnLine? ==> r.1
    ensures hit.OnLine? ==> (hit.lineNumber in r.0.breakpoints <==> hit.lineNumber !in m.breakpoints)
    ensures hit.OnLine? ==> forall line :: line != hit.lineNumber ==> (line in r.0.breakpoints <==> line in m.breakpoints)
  {
    match hit
    case OnLine(line) =>
      var toggled := if line in m.breakpoints then m.breakpoints - {line} else m.breakpoints + {line};
      (Margin(toggled), true)
    case _ => (m, false)
  }

  /** `MeasureOverride`: always the margin width and no height, whatever space is offered. */
  function Measure(available: Size): (s: Size)
    ensures s.width == MarginWidth && s.height == 0
  {
    Size(MarginWidth, 0)
  }

  /** Clicking the same line twice restores the breakpoints. */
  lemma ToggleTwiceRestores(m: Margin, line: int)
    ensures PointerPressed(PointerPressed(m, OnLine(line)).0, OnLine(line)).0 == m
  {
    var once := PointerPressed(m, OnLine(line)).0;
    var twice := PointerPressed(once, OnLine(line)).0;
    assert twice.breakpoints == m.breakpoints;
  }

  /** Clicks are applied one after another. */
  function Clicks(m: Margin, hits: seq<Hit>): (r: Margin)
    ensures forall line :: (forall i :: 0 <= i < |hits| ==> hits[i] != OnLine(line)) ==>
              (line in r.breakpoints <==> line in m.breakpoints)
    decreases |hits|
  {
    if |hits| == 0 then m else Clicks(PointerPressed(m, hits[0]).0, hits[1..])
  }

  /** How many of the clicks landed on `line`. */
  function ClicksOn(hits: seq<Hit>, line: int): nat
    decreases |hits|
  {
    if |hits| == 0 then 0 else (if hits[0] == OnLine(line) then 1 else 0) + ClicksOn(hits[1..], line)
  }

  /** After any run of clicks a line holds a breakpoint exactly when it held one before and was clicked an even number of times, or not and an odd number. */
  lemma {:induction false} BreakpointParity(m: Margin, hits: seq<Hit>, line: int)
    ensures line in Clicks(m, hits).breakpoints <==> (line in m.breakpoints <==> ClicksOn(hits, line) % 2 == 0)
    decreases |hits|
  {
    if |hits| > 0 {
      BreakpointParity(PointerPressed(m, hits[0]).0, hits[1..], line);
    }
  }
}

=== FILE: options.dfy ===
/** Nullable values: C# `null` is `None`. */
module Options {

  datatype Option<+T> = None | Some(value: T) {

    /** The value, or `default` when absent (the C# `??` operator). */
    function OrElse(default: T): T
    {
      match this
      case Some(v) => v
      case None => default
    }
  }

  /** `string.IsNullOrEmpty`. */
  predicate IsNullOrEmpty(s: Option<string>)
  {
    s.None? || |s.value| == 0
  }
}

=== FILE: paths.dfy ===
/**
 * `System.IO.Path` as used by the editor, for one fixed directory
 * separator '/' (the Unix behaviour of .NET). Paths are plain strings so
 * that the raw-prefix tests of the session layer keep their meaning.
 * Separator normalisation (collapsing "//") is not modelled.
 */
module Paths {
  import opened Options

  const Sep: char := '/'

  /** `string.LastIndexOf(char)`: -1 when absent. */
  function LastIndexOf(s: string, c: char): (r: int)
    ensures -1 <= r < |s|
    ensures r >= 0 ==> s[r] == c
    ensures forall j :: r < j < |s| ==> s[j] != c
    decreases |s|
  {
    if |s| == 0 then -1
    else if s[|s| - 1] == c then |s| - 1
    else LastIndexOf(s[..|s| - 1], c)
  }

  /** A path that does not end in a separator has a non-empty file name. */
  lemma NonSeparatorEndHasFileName(p: string)
    ensures |p| > 0 && p[|p| - 1] != Sep ==> |GetFileName(p)| > 0
  {
  }

  /** `Path.GetFileName`: the text after the last separator. */
  function GetFileName(p: string): (r: string)
    ensures forall i :: 0 <= i < |r| ==> r[i] != Sep
    ensures |r| <= |p| && r == p[|p| - |r|..]
    ensures |r| == |p| || p[|p| - |r| - 1] == Sep
  {
    p[LastIndexOf(p, Sep) + 1..]
  }

  /** Length of the root of `p`: 1 for an absolute path, 0 otherwise. */
  function RootLength(p: string): nat
  {
    if |p| > 0 && p[0] == Sep then 1 else 0
  }

  /** Steps `end` back over separators, never into the root. */
  function TrimSeparatorsBack(p: string, end: nat, root: nat): (r: nat)
    requires root <= end <= |p|
    ensures root <= r <= end
    ensures r == root || p[r - 1] != Sep
    ensures forall i :: r <= i < end ==> p[i] == Sep
    decreases end
  {
    if end > root && p[end - 1] == Sep then TrimSeparatorsBack(p, end - 1, root) else end
  }

  /**
   * `Path.GetDirectoryName`: null for the empty path and for a bare root;
   * "" for a relative path of one segment; otherwise everything before the
   * last separator, with repeated separators there trimmed.
   */
  function GetDirectoryName(p: string): (r: Option<string>)
    ensures r.Some? ==> |r.value| < |p| && r.value <= p
    ensures r.None? <==> |p| <= RootLength(p)
    ensures r.Some? ==>
              var n := |r.value|;
              && n <= |p| - |GetFileName(p)|
              && RootLength(p) <= n && (n == RootLength(p) || p[n - 1] != Sep)
              && forall i :: n <= i < |p| - |GetFileName(p)| ==> p[i] == Sep
  {
    var root := RootLength(p);
    if |p| <= root then None
    else
      var k := LastIndexOf(p, Sep);
      var end := if k < root then root else k;
      Some(p[..TrimSeparatorsBack(p, end, root)])
  }

  /** `Path.Combine(a, b)` for two parts. */
  function Combine(a: string, b: string): string
  {
    if |b| > 0 && b[0] == Sep then b
    else if |a| == 0 then b
    else if |b| == 0 then a
    else if a[|a| - 1] == Sep then a + b
    else a + [Sep] + b
  }

  /** A single path segment: non-empty and free of separators. */
  predicate IsSegment(s: string)
  {
    |s| > 0 && forall i :: 0 <= i < |s| ==> s[i] != Sep
  }

  /** A directory in canonical form: the root, or a path not ending in a separator. */
  predicate IsDirectoryPath(d: string)
  {
    |d| > 0 && (d == [Sep] || d[|d| - 1] != Sep)
  }

  /** Joining a directory and a segment, then splitting, gives both back. */
  lemma CombineSplits(d: string, name: string)
    requires IsDirectoryPath(d) && IsSegment(name)
    ensures GetDirectoryName(Combine(d, name)) == Some(d)
    ensures GetFileName(Combine(d, name)) == name
  {
    var p := Combine(d, name);
    if d == [Sep] {
      assert p == [Sep] + name;
      assert LastIndexOf(p, Sep) == 0;
    } else {
      assert p == d + [Sep] + name;
      assert p[|d|] == Sep;
      assert LastIndexOf(p, Sep) == |d|;
      assert p[..|d|] == d;
    }
  }

  /** `p` is `dir` itself or lies below it. */
  predicate IsUnder(p: string, dir: string)
  {
    p == dir || dir + [Sep] <= p
  }

  /** The file name is the one separator-free tail that starts at the beginning or right after a separator. */
  lemma FileNameIsLastSegment(p: string, t: string)
    requires |t| <= |p| && t == p[|p| - |t|..]
    requires forall i :: 0 <= i < |t| ==> t[i] != Sep
    requires |t| == |p| || p[|p| - |t| - 1] == Sep
    ensures t == GetFileName(p)
  {
  }

  /** `TrimEnd` keeps exactly the prefix that does not end in a separator and is followed only by separators. */
  lemma TrimEndIsLongestUntrimmed(p: string, t: string)
    requires t <= p && (|t| == 0 || t[|t| - 1] != Sep)
    requires forall i :: |t| <= i < |p| ==> p[i] == Sep
    ensures t == TrimEndSeparators(p)
  {
  }

  /** Trimming a path that ends in a non-separator, padded with separators, gives the path back. */
  lemma {:induction false} TrimEndSeparatorsOfPadded(p: string, trailing: nat)
    requires |p| == 0 || p[|p| - 1] != Sep
    ensures TrimEndSeparators(p + seq(trailing, _ => Sep)) == p
    decreases trailing
  {
    var q := p + seq(trailing, _ => Sep);
    if trailing == 0 {
      assert q == p;
    } else {
      assert q[|q| - 1] == Sep;
      assert q[..|q| - 1] == p + seq(trailing - 1, _ => Sep);
      TrimEndSeparatorsOfPadded(p, trailing - 1);
    }
  }

  /** `string.TrimEnd(Sep)`. */
  function TrimEndSeparators(p: string): (r: string)
    ensures r <= p
    ensures |r| == 0 || r[|r| - 1] != Sep
    ensures forall i :: |r| <= i < |p| ==> p[i] == Sep
    decreases |p|
  {
    if |p| > 0 && p[|p| - 1] == Sep then TrimEndSeparators(p[..|p| - 1]) else p
  }
}

=== FILE: svg_cli.dfy ===
/**
 * The SVG-to-PNG command-line tool (Swarm.Shared/Tools/SvgToPngConverter/Program.cs):
 * the argument loop and the exit-code decisions of `Main`. Whether the
 * input file exists comes from a `Disk`; how far loading, rendering and
 * writing the image get is an oracle over the parsed settings.
 */
module SvgToPng {
  import opened Options
  import opened Text
  import opened FileSystems

  datatype Settings = Settings(input: Option<string>, output: Option<string>, width: Int32, height: Int32)

  /** No input, no output, a 24 by 24 image. */
  const Defaults: Settings := Settings(None, None, 24, 24)

  /** An exception thrown while parsing, outside the `try`, so it ends the process. */
  datatype Crash = IndexOutOfRange | Format | Overflow

  datatype Parse = Parsed(settings: Settings) | ParseCrashed(crash: Crash)

  /** The process outcome: an exit code, or an unhandled exception. */
  datatype Outcome = Exited(code: int) | Crashed(crash: Crash)

  /**
   * How far the conversion inside the `try` got: it failed before the
   * output file was opened (loading, drawing, encoding, or `File.OpenWrite`
   * itself), it failed while saving into the opened file, which
   * `File.OpenWrite` has already created, or it completed.
   */
  datatype Conversion = FailedBeforeOpen | FailedWhileSaving | Converted

  /** The four flags, matched with ordinal case; each consumes the next argument. */
  predicate TakesValue(arg: string)
  {
    arg == "--input" || arg == "--output" || arg == "--width" || arg == "--height"
  }

  /**
   * The argument loop over what is left of the arguments: a flag takes
   * the next argument as its value without looking at it, a later flag
   * overwrites an earlier one, anything else is skipped.
   */
  function ParseArgs(args: seq<string>, s: Settings): (r: Parse)
    ensures r.ParseCrashed? && r.crash == IndexOutOfRange ==> |args| > 0 && TakesValue(args[|args| - 1])
    ensures r.Parsed? && r.settings.input != s.input ==> exists i :: 0 <= i < |args| && args[i] == "--input"
    ensures r.Parsed? && r.settings.output != s.output ==> exists i :: 0 <= i < |args| && args[i] == "--output"
    decreases |args|
  {
    if |args| == 0 then Parsed(s)
    else if !TakesValue(args[0]) then ParseArgs(args[1..], s)
    else if |args| == 1 then ParseCrashed(IndexOutOfRange)
    else
      var flag, value, rest := args[0], args[1], args[2..];
      assert forall i :: 0 <= i < |rest| ==> rest[i] == args[i + 2];
      if flag == "--input" then ParseArgs(rest, s.(input := Some(value)))
      else if flag == "--output" then ParseArgs(rest, s.(output := Some(value)))
      else
        match ParseInt32(value)
        case ParsedInt(n) => ParseArgs(rest, if flag == "--width" then s.(width := n) else s.(height := n))
        case FormatError => ParseCrashed(Format)
        case OverflowError => ParseCrashed(Overflow)
  }

  /** The loop of `Main` as written, with one index advanced once more by each flag. */
  method ParseCommandLine(args: seq<string>) returns (r: Parse)
    ensures r == ParseArgs(args, Defaults)
  {
    var s := Defaults;
    var i := 0;
    while i < |args|
      invariant 0 <= i <= |args|
      invariant ParseArgs(args[i..], s) == ParseArgs(args, Defaults)
      decreases |args| - i
    {
      var arg := args[i];
      assert args[i..][0] == arg;
      if TakesValue(arg) {
        if i + 1 == |args| {
          return ParseCrashed(IndexOutOfRange);
        }
        assert args[i..][1] == args[i + 1] && args[i..][2..] == args[i + 2..];
        i := i + 1;
        if arg == "--input" {
          s := s.(input := Some(args[i]));
        } else if arg == "--output" {
          s := s.(output := Some(args[i]));
        } else {
          var n := ParseInt32(args[i]);
          if n.FormatError? {
            return ParseCrashed(Format);
          } else if n.OverflowError? {
            return ParseCrashed(Overflow);
          }
          if arg == "--width" {
            s := s.(width := n.value);
          } else {
            s := s.(height := n.value);
          }
        }
      } else {
        assert args[i..][1..] == args[i + 1..];
      }
      i := i + 1;
    }
    return Parsed(s);
  }

  /**
   * `Main`: a parse exception escapes; a missing or empty input or output
   * exits with 1 before any file is looked at; a missing input file with
   * 2; a failure inside the `try` with 3; otherwise 0. The output file
   * exists afterwards exactly when the conversion got as far as opening it.
   */
  function Run(args: seq<string>, disk: Disk, convert: Settings -> Conversion): (r: (Outcome, Disk))
    ensures ParseArgs(args, Defaults).ParseCrashed? <==> r.0.Crashed?
    ensures r.0.Crashed? ==> r.0.crash == ParseArgs(args, Defaults).crash
    ensures r.0 == Exited(1) <==>
              ParseArgs(args, Defaults).Parsed?
              && (IsNullOrEmpty(ParseArgs(args, Defaults).settings.input) || IsNullOrEmpty(ParseArgs(args, Defaults).settings.output))
    ensures r.0 == Exited(2) <==>
              var p := ParseArgs(args, Defaults);
              p.Parsed? && !IsNullOrEmpty(p.settings.input) && !IsNullOrEmpty(p.settings.output)
              && p.settings.input.value !in disk.files
    ensures r.0 == Exited(3) ==> !convert(ParseArgs(args, Defaults).settings).Converted?
    ensures r.0 == Exited(0) ==>
              var s := ParseArgs(args, Defaults).settings;
              s.input.value in disk.files && convert(s).Converted?
    // the disk changes only by the output file, once the conversion has opened it
    ensures (r.0 == Exited(0) || r.0 == Exited(3)) && !convert(ParseArgs(args, Defaults).settings).FailedBeforeOpen? ==>
              r.1 == disk.(files := disk.files + {ParseArgs(args, Defaults).settings.output.value})
    ensures !(r.0 == Exited(0) || r.0 == Exited(3)) || convert(ParseArgs(args, Defaults).settings).FailedBeforeOpen? ==>
              r.1 == disk
    ensures r.0.Exited? ==> r.0.code in {0, 1, 2, 3}
  {
    match ParseArgs(args, Defaults)
    case ParseCrashed(crash) => (Crashed(crash), disk)
    case Parsed(s) =>
      if IsNullOrEmpty(s.input) || IsNullOrEmpty(s.output) then (Exited(1), disk)
      else if s.input.value !in disk.files then (Exited(2), disk)
      else
        var written := disk.(files := disk.files + {s.output.value});
        match convert(s)
        case FailedBeforeOpen => (Exited(3), disk)
        case FailedWhileSaving => (Exited(3), written)
        case Converted => (Exited(0), written)
  }

  /** Parsing one run of arguments after another, when the first ends cleanly. */
  lemma {:induction false} ParseConcat(a: seq<string>, b: seq<string>, s: Settings)
    requires ParseArgs(a, s).Parsed?
    ensures ParseArgs(a + b, s) == ParseArgs(b, ParseArgs(a, s).settings)
    decreases |a|
  {
    if |a| > 0 {
      assert (a + b)[0] == a[0];
      if !TakesValue(a[0]) {
        assert (a + b)[1..] == a[1..] + b;
        ParseConcat(a[1..], b, s);
      } else {
        assert (a + b)[1] == a[1] && (a + b)[2..] == a[2..] + b;
        var s' := if a[0] == "--input" then s.(input := Some(a[1]))
                  else if a[0] == "--output" then s.(output := Some(a[1]))
                  else if a[0] == "--width" then s.(width := ParseInt32(a[1]).value)
                  else s.(height := ParseInt32(a[1]).value);
        ParseConcat(a[2..], b, s');
      }
    } else {
      assert a + b == b;
    }
  }

  /** For a repeated flag the last occurrence wins. */
  lemma LastOccurrenceWins(a: seq<string>, s: Settings, input: string, output: string, width: nat)
    requires ParseArgs(a, s).Parsed? && width < 0x8000_0000
    ensures var r := ParseArgs(a + ["--input", input, "--output", output, "--width", NatToString(width)], s);
            r.Parsed? && r.settings.input == Some(input) && r.settings.output == Some(output) && r.settings.width == width
            && r.settings.height == ParseArgs(a, s).settings.height
  {
    ParseInt32RoundTrip(width);
    var w := NatToString(width);
    var tail := ["--input", input, "--output", output, "--width", w];
    ParseConcat(a, tail, s);
    var s0 := ParseArgs(a, s).settings;
    var s1 := s0.(input := Some(input));
    var s2 := s1.(output := Some(output));
    assert tail[2..] == ["--output", output, "--width", w];
    assert tail[2..][2..] == ["--width", w];
    assert ParseArgs(["--width", w], s2) == Parsed(s2.(width := width)) by {
      assert ["--width", w][2..] == [];
    }
  }

  /** Arguments with none of the four flags leave the settings as they were, whatever they are. */
  lemma {:induction false} OtherArgumentsIgnored(args: seq<string>, s: Settings)
    requires forall i :: 0 <= i < |args| ==> !TakesValue(args[i])
    ensures ParseArgs(args, s) == Parsed(s)
    decreases |args|
  {
    if |args| > 0 {
      OtherArgumentsIgnored(args[1..], s);
    }
  }

  /** A flag's value is never read as a flag, and flags are case-sensitive. */
  lemma ValuesAreNotFlags()
    ensures ParseArgs(["--input", "--output"], Defaults) == Parsed(Defaults.(input := Some("--output")))
    ensures ParseArgs(["--INPUT", "a.svg"], Defaults) == Parsed(Defaults)
  {
    OtherArgumentsIgnored(["a.svg"], Defaults);
  }

  /** A value-taking flag in last position ends the process with an index exception. */
  lemma TrailingFlagCrashes(disk: Disk, convert: Settings -> Conversion)
    ensures Run(["--input", "a.svg", "--width"], disk, convert).0 == Crashed(IndexOutOfRange)
  {
    var args := ["--input", "a.svg", "--width"];
    assert args[2..] == ["--width"];
  }

  /** A size that is not a number ends the process with a format exception. */
  lemma MalformedSizeCrashes(value: string, disk: Disk, convert: Settings -> Conversion)
    requires forall i :: 0 <= i < |value| ==> !IsDigit(value[i])
    ensures Run(["--width", value], disk, convert).0 == Crashed(Format)
    ensures Run(["--height", value], disk, convert).0 == Crashed(Format)
  {
    NoDigitsNoNumber(value);
    SizeErrorCrashes(value, disk, convert);
  }

  /** A size beyond the 32-bit range ends the process with an overflow exception. */
  lemma HugeSizeCrashes(n: nat, disk: Disk, convert: Settings -> Conversion)
    requires n >= 0x8000_0000
    ensures Run(["--width", NatToString(n)], disk, convert).0 == Crashed(Overflow)
    ensures Run(["--height", NatToString(n)], disk, convert).0 == Crashed(Overflow)
  {
    ParseInt32RoundTrip(n);
    SizeErrorCrashes(NatToString(n), disk, convert);
  }

  /** Whatever `int.Parse` rejects as a size escapes as the matching exception. */
  lemma SizeErrorCrashes(value: string, disk: Disk, convert: Settings -> Conversion)
    requires !ParseInt32(value).ParsedInt?
    ensures var crash := if ParseInt32(value).FormatError? then Format else Overflow;
            Run(["--width", value], disk, convert).0 == Crashed(crash)
            && Run(["--height", value], disk, convert).0 == Crashed(crash)
  {
    assert ["--width", value][1] == value && ["--height", value][1] == value;
  }

  /** The usage error comes before any file check: it does not depend on the disk or the renderer. */
  lemma UsageErrorIgnoresDisk(args: seq<string>, d1: Disk, d2: Disk, c1: Settings -> Conversion, c2: Settings -> Conversion)
    requires Run(args, d1, c1).0 == Exited(1)
    ensures Run(args, d2, c2).0 == Exited(1)
  {
  }

  /** With no arguments the tool prints its usage and the image would be 24 by 24. */
  lemma NoArgumentsIsUsage(disk: Disk, convert: Settings -> Conversion)
    ensures Run([], disk, convert).0 == Exited(1)
    ensures ParseArgs([], Defaults).settings.width == 24 && ParseArgs([], Defaults).settings.height == 24
  {
  }

  /**
   * A full command line over an existing input exits 0 exactly when the
   * conversion completes and 3 otherwise, and leaves the output file behind
   * whenever the conversion got as far as opening it, failure or not.
   */
  lemma ConvertsExistingInput(input: string, output: string, disk: Disk, convert: Settings -> Conversion)
    requires |input| > 0 && |output| > 0 && input in disk.files
    ensures var s := Settings(Some(input), Some(output), 24, 24);
            var r := Run(["--input", input, "--output", output], disk, convert);
            r.0 == (if convert(s).Converted? then Exited(0) else Exited(3))
            && (output in r.1.files <==> output in disk.files || !convert(s).FailedBeforeOpen?)
  {
    var args := ["--input", input, "--output", output];
    assert args[2..] == ["--output", output];
    assert args[2..][2..] == [];
    var s1 := Defaults.(input := Some(input));
    assert ParseArgs(args[2..], s1) == ParseArgs([], s1.(output := Some(output)));
    assert ParseArgs(args, Defaults) == Parsed(Settings(Some(input), Some(output), 24, 24));
  }
}

=== FILE: text.dfy ===
/**
 * String primitives the editor relies on, stated over `seq<char>`.
 * Case-insensitive comparison and white-space tests are ASCII-only:
 * the model has no culture tables and no Unicode case mapping.
 */
module Text {
  import opened Options

  // ---------------------------------------------------------------------------
  // Case
  // ---------------------------------------------------------------------------

  predicate IsUpperAscii(c: char)
  {
    'A' <= c <= 'Z'
  }

  function ToLowerChar(c: char): char
  {
    if IsUpperAscii(c) then (c as int + 32) as char else c
  }

  /** `ToLowerInvariant` restricted to ASCII letters. */
  function ToLower(s: string): (r: string)
    ensures |r| == |s|
    ensures forall i :: 0 <= i < |s| ==> r[i] == ToLowerChar(s[i])
  {
    seq(|s|, i requires 0 <= i < |s| => ToLowerChar(s[i]))
  }

  /** A lower-cased string holds no upper-case letter. */
  lemma ToLowerHasNoUpper(s: string)
    ensures forall i :: 0 <= i < |s| ==> !IsUpperAscii(ToLower(s)[i])
  {
  }

  /** `StringComparison.OrdinalIgnoreCase` equality. */
  predicate EqualsIgnoreCase(a: string, b: string)
  {
    ToLower(a) == ToLower(b)
  }

  predicate StartsWithIgnoreCase(s: string, prefix: string)
  {
    |prefix| <= |s| && EqualsIgnoreCase(s[..|prefix|], prefix)
  }

  predicate EndsWithIgnoreCase(s: string, suffix: string)
  {
    |suffix| <= |s| && EqualsIgnoreCase(s[|s| - |suffix|..], suffix)
  }

  // ---------------------------------------------------------------------------
  // White space
  // ---------------------------------------------------------------------------

  /** `char.IsWhiteSpace` on ASCII: space and the controls TAB through CR. */
  predicate IsWhiteSpace(c: char)
  {
    c == ' ' || '\t' <= c <= '\r'
  }

  /** `string.IsNullOrWhiteSpace`. */
  predicate IsNullOrWhiteSpace(s: Option<string>)
  {
    match s
    case None => true
    case Some(t) => forall i :: 0 <= i < |t| ==> IsWhiteSpace(t[i])
  }

  // ---------------------------------------------------------------------------
  // Ordinal replacement (`string.Replace(string, string)`)
  // ---------------------------------------------------------------------------

  /**
   * Replaces every non-overlapping occurrence of `pat`, scanning left to
   * right; the inserted text is never scanned again.
   */
  function Replace(s: string, pat: string, rep: string): string
    requires |pat| > 0
    decreases |s|
  {
    if |s| == 0 then ""
    else if pat <= s then rep + Replace(s[|pat|..], pat, rep)
    else [s[0]] + Replace(s[1..], pat, rep)
  }

  /** `pat` occurs in `s` starting at index `i`. */
  predicate OccursAt(s: string, pat: string, i: int)
  {
    0 <= i && i + |pat| <= |s| && s[i..i + |pat|] == pat
  }

  /** Text without any occurrence of the pattern is left as it is. */
  lemma {:induction false} ReplaceAbsent(s: string, pat: string, rep: string)
    requires |pat| > 0
    requires forall i :: 0 <= i < |s| ==> !OccursAt(s, pat, i)
    ensures Replace(s, pat, rep) == s
    decreases |s|
  {
    if |s| > 0 {
      assert !OccursAt(s, pat, 0);
      if |pat| <= |s| {
        assert s[0..|pat|] == s[..|pat|];
      }
      assert !(pat <= s);
      forall i | 0 <= i < |s[1..]|
        ensures !OccursAt(s[1..], pat, i)
      {
        assert !OccursAt(s, pat, i + 1);
        if i + |pat| <= |s[1..]| {
          assert s[1..][i..i + |pat|] == s[i + 1..i + 1 + |pat|];
        }
      }
      ReplaceAbsent(s[1..], pat, rep);
    }
  }

  /**
   * Replacement passes over a prefix that holds no character equal to the
   * first character of the pattern.
   */
  lemma {:induction false} ReplaceSkipsPrefix(x: string, y: string, pat: string, rep: string)
    requires |pat| > 0
    requires forall i :: 0 <= i < |x| ==> x[i] != pat[0]
    ensures Replace(x + y, pat, rep) == x + Replace(y, pat, rep)
    decreases |x|
  {
    if |x| > 0 {
      var s := x + y;
      assert s[0] == x[0];
      assert pat[0] != s[0];
      assert !(pat <= s);
      assert s[1..] == x[1..] + y;
      ReplaceSkipsPrefix(x[1..], y, pat, rep);
      calc {
        Replace(s, pat, rep);
        [s[0]] + Replace(s[1..], pat, rep);
        [x[0]] + (x[1..] + Replace(y, pat, rep));
        { assert [x[0]] + x[1..] == x; }
        x + Replace(y, pat, rep);
      }
    } else {
      assert x + y == y;
    }
  }

  /** A leading occurrence is replaced and scanning resumes after it. */
  lemma ReplaceLeading(pat: string, y: string, rep: string)
    requires |pat| > 0
    ensures Replace(pat + y, pat, rep) == rep + Replace(y, pat, rep)
  {
    var s := pat + y;
    assert pat <= s;
    assert s[|pat|..] == y;
  }

  // ---------------------------------------------------------------------------
  // Decimal numbers
  // ---------------------------------------------------------------------------

  predicate IsDigit(c: char)
  {
    '0' <= c <= '9'
  }

  predicate AllDigits(s: string)
  {
    forall i :: 0 <= i < |s| ==> IsDigit(s[i])
  }

  function DigitChar(d: nat): (c: char)
    requires d < 10
    ensures IsDigit(c)
  {
    ('0' as int + d) as char
  }

  /** The value of a string of decimal digits, most significant first. */
  function DigitsValue(s: string): nat
    requires AllDigits(s)
    decreases |s|
  {
    if |s| == 0 then 0
    else DigitsValue(s[..|s| - 1]) * 10 + (s[|s| - 1] as int - '0' as int)
  }

  /** `int.ToString()` for a non-negative value (no sign, no leading zeros). */
  function NatToString(n: nat): (r: string)
    decreases n
  {
    if n < 10 then [DigitChar(n)] else NatToString(n / 10) + [DigitChar(n % 10)]
  }

  /** Printing then reading back a natural number gives it back. */
  lemma {:induction false} NatToStringRoundTrip(n: nat)
    ensures |NatToString(n)| > 0
    ensures AllDigits(NatToString(n))
    ensures DigitsValue(NatToString(n)) == n
    decreases n
  {
    if n >= 10 {
      NatToStringRoundTrip(n / 10);
      var s := NatToString(n);
      assert s[..|s| - 1] == NatToString(n / 10);
    }
  }

  /** A printed number holds no '{', so it never re-forms a placeholder. */
  lemma NatToStringHasNoBrace(n: nat)
    ensures forall i :: 0 <= i < |NatToString(n)| ==> NatToString(n)[i] != '{'
  {
    NatToStringRoundTrip(n);
  }

  // ---------------------------------------------------------------------------
  // 32-bit integers (`int.Parse` with the default integer style)
  // ---------------------------------------------------------------------------

  type Int32 = x: int | -0x8000_0000 <= x < 0x8000_0000

  datatype ParsedInt = ParsedInt(value: Int32) | FormatError | OverflowError

  /** `TrimStart()`: leading white space removed. */
  function TrimStart(s: string): (r: string)
    ensures |r| <= |s| && r == s[|s| - |r|..]
    ensures forall i :: 0 <= i < |s| - |r| ==> IsWhiteSpace(s[i])
    ensures |r| > 0 ==> !IsWhiteSpace(r[0])
    decreases |s|
  {
    if |s| > 0 && IsWhiteSpace(s[0]) then TrimStart(s[1..]) else s
  }

  /** `TrimEnd()`: trailing white space removed. */
  function TrimEnd(s: string): (r: string)
    ensures |r| <= |s| && r == s[..|r|]
    ensures forall i :: |r| <= i < |s| ==> IsWhiteSpace(s[i])
    ensures |r| > 0 ==> !IsWhiteSpace(r[|r| - 1])
    decreases |s|
  {
    if |s| > 0 && IsWhiteSpace(s[|s| - 1]) then TrimEnd(s[..|s| - 1]) else s
  }

  /**
   * `int.Parse`: optional white space, an optional '+' or '-', one or more
   * decimal digits, optional white space. Anything else is a format error;
   * a well-formed number outside the 32-bit range overflows.
   */
  function ParseInt32(s: string): (r: ParsedInt)
  {
    ParseSigned(TrimEnd(TrimStart(s)))
  }

  /** A sign and digits with no surrounding white space. */
  function ParseSigned(t: string): ParsedInt
  {
    var signed := |t| > 0 && (t[0] == '-' || t[0] == '+');
    var digits := if signed then t[1..] else t;
    if |digits| == 0 || !AllDigits(digits) then FormatError
    else
      var magnitude: int := DigitsValue(digits);
      var v := if signed && t[0] == '-' then -magnitude else magnitude;
      if -0x8000_0000 <= v < 0x8000_0000 then ParsedInt(v) else OverflowError
  }

  /** White space only at the edges is trimmed: text without it is left alone. */
  lemma TrimKeeps(s: string)
    requires |s| > 0 && !IsWhiteSpace(s[0]) && !IsWhiteSpace(s[|s| - 1])
    ensures TrimEnd(TrimStart(s)) == s
  {
  }

  /** Unsigned digits parse to their value, or overflow above the 32-bit range. */
  lemma ParseDigits(d: string)
    requires |d| > 0 && AllDigits(d)
    ensures DigitsValue(d) < 0x8000_0000 ==> ParseSigned(d) == ParsedInt(DigitsValue(d))
    ensures DigitsValue(d) >= 0x8000_0000 ==> ParseSigned(d) == OverflowError
  {
    assert IsDigit(d[0]);
  }

  /** Printing a number and parsing it back gives it back, inside the 32-bit range; above it, parsing overflows. */
  lemma ParseInt32RoundTrip(n: nat)
    ensures n < 0x8000_0000 ==> ParseInt32(NatToString(n)) == ParsedInt(n)
    ensures n >= 0x8000_0000 ==> ParseInt32(NatToString(n)) == OverflowError
  {
    NatToStringRoundTrip(n);
    var s := NatToString(n);
    assert IsDigit(s[0]) && IsDigit(s[|s| - 1]);
    TrimKeeps(s);
    ParseDigits(s);
  }

  /** A minus sign negates, down to the least 32-bit value. */
  lemma ParseInt32Negative(n: int)
    requires 0 <= n <= 0x8000_0000
    ensures ParseInt32("-" + NatToString(n)) == ParsedInt(-n)
  {
    NatToStringRoundTrip(n);
    var d := NatToString(n);
    var s := "-" + d;
    assert IsDigit(s[|s| - 1]);
    TrimKeeps(s);
    assert s[1..] == d;
  }

  /** Text that holds no digit never parses. */
  lemma {:induction false} NoDigitsNoNumber(s: string)
    requires forall i :: 0 <= i < |s| ==> !IsDigit(s[i])
    ensures ParseInt32(s) == FormatError
  {
    var t := TrimEnd(TrimStart(s));
    assert forall i :: 0 <= i < |t| ==> t[i] == s[|s| - |TrimStart(s)| + i];
    if |t| > 0 && (t[0] == '-' || t[0] == '+') {
      if |t| > 1 {
        assert t[1..][0] == t[1];
      }
    } else if |t| > 0 {
      assert t[0] == s[|s| - |TrimStart(s)|];
    }
  }
}
